=== FILE: README.md ===
# fyrel bookkeeping core in Dafny

fyrel is a small single-page bookkeeping application. Its engine is one
React hook, `useAccounting`. The hook keeps products, transactions, journal
lines, manual journal lines, invoices, payments, collections and the chart
of accounts. It turns every business event into a fixed group of debit and
credit lines against hard-coded account codes, and it keeps product stock
through inbound (`entradas`) and outbound (`salidas`) counters. It also
folds the lines into a general ledger and derives the financial statements.
Around the hook sit forms that check and convert what reaches it, and pages
that derive tables from its output.

This project models that core as pure functions over immutable datatypes:

- `Text`: the number inputs the forms read. `NumText` is either blank or
  a number; there are `parseFloat(x) || 0`, `parseInt` truncation, a
  four-character suffix, and index removal.
- `Chart`: accounts, the initial chart, the sign rule (a code starting with
  '1' or '5' is debit-normal), the chart edits and the account filters the
  forms offer.
- `Journal`: journal lines, their origin tag (transaction, invoice,
  payment, collection, manual, income/expense), totals and the filters the
  hook and the ledger use.
- `Inventory`: products, `updateInventory` and `revertInventoryUpdate`,
  and the hook's write discipline. Every write in one command is a whole
  product record built from the product list as it was before the
  command, and the writes are replayed in order.
- `Posting`: the line groups for a sale, a purchase, an invoice, a
  payment, a collection, an income, an expense and a manual entry.
- `Ledger`, `Sorting`, `Statements`: `getGeneralLedger` (a ledger with one
  record per posted chart code, given map semantics by `Lookup`, and listed
  in the order `Object.values` gives: all-digit codes ascending by value,
  then any other code in first-posting order) and
  `getFinancialStatements` (the five families, net income, equity, and the
  stably date-sorted cash flow).
- `Engine`: the hook's state and every command as a `State -> State`
  transition. It also holds the journal invariant the commands keep.
- `LedgerView`, `StatementsView`, `JournalBook`, `Contacts`, `Dashboard`:
  what the general-ledger, statements, journal-book and dashboard pages
  derive.
- `ManualEntryForm`, `InvoiceForm`, `TransactionForm`, `ProductForm`,
  `ChartManager`, `CollectionForm`, `PaymentForm`, `IncomeExpenseForm`:
  the forms' validation, conversion and calculators.

Amounts are `real`, so the 0.6 cost fallback and the 12% tax are exact.
The following are parameters of the operations that need them:

- ids, the generated entry ids and dates (dates are integers);
- the current day a form resets to;
- the type string a transaction was stored with.

The engine keeps the program's behaviour, including its quirks:

- invoice tax is never posted, so collecting an invoice for the total the collection form fills in credits 1103 by the tax more than the invoice debited it (`CollectionForm.AutoFilledCollectionOvercredits`);
- manual lines sit in both the journal list and the manual list, so the
  ledger counts them twice;
- there is no negative-stock guard;
- lines on accounts missing from the chart are dropped from the ledger;
- the hook adds chart accounts without a duplicate check;
- sales of unknown products fall back to 60% of the total as their cost.

Where the program loses or corrupts data, "## Findings" names the input. The
model keeps the as-written operation and adds a corrected one beside it,
with the intended property proved about the corrected one.

## Model

| member | source | states |
|---|---|---|
| Text.ParseFloatOrZero | fyrel/src/components/ManualJournalEntryForm.jsx:27-28 | a blank input counts as 0 and a number as itself |
| Text.Trunc | fyrel/src/components/TransactionForm.jsx:51 | `parseInt` of a number: the integer within one unit of it, toward zero, on either sign |
| Text.TruncOfWhole | fyrel/src/components/TransactionForm.jsx:31 | an integer written out and parsed back is unchanged |
| Text.Last4 | fyrel/src/hooks/useAccounting.js:126 | `slice(-4)`: the suffix of at most four characters, which completes the string |
| Text.RemoveAt | fyrel/src/components/ManualJournalEntryForm.jsx:18 | removing line i drops exactly that line and keeps the others in order; an index out of range changes nothing |
| Text.RemoveAddedLine | fyrel/src/components/ManualJournalEntryForm.jsx:17-18 | removing the line just added gives back the previous lines |
| Chart.SignedBalance | fyrel/src/hooks/useAccounting.js:208-212 | debit minus credit for codes starting '1' or '5', credit minus debit otherwise |
| Chart.Find | fyrel/src/hooks/useAccounting.js:200 | finds an account exactly when the code is in the chart, and the one found is the first with that code |
| Chart.AddAccount | fyrel/src/hooks/useAccounting.js:250-253 | the account is appended and nothing else changes |
| Chart.UpdateAccount | fyrel/src/hooks/useAccounting.js:254 | every account with the code is replaced and all others stay in place |
| Chart.DeleteAccount | fyrel/src/hooks/useAccounting.js:255 | exactly the accounts with other codes remain; a chart without the code is returned unchanged, and one holding only that code becomes empty |
| Chart.DeleteAccountAppend | fyrel/src/hooks/useAccounting.js:255 | deletion works piecewise over concatenation, so the kept accounts keep their order and multiplicity |
| Chart.DetailAccounts | fyrel/src/components/ManualJournalEntryForm.jsx:46 | exactly the detail accounts are offered |
| Chart.CashBankAccounts | fyrel/src/components/PaymentForm.jsx:34 | exactly the detail accounts whose code starts with 1101 or 1102 are offered |
| Chart.CurrentAssetAccounts | fyrel/src/components/IncomeExpenseForm.jsx:36 | exactly the detail accounts whose code starts with 11 are offered |
| Chart.InitialChartFamilies | fyrel/src/hooks/useAccounting.js:4-24 | every code of the initial chart starts with a digit from 1 to 5 |
| Chart.ReceivableOfferedForIncome | fyrel/src/components/IncomeExpenseForm.jsx:36 | the receivables account 1103 is offered for an income or expense, but not as a cash or bank account |
| Chart.HookAddAllowsDuplicate | fyrel/src/hooks/useAccounting.js:250-253 | the hook accepts a second account with an existing code, so chart codes can repeat |
| Journal.TotalsAppend | fyrel/src/hooks/useAccounting.js:206-207 | debit, credit and net totals add over concatenation |
| Journal.AppendBalanced | fyrel/src/hooks/useAccounting.js:145 | appending a group to a balanced journal keeps it balanced exactly when the group balances |
| Journal.EntriesFor | fyrel/src/hooks/useAccounting.js:199-205 | exactly the lines on the account code, in order |
| Journal.WithoutTransaction | fyrel/src/hooks/useAccounting.js:103 | exactly the lines not tagged with the transaction id remain |
| Journal.TransactionLines | fyrel/src/hooks/useAccounting.js:91 | exactly the lines tagged with the transaction id |
| Journal.NetWithoutTransaction | fyrel/src/hooks/useAccounting.js:103 | removing a transaction's lines takes exactly their net amount off the journal's |
| Inventory.ParseType | fyrel/src/hooks/useAccounting.js:110-111 | only "sale" and "purchase" are recognised movements |
| Inventory.Apply | fyrel/src/hooks/useAccounting.js:106-113 | a movement changes only stock, `entradas` and `salidas`, and every other field of the record (id, code, name, cost, price, initial stock) is kept; an unrecognised type is a no-op |
| Inventory.Revert | fyrel/src/hooks/useAccounting.js:114-121 | a revert changes only stock, `entradas` and `salidas`, and keeps every other field of the record; an unrecognised type is a no-op |
| Inventory.RevertUndoesApply | fyrel/src/hooks/useAccounting.js:106-121 | revert and apply of the same movement are inverses, in both orders |
| Inventory.MovementEffect | fyrel/src/hooks/useAccounting.js:110-111 | a purchase adds the quantity to stock and `entradas`; a sale removes it from stock and adds it to `salidas`; the other counter stays |
| Inventory.MovementsKeepConsistent | fyrel/src/hooks/useAccounting.js:106-121 | apply and revert keep `stock = initialStock + entradas - salidas`, and cannot establish it either |
| Inventory.SaleCanOverdraw | fyrel/src/hooks/useAccounting.js:111 | a sale larger than the stock leaves the stock negative; nothing guards against it |
| Inventory.FindProduct | fyrel/src/hooks/useAccounting.js:107 | finds a product with the id exactly when one exists, and the one found is the first with that id |
| Inventory.ReplaceProduct | fyrel/src/hooks/useAccounting.js:77 | `updateProduct`: every record with the id is replaced and the others stay in place |
| Inventory.WriteFrom | fyrel/src/hooks/useAccounting.js:107-112 | a movement writes nothing for an unknown product, and otherwise writes the snapshot's record moved |
| Inventory.WritesFrom | fyrel/src/hooks/useAccounting.js:267-281 | every write of one command is built from the same snapshot |
| Inventory.LastWriteWins | fyrel/src/hooks/useAccounting.js:77 | of two writes for one id, the second erases the first |
| Inventory.FindAfterReplace | fyrel/src/hooks/useAccounting.js:77 | a write changes what is found for its own id only |
| Inventory.FindWritten | fyrel/src/hooks/useAccounting.js:77 | after a write to a present id, that id finds the written record |
| Inventory.ReplaceWithSelf | fyrel/src/hooks/useAccounting.js:77 | writing back a record already in a list with unique ids changes nothing |
| Inventory.SnapshotMatchesSequential | fyrel/src/hooks/useAccounting.js:107 | with distinct product ids, replaying snapshot writes equals moving the products one step at a time |
| Inventory.SnapshotIsSequentialWhenDistinct | fyrel/src/hooks/useAccounting.js:267-281 | when a command touches each product at most once, the snapshot discipline is sequential application |
| Inventory.CommitKeepsConsistent | fyrel/src/hooks/useAccounting.js:112 | replaying writes that each satisfy the stock identity keeps it for every product |
| Inventory.SnapshotRunKeepsConsistent | fyrel/src/hooks/useAccounting.js:106-121 | a command's movements keep the stock identity for every product |
| Inventory.UnknownProductIsNoOp | fyrel/src/hooks/useAccounting.js:107-108 | a movement of an unknown product leaves the list unchanged, under either discipline |
| Posting.CostOfSale | fyrel/src/hooks/useAccounting.js:128 | the cost is the product's cost times the quantity, or 60% of the total when the product is unknown |
| Posting.SameCostSameCostOfSale | fyrel/src/hooks/useAccounting.js:127-128 | the cost depends only on whether the product is known and on its unit cost |
| Posting.TwoLegs | fyrel/src/hooks/useAccounting.js:166-169 | a two-line group: debit one code and credit another with the same amount, every line tagged alike |
| Posting.SaleLegs | fyrel/src/hooks/useAccounting.js:135-139 | four lines: Dr 1103 and Cr 4101 the amount, Dr 5101 and Cr 1201 the cost |
| Posting.TwoLegsBalanced | fyrel/src/hooks/useAccounting.js:166-169 | a two-line group balances |
| Posting.SaleLegsBalanced | fyrel/src/hooks/useAccounting.js:135-139 | a sale group balances |
| Posting.TransactionPosting | fyrel/src/hooks/useAccounting.js:123-146 | a sale posts the four sale lines with its cost of sale; a purchase posts Dr 1201 and Cr 2101 the total; any other type posts nothing; every line carries the transaction id |
| Posting.TransactionPostingBalanced | fyrel/src/hooks/useAccounting.js:133-144 | a transaction's group balances |
| Posting.InvoiceLinesPosting | fyrel/src/hooks/useAccounting.js:267-276 | line i of an invoice posts lines 4i to 4i+3: the sale pattern for the line's total and cost |
| Posting.InvoicePosting | fyrel/src/hooks/useAccounting.js:262-282 | four lines per invoice line, all under the invoice's entry id |
| Posting.InvoiceLinesBalanced | fyrel/src/hooks/useAccounting.js:267-276 | an invoice's lines balance, and 1103 is debited and 4101 credited with the sum of the line totals |
| Posting.InvoicePostingBalanced | fyrel/src/hooks/useAccounting.js:267-282 | an invoice's group balances and debits 1103 with the line totals only, so the tax is not posted |
| Posting.TwoLegsEntries | fyrel/src/hooks/useAccounting.js:181-184 | a two-line group moves exactly its debit code and its credit code by the amount, and no other account |
| Posting.SaleEntries | fyrel/src/hooks/useAccounting.js:135-136 | a sale debits 1103 and credits 4101 by its total |
| Posting.PaymentPosting | fyrel/src/hooks/useAccounting.js:163-169 | a payment debits 2101 and credits the chosen account with its amount, balanced |
| Posting.CollectionPosting | fyrel/src/hooks/useAccounting.js:178-184 | a collection debits the chosen account and credits 1103 with its amount, balanced |
| Posting.IncomePosting | fyrel/src/hooks/useAccounting.js:289-295 | an income debits the chosen account and credits 4102, balanced |
| Posting.ExpensePosting | fyrel/src/hooks/useAccounting.js:300-306 | an expense debits 5103 and credits the chosen account, balanced |
| Posting.ManualPosting | fyrel/src/hooks/useAccounting.js:149-154 | one line per input line, with the same account; debit and credit are read with blank as 0; a blank description falls back to the entry's |
| Posting.ManualPostingTotals | fyrel/src/hooks/useAccounting.js:148-157 | the posted totals are the input totals, so a manual group balances exactly when its inputs do; nothing checks it |
| Ledger.AccountFor | fyrel/src/hooks/useAccounting.js:199-212 | an account's record holds exactly its lines in order, the chart's name, and the signed balance of their totals |
| Ledger.Lookup | fyrel/src/hooks/useAccounting.js:231 | finds a record exactly when one has the code |
| Ledger.Open | fyrel/src/hooks/useAccounting.js:202-205 | the first line on a chart code opens its record with that line |
| Ledger.AddLine | fyrel/src/hooks/useAccounting.js:205-212 | a further line is appended, moves the record's net by its own, and the balance is re-signed |
| Ledger.LedgerOf | fyrel/src/hooks/useAccounting.js:196-215 | every record is on a chart code and carries the signed balance of its totals |
| Ledger.LedgerOfSnoc | fyrel/src/hooks/useAccounting.js:199-213 | the ledger of the lines plus one more is the ledger of the lines with that line posted |
| Ledger.LedgerDescribes | fyrel/src/hooks/useAccounting.js:196-215 | as a map, the ledger has a record for exactly the chart codes with lines, and each is that code's record; codes are distinct |
| Ledger.GetGeneralLedger | fyrel/src/hooks/useAccounting.js:196-215 | the fold over journal lines then manual lines builds that map, listed in `Object.values` order: array-index codes first, ascending by value |
| Ledger.GeneralLedger | fyrel/src/hooks/useAccounting.js:197-214 | the returned ledger holds the fold's records, each once, sorted by the `Object.values` key order |
| Ledger.GeneralLedgerStable | fyrel/src/hooks/useAccounting.js:214 | records whose codes are not array indices keep their first-posting order |
| Ledger.GeneralLedgerDescribes | fyrel/src/hooks/useAccounting.js:196-215 | the listed ledger is still that map: one record per code, each the code's record, on a chart code with its signed balance |
| Ledger.DescribesPermutation | fyrel/src/hooks/useAccounting.js:214 | reordering a ledger with one record per code changes no lookup and keeps the codes distinct |
| Ledger.SumNetOfPermutation | fyrel/src/hooks/useAccounting.js:214 | the records' net amount does not depend on their order |
| Ledger.Posted | fyrel/src/hooks/useAccounting.js:200-201 | exactly the lines on chart codes are kept; with every line on the chart, all are |
| Ledger.LedgerNet | fyrel/src/hooks/useAccounting.js:196-215 | the records' debits minus credits add up to the net of the lines on chart codes |
| Ledger.PostNet | fyrel/src/hooks/useAccounting.js:199-212 | posting one line moves the ledger's net by that line's, or not at all when its code is off the chart |
| Ledger.DeletedAccountVanishes | fyrel/src/hooks/useAccounting.js:200-201 | after an account is deleted, its lines no longer show in the ledger |
| Ledger.LedgerRecord | fyrel/src/hooks/useAccounting.js:202-212 | every record of the ledger is a chart code's record and has at least one line |
| Sorting.Sort | fyrel/src/hooks/useAccounting.js:233 | sorting is a permutation |
| Sorting.SortSorted | fyrel/src/hooks/useAccounting.js:233 | under a total, transitive order, the result is sorted |
| Sorting.SortStable | fyrel/src/hooks/useAccounting.js:233 | elements that tie keep their relative order |
| Sorting.SortOfSorted | fyrel/src/hooks/useAccounting.js:233 | an already sorted list is left as it is |
| Statements.Family | fyrel/src/hooks/useAccounting.js:219-225 | a family is exactly the records whose code starts with its digit |
| Statements.BalanceOrZero | fyrel/src/hooks/useAccounting.js:234 | an account's balance, or 0 when it has no record |
| Statements.EntriesOrEmpty | fyrel/src/hooks/useAccounting.js:233 | an account's lines, or none when it has no record |
| Statements.ByDateOrders | fyrel/src/hooks/useAccounting.js:233 | comparing by date is a total, transitive order |
| Statements.StatementsOf | fyrel/src/hooks/useAccounting.js:217-240 | each of the five sections is its family of ledger records, and each section total is the sum of their balances; net income is revenues minus expenses; equity includes net income; net cash flow is the cash and bank balances (0 when absent); the cash-flow list is the stable date sort of the 1101 lines then the 1102 lines |
| Statements.CashFlowStable | fyrel/src/hooks/useAccounting.js:231-233 | the lines of any one date keep their order from the cash lines in the cash-flow list, 1101's before 1102's |
| Statements.SectionsPartition | fyrel/src/hooks/useAccounting.js:219-225 | a record is in a section exactly when its code starts with the section's digit |
| Statements.FamilySplit | fyrel/src/hooks/useAccounting.js:217-230 | over families 1 to 5, the ledger's net is assets minus liabilities, equity and revenues plus expenses |
| Statements.AccountingIdentity | fyrel/src/hooks/useAccounting.js:217-240 | when the lines on chart codes balance and every chart code starts with 1 to 5, assets equal liabilities plus equity |
| Statements.AccountingIdentityForChartLines | fyrel/src/hooks/useAccounting.js:217-240 | the same identity when every line is on a chart code and the lines balance |
| Statements.NetOfPermutation | fyrel/src/hooks/useAccounting.js:233 | reordering lines does not change their net amount |
| Statements.DebitNormalNet | fyrel/src/hooks/useAccounting.js:208-209 | for a debit-normal code, the net of its lines is its balance |
| Statements.CashFlowNet | fyrel/src/hooks/useAccounting.js:231-234 | the net of the sorted cash-flow lines is the net cash flow |
| LedgerView.Abs | fyrel/fyrel/src/components/GeneralLedger.jsx:47 | the shown amount is the value or its negation, never negative |
| LedgerView.PositiveCell | fyrel/fyrel/src/components/GeneralLedger.jsx:72-77 | a debit or credit cell shows the value exactly when it is positive |
| LedgerView.Rows | fyrel/fyrel/src/components/GeneralLedger.jsx:63-79 | row i shows the line's date, description and positive cells, and the running balance of debit minus credit over rows 0..i, shown as an absolute value; the last is the net of all rows |
| LedgerView.MagnitudeOf | fyrel/fyrel/src/components/GeneralLedger.jsx:46-47 | a signed amount is shown as its absolute value, marked non-negative exactly when it is |
| LedgerView.FinalRunningBalance | fyrel/fyrel/src/components/GeneralLedger.jsx:63-66 | the last running balance is total debit minus total credit: the balance for '1' and '5' codes, its negation otherwise |
| LedgerView.CreditExcessLabelledDebtor | fyrel/fyrel/src/components/GeneralLedger.jsx:46-47 | for a credit-normal account, the header reads "(Deudor)" exactly when credits reach debits, so the label follows the sign and not the side |
| LedgerView.EmptyLedgerIffNothingPosted | fyrel/fyrel/src/components/GeneralLedger.jsx:104-109 | the empty message shows exactly when no line is on a chart code |
| StatementsView.SectionRows | fyrel/src/components/FinancialStatements.jsx:63-70 | each account row shows the absolute balance |
| StatementsView.ShownRowsAgainstTotal | fyrel/src/components/FinancialStatements.jsx:63-76 | the shown rows add up to at least the signed section total, and to exactly it when no balance in the section is negative |
| StatementsView.CashFlowTable | fyrel/src/components/FinancialStatements.jsx:230-262 | one row per cash line; the last running balance is the net cash flow; the banner reads positive exactly when the net cash flow is not negative |
| StatementsView.EquityChangesOf | fyrel/src/components/FinancialStatements.jsx:291-318 | the opening row is all zero, and the closing row is the opening row plus the period's row |
| StatementsView.EquityViewClosesAtNetIncome | fyrel/src/components/FinancialStatements.jsx:291-318 | the view closes at net income, which equals the balance sheet's total equity exactly when the equity accounts sum to zero |
| JournalBook.Keys | fyrel/fyrel/src/components/JournalBook.jsx:41 | the group keys are exactly the entry ids of the lines, each once |
| JournalBook.WithEntryId | fyrel/fyrel/src/components/JournalBook.jsx:19-25 | a group holds exactly the lines with its id |
| JournalBook.PushNew | fyrel/fyrel/src/components/JournalBook.jsx:20-23 | a line with a new id opens a group at the end |
| JournalBook.PushExisting | fyrel/fyrel/src/components/JournalBook.jsx:23 | a line with a known id is appended to that id's group |
| JournalBook.GroupLines | fyrel/fyrel/src/components/JournalBook.jsx:19-25 | one group per entry id, in order of first appearance, each holding that id's lines in order |
| JournalBook.GroupsPartition | fyrel/fyrel/src/components/JournalBook.jsx:19-25 | every line shows in its id's group and in no other |
| JournalBook.GroupDateIsFirstLine | fyrel/fyrel/src/components/JournalBook.jsx:53 | the date shown for a group is the date of the first line with its id |
| JournalBook.PostingShownBalanced | fyrel/fyrel/src/components/JournalBook.jsx:83-92 | a balanced posting whose id no other line shares shows as one group whose debit and credit totals are equal |
| Contacts.OfKind | fyrel/src/App.jsx:104-105 | exactly the contacts of the kind |
| Contacts.ClientsAndSuppliersSplit | fyrel/src/App.jsx:104-105 | no contact is both, and the two counts add up to all contacts when no contact has another kind |
| Dashboard.StatsOf | fyrel/src/App.jsx:104-119 | net income and cash balance come straight from the statements; the product, transaction and invoice counts are the list lengths; the client and supplier counts are the sizes of the two kind filters and together do not exceed the contacts |
| Dashboard.JournalList | fyrel/src/App.jsx:177 | the journal page gets the journal lines in order, then the manual lines in order |
| Dashboard.TransactionMovesPurchasesOnly | fyrel/src/App.jsx:111-113 | a transaction adds to purchases when it is a purchase, never to sales, and adds one to the count |
| Dashboard.InvoiceMovesSales | fyrel/src/App.jsx:112 | an invoice adds its taxed total to sales, nothing to purchases, and one to the count |
| Dashboard.CollectionsAndPaymentsAdd | fyrel/src/App.jsx:117-118 | a collection or payment adds its amount to its own total |
| Dashboard.ManualEntryListedTwice | fyrel/src/App.jsx:177 | a manual entry's lines reach the journal page twice |
| ManualEntryForm.AddLine | fyrel/src/components/ManualJournalEntryForm.jsx:17 | one empty line is appended and nothing else changes |
| ManualEntryForm.RemoveLine | fyrel/src/components/ManualJournalEntryForm.jsx:18 | exactly line i is removed, and the rest keep their order |
| ManualEntryForm.SetLine | fyrel/src/components/ManualJournalEntryForm.jsx:19-23 | only line i changes |
| ManualEntryForm.Submit | fyrel/src/components/ManualJournalEntryForm.jsx:25-44 | accepted exactly when every line has an account, debits equal credits and debits are not zero; a missing account is reported first; accepted lines are passed on unchanged and the form resets; a rejected form is kept |
| ManualEntryForm.AcceptedEntryKeepsInvariant | fyrel/src/components/ManualJournalEntryForm.jsx:34-39 | an accepted entry posts a balanced group and keeps the engine's invariant |
| ManualEntryForm.AcceptedEntryPostsAmount | fyrel/src/components/ManualJournalEntryForm.jsx:34-37 | an accepted entry posts its input debit total, which is not zero |
| ManualEntryForm.FreshFormRejected | fyrel/src/components/ManualJournalEntryForm.jsx:14 | the fresh form, with one empty line, is rejected for the missing account |
| Engine.AddProduct | fyrel/src/hooks/useAccounting.js:72-76 | the new product is appended with id = code (or the generated id), stock = initial stock, zero counters, so the stock identity holds; nothing else changes |
| Engine.UpdateProduct | fyrel/src/hooks/useAccounting.js:77 | only the product list changes, by replacement by id |
| Engine.RemoveProduct | fyrel/src/hooks/useAccounting.js:78 | exactly the products with other ids remain; a list without the id is returned unchanged, and one holding only that id becomes empty |
| Engine.RemoveProductAppend | fyrel/src/hooks/useAccounting.js:78 | removal works piecewise over concatenation, so the kept products keep their order and multiplicity |
| Engine.DeleteProduct | fyrel/src/hooks/useAccounting.js:78 | only the product list changes, and it becomes RemoveProduct of the old one |
| Engine.FindTransaction | fyrel/src/hooks/useAccounting.js:89 | finds a transaction with the id exactly when one exists, and the one found is the first with that id |
| Engine.ReplaceTransaction | fyrel/src/hooks/useAccounting.js:96 | every transaction with the id is replaced in place |
| Engine.RemoveTransaction | fyrel/src/hooks/useAccounting.js:102 | exactly the transactions with other ids remain; a list without the id is returned unchanged, and one holding only that id becomes empty |
| Engine.RemoveTransactionAppend | fyrel/src/hooks/useAccounting.js:102 | removal works piecewise over concatenation, so the kept transactions keep their order and multiplicity |
| Engine.AddTransaction | fyrel/src/hooks/useAccounting.js:80-86 | appends the transaction and its posting (costed from the products before the command), and moves its product from that snapshot; nothing else changes |
| Engine.UpdateTransaction | fyrel/src/hooks/useAccounting.js:87-98 | an unknown id changes nothing; otherwise the old lines are dropped and the new posting appended, the old movement is reverted and the new applied, both from the same snapshot, and the transaction is replaced in place |
| Engine.DeleteTransaction | fyrel/src/hooks/useAccounting.js:99-104 | the transactions become RemoveTransaction and the journal the order-preserving WithoutTransaction of the old ones; a known id reverts the first such transaction's movement from the product snapshot; an unknown id leaves the products alone; nothing else changes |
| Engine.AddManualEntry | fyrel/src/hooks/useAccounting.js:148-157 | the posting is appended to both the manual list and the journal; nothing else changes |
| Engine.AddPayment | fyrel/src/hooks/useAccounting.js:159-172 | the payment and its posting are appended; nothing else changes |
| Engine.MarkPaid | fyrel/src/hooks/useAccounting.js:188-190 | exactly the invoices with the id become paid |
| Engine.AddCollection | fyrel/src/hooks/useAccounting.js:174-193 | the collection and its posting are appended; with an invoice id set, exactly the matching invoices become paid; nothing else changes |
| Engine.InvoiceSteps | fyrel/src/hooks/useAccounting.js:277-280 | each invoice line is one sale of its product and quantity |
| Engine.AddInvoice | fyrel/src/hooks/useAccounting.js:257-284 | the invoice is appended as pending, its posting is appended, and its sales move the products from one snapshot; nothing else changes |
| Engine.UpdateInvoice | fyrel/src/hooks/useAccounting.js:285 | only the invoice list changes, by replacement by id |
| Engine.RemoveInvoice | fyrel/src/hooks/useAccounting.js:286 | exactly the invoices with other ids remain; a list without the id is returned unchanged, and one holding only that id becomes empty |
| Engine.RemoveInvoiceAppend | fyrel/src/hooks/useAccounting.js:286 | removal works piecewise over concatenation, so the kept invoices keep their order and multiplicity |
| Engine.DeleteInvoice | fyrel/src/hooks/useAccounting.js:286 | only the invoice list changes, and it becomes RemoveInvoice of the old one |
| Engine.AddIncome | fyrel/src/hooks/useAccounting.js:288-298 | only the journal changes, by the income posting |
| Engine.AddExpense | fyrel/src/hooks/useAccounting.js:299-309 | only the journal changes, by the expense posting |
| Engine.AddChartAccount | fyrel/src/hooks/useAccounting.js:250-253 | only the chart changes, by appending the account |
| Engine.UpdateChartAccount | fyrel/src/hooks/useAccounting.js:254 | only the chart changes, by replacement by code |
| Engine.DeleteChartAccount | fyrel/src/hooks/useAccounting.js:255 | only the chart changes, and it becomes Chart.DeleteAccount of the old one |
| Engine.InitialInvariant | fyrel/src/hooks/useAccounting.js:26-35 | the initial state satisfies the invariant: both line lists balance, each transaction's lines balance, every product satisfies the stock identity |
| Engine.RunKeepsConsistent | fyrel/src/hooks/useAccounting.js:106-121 | a command's movements keep the stock identity |
| Engine.AddTransactionKeepsInvariant | fyrel/src/hooks/useAccounting.js:80-86 | adding a transaction keeps the invariant |
| Engine.UpdateTransactionKeepsInvariant | fyrel/src/hooks/useAccounting.js:87-98 | editing a transaction keeps the invariant |
| Engine.DeleteTransactionKeepsInvariant | fyrel/src/hooks/useAccounting.js:99-104 | deleting a transaction keeps the invariant |
| Engine.AddManualEntryKeepsInvariant | fyrel/src/hooks/useAccounting.js:148-157 | a manual entry whose input debits equal its credits keeps the invariant |
| Engine.UnbalancedManualEntryBreaksBalance | fyrel/src/hooks/useAccounting.js:148-157 | the hook accepts an unbalanced manual entry, and the journal then no longer balances |
| Engine.AddPaymentKeepsInvariant | fyrel/src/hooks/useAccounting.js:159-172 | a payment keeps the invariant |
| Engine.AddCollectionKeepsInvariant | fyrel/src/hooks/useAccounting.js:174-193 | a collection keeps the invariant |
| Engine.AddInvoiceKeepsInvariant | fyrel/src/hooks/useAccounting.js:257-284 | an invoice keeps the invariant |
| Engine.AddIncomeKeepsInvariant | fyrel/src/hooks/useAccounting.js:288-298 | an income keeps the invariant |
| Engine.AddExpenseKeepsInvariant | fyrel/src/hooks/useAccounting.js:299-309 | an expense keeps the invariant |
| Engine.AddProductKeepsInvariant | fyrel/src/hooks/useAccounting.js:72-76 | a new product keeps the invariant |
| Engine.UpdateProductKeepsInvariant | fyrel/src/hooks/useAccounting.js:77 | writing a product that satisfies the stock identity keeps the invariant |
| Engine.ApplyThenRevert | fyrel/src/hooks/useAccounting.js:106-121 | when product ids are unique, applying a transaction's movement and then reverting it restores the product list |
| Engine.AddThenDeleteTransaction | fyrel/src/hooks/useAccounting.js:99-104 | when product ids are unique, deleting a transaction just added, under a fresh id, restores the whole state |
| Engine.UpdateTransactionFixed | fyrel/src/hooks/useAccounting.js:87-98 | the corrected edit: it posts like the source, but reverts the old movement and then applies the new one, one step at a time |
| Engine.UpdateTransactionFixedKeepsInvariant | fyrel/src/hooks/useAccounting.js:87-98 | the corrected edit keeps the invariant |
| Engine.UpdateFixedAgreesOnDistinctProducts | fyrel/src/hooks/useAccounting.js:87-98 | when the old and new transaction move different products, the source's edit is already correct |
| Engine.EditedSaleLosesRevert | fyrel/src/hooks/useAccounting.js:92-94 | a sale of 2 edited to 3 of the same product leaves stock 5 from 10, where entering the sale of 3 leaves 7 |
| Engine.EditEqualsReentry | fyrel/src/hooks/useAccounting.js:87-98 | when product ids are unique, the corrected edit of a just-added transaction gives the same state as adding the edited one |
| Engine.AddInvoiceFixed | fyrel/src/hooks/useAccounting.js:267-281 | the corrected invoice: it posts like the source, but moves stock one line at a time |
| Engine.SequentialSales | fyrel/src/hooks/useAccounting.js:277-280 | with the corrected invoice, each product is sold the sum of its lines' quantities |
| Engine.RepeatedProductLosesSale | fyrel/src/hooks/useAccounting.js:267-281 | an invoice with two lines of one product, 1 and then 2, leaves stock 8 from 10, where the corrected invoice leaves 7 |
| Engine.AddInvoiceFixedAgreesOnDistinctProducts | fyrel/src/hooks/useAccounting.js:267-281 | when no product repeats, the source's invoice is already correct |
| Engine.SequentialRunKeepsConsistent | fyrel/src/hooks/useAccounting.js:106-113 | moving products one step at a time keeps the stock identity |
| Engine.AddInvoiceFixedKeepsInvariant | fyrel/src/hooks/useAccounting.js:257-284 | the corrected invoice keeps the invariant |
| InvoiceForm.ChangeLine | fyrel/src/components/InvoiceForm.jsx:60-78 | an edited line's total is quantity times price (blank as 0); choosing a known product takes its price and name; a quantity or price edit changes only that field and the total |
| InvoiceForm.HandleLineChange | fyrel/src/components/InvoiceForm.jsx:60-78 | only line i changes |
| InvoiceForm.LineTotalsStayCurrent | fyrel/src/components/InvoiceForm.jsx:57-78 | adding, removing and editing lines keep every line total equal to its quantity times its price |
| InvoiceForm.TotalsOf | fyrel/src/components/InvoiceForm.jsx:49-55 | the subtotal is the sum of the line totals; the total is 1.12 times it; the tax is the difference |
| InvoiceForm.ToInvoiceLines | fyrel/src/components/InvoiceForm.jsx:88 | every form line is passed on, in order |
| InvoiceForm.Submit | fyrel/src/components/InvoiceForm.jsx:82-91 | accepted exactly when a client is chosen and every line has a product and a positive quantity; the invoice carries the lines, their subtotal, 12% tax and the taxed total |
| InvoiceForm.SubtotalIsLinesTotal | fyrel/src/components/InvoiceForm.jsx:50 | the form's subtotal is the sum the engine posts |
| InvoiceForm.TaxNeverPosted | fyrel/src/hooks/useAccounting.js:271-272 | a submitted invoice debits 1103 by its subtotal, short of its total by exactly the tax |
| TransactionForm.Prefill | fyrel/src/components/TransactionForm.jsx:25-40 | the edit form shows the transaction's type, product, contact and date, with every number filled and reading back as the stored quantity, price and total |
| TransactionForm.HandleChange | fyrel/src/components/TransactionForm.jsx:67-84 | changing type or product with a known product takes the price for a sale and the cost otherwise, and its name; changing quantity, price, type or product recomputes the total; contact and date change only themselves |
| TransactionForm.Recompute | fyrel/src/components/TransactionForm.jsx:70-81 | the recomputed total is quantity times price; the product's price is taken only on a type or product change with a known product |
| TransactionForm.SelectProduct | fyrel/src/components/TransactionForm.jsx:86-98 | a known product sets id, name, the price for the form's type and the total; an unknown one changes nothing |
| TransactionForm.TotalStaysCurrent | fyrel/src/components/TransactionForm.jsx:67-98 | the total stays quantity times price under every change and product selection |
| TransactionForm.Submit | fyrel/src/components/TransactionForm.jsx:42-65 | accepted exactly when type, product, quantity and price are filled; an edit keeps the transaction's id; the quantity is truncated, and the price and total are read as numbers |
| TransactionForm.PrefillRoundTrip | fyrel/src/components/TransactionForm.jsx:25-59 | saving an edit without changes gives back the transaction |
| TransactionForm.SubmittedTotal | fyrel/src/components/TransactionForm.jsx:49-55 | a submitted total is the form's quantity times the submitted price |
| ProductForm.Prefill | fyrel/src/components/ProductForm.jsx:23-37 | the edit form shows the code (or the id) and, as stock, the initial stock when non-zero, else the current stock |
| ProductForm.Submit | fyrel/src/components/ProductForm.jsx:39-66 | accepted exactly when code, name, price, cost and stock are filled; an edit keeps id, stock and counters and takes the form's fields with the stock truncated; a new product gets the form's fields |
| ProductForm.EditKeepsConsistentIff | fyrel/src/components/ProductForm.jsx:59 | an edit keeps the stock identity exactly when it keeps the initial stock |
| ProductForm.UnchangedEditBreaksStock | fyrel/src/components/ProductForm.jsx:32 | saving the edit form unchanged, for a product with initial stock 0 and stock 5, breaks the stock identity |
| ProductForm.PrefillFixed | fyrel/src/components/ProductForm.jsx:32 | the corrected prefill shows the stored initial stock, and otherwise equals the source's |
| ProductForm.FixedEditRoundTrip | fyrel/src/components/ProductForm.jsx:23-66 | with the corrected prefill, saving an edit without changes gives back the product, so the stock identity is kept |
| ProductForm.PrefillsAgree | fyrel/src/components/ProductForm.jsx:32 | the two prefills differ exactly when the initial stock is 0 and the stock is not |
| ChartManager.Save | fyrel/fyrel/src/components/ChartOfAccountsManager.jsx:67-75 | rejected for a missing code or name exactly when one is missing; rejected as a duplicate exactly when another account has the code; otherwise an add, or an update by code while editing |
| ChartManager.AddAcceptedIffNew | fyrel/fyrel/src/components/ChartOfAccountsManager.jsx:67-73 | a new account is accepted exactly when both fields are filled and the code is not in the chart |
| ChartManager.EditNeverDuplicate | fyrel/fyrel/src/components/ChartOfAccountsManager.jsx:68 | with the code locked while editing, an edit is never a duplicate |
| ChartManager.SaveKeepsUniqueCodes | fyrel/fyrel/src/components/ChartOfAccountsManager.jsx:67-75 | an accepted save keeps chart codes unique |
| ChartManager.DeleteRemovesCode | fyrel/fyrel/src/components/ChartOfAccountsManager.jsx:77-80 | delete removes the code, keeps every other account and shrinks the chart by one exactly when the code was there |
| ChartManager.Listing | fyrel/fyrel/src/components/ChartOfAccountsManager.jsx:98 | the list shows the same accounts, sorted by code |
| ChartManager.ListingStrictlyIncreasing | fyrel/fyrel/src/components/ChartOfAccountsManager.jsx:98 | with unique codes, the listed codes strictly increase |
| CollectionForm.PendingOf | fyrel/src/components/CollectionForm.jsx:25 | exactly the client's pending invoices are offered |
| CollectionForm.OnClientChange | fyrel/src/components/CollectionForm.jsx:23-42 | with exactly one pending invoice it is selected, with its total and note; otherwise invoice, amount and note are cleared |
| CollectionForm.FindInvoice | fyrel/src/components/CollectionForm.jsx:45 | finds an invoice with the id exactly when one exists, and the one found is the first with that id |
| CollectionForm.SelectInvoice | fyrel/src/components/CollectionForm.jsx:44-54 | choosing an offered invoice fills its id, total and note; anything else changes nothing |
| CollectionForm.Submit | fyrel/src/components/CollectionForm.jsx:56-65 | accepted exactly when client, amount and account are filled (the invoice is optional) and passed on as entered; the form resets on acceptance and is kept on rejection |
| CollectionForm.CollectionAccounts | fyrel/src/components/CollectionForm.jsx:69 | the offered accounts are chart accounts, never 1103 |
| CollectionForm.AutoFilledCollectionOvercredits | fyrel/src/components/CollectionForm.jsx:28-34 | collecting an auto-selected invoice credits 1103 by the tax more than the invoice debited it |
| CollectionForm.CollectedInvoiceLeavesPending | fyrel/src/hooks/useAccounting.js:186-191 | a collection for an invoice removes it from the pending list and keeps the others |
| PaymentForm.Submit | fyrel/src/components/PaymentForm.jsx:21-30 | accepted exactly when supplier, amount and account are filled; the payment is passed on and the form resets; a rejected form is kept |
| PaymentForm.PaymentSettlesPayable | fyrel/src/hooks/useAccounting.js:166-169 | a submitted payment debits 2101 and credits the chosen account by the amount, and touches no other account |
| IncomeExpenseForm.OfferedContacts | fyrel/src/components/IncomeExpenseForm.jsx:34 | clients for an income, suppliers for an expense |
| IncomeExpenseForm.OfferedAccounts | fyrel/src/components/IncomeExpenseForm.jsx:36 | exactly the detail accounts whose code starts with 11 |
| IncomeExpenseForm.Submit | fyrel/src/components/IncomeExpenseForm.jsx:21-30 | accepted exactly when description, amount and account are filled; the entry is passed on and the form resets; a rejected form is kept |
| IncomeExpenseForm.PostingMovesChosenAccount | fyrel/src/hooks/useAccounting.js:288-309 | a submitted income or expense posts a balanced group that moves the chosen account by plus or minus the amount, against 4102 or 5103 |

## Left out

- Browser storage (loading and saving every list) and authentication are not modelled.
- Id and date generation are parameters. Entry ids built from the last four digits of a time stamp can collide and merge journal-book groups; the model takes entry ids as given.
- ISO date conversion, locale formatting and `toFixed(2)` rounding are left out. Amounts are exact reals.
- Number parsing is reduced to blank-or-number. A text input that does not parse reads as blank. `NaN` does not arise, so the transaction total of a blank form is read as 0 rather than `NaN`; `TransactionForm.TotalStaysCurrent` shows the total is always filled once computed.
- React mechanics (effects, batching, state updaters that run twice) are left out. Only their observable effect on products is modelled: every write built from the pre-command snapshot, the last write per id winning.
- After an invoice-line edit the quantity is a string, and `salidas += quantity` would concatenate. The model keeps the quantity numeric.
- Line ids and line descriptions of generated postings are not modelled. Manual lines keep their description.
- A code spelled like an object-prototype key (`__proto__`) would not become an own property of the ledger object; the model gives it a record like any other code.
- In-place sorting of the chart array by the chart page is modelled as a sorted copy.
- Contact CRUD, product description and category, and the unused payment method are left out.
- The invoice form's totals are computed when the invoice is submitted, not through the effect that watches the lines.
- The ledger's balance field on chart accounts (always 0) is not modelled.
- TransactionForm.Prefill: the stored transaction keeps its type as parsed, so the form's type string is a parameter, and the contract says only that it parses back to the transaction's type.
- TransactionForm.PrefillRoundTrip: requires a non-empty type string and product id, which a saved transaction has.
- InvoiceForm.HandleLineChange: the source writes the edited field into the line object in place, and the lines are copied shallowly. While an invoice is being edited, its lines are the stored invoice's own line objects, so every keystroke also changes the invoice in the app's invoice list, and Cancelar does not undo it. That invoice's lines then disagree with its stored subtotal and total. The model has no shared objects: it changes only the form's copy of line i.
- Engine.ApplyThenRevert, Engine.AddThenDeleteTransaction, Engine.EditEqualsReentry: these round trips require unique product ids. The program does not enforce this: a product's id is its typed code, and nothing checks it for duplicates. With a repeated id, a write replaces every record with that id, so the round trip can fail.
- ChartManager.Save: the page's account form keeps no state in the model. After a duplicate code is refused, the form still shows its success message and clears itself (fyrel/fyrel/src/components/ChartOfAccountsManager.jsx:29-31), because the refusal happens in the page, not in the form.
- ChartManager.Listing: sorts by code-point order instead of `localeCompare`; the two agree on codes made only of digits.

## Findings

The engine keeps the commands as written, because that is what the program
does. Each corrected variant is proved to keep the engine's invariant and
to agree with the as-written command on every input that does not trigger
the discrepancy.

| source | as written | input that shows it | evidently intended | confidence | as-written member | corrected member |
|---|---|---|---|---|---|---|
| fyrel/src/hooks/useAccounting.js:87-98 | both the revert of the old transaction and the move for the new one are built from the same pre-command product record, and the second write replaces the first | a sale of 2 of a product with stock 10, edited to a sale of 3 of the same product: stock ends at 5, not 7 | revert then re-apply, as if the edited transaction had been entered instead | high, not executed | Engine.EditedSaleLosesRevert | Engine.EditEqualsReentry |
| fyrel/src/hooks/useAccounting.js:267-281 | each line's sale is built from the pre-command product record, so with a repeated product only the last line's sale remains | an invoice with lines of 1 and then 2 of one product with stock 10: stock ends at 8, not 7 | every line's quantity is sold | high, not executed | Engine.RepeatedProductLosesSale | Engine.SequentialSales |
| fyrel/src/components/ProductForm.jsx:32 | the edit form's stock falls back to the current stock when the stored initial stock is 0, and saving writes it as the initial stock | a product with initial stock 0 and 5 purchased, saved unchanged: initial stock becomes 5 while stock stays 5, breaking stock = initial + in - out | the stored initial stock is shown and saved back | medium, not executed | ProductForm.UnchangedEditBreaksStock | ProductForm.FixedEditRoundTrip |

=== FILE: chart.dfy ===
/**
 * The chart of accounts: account records, the nineteen seeded accounts, the
 * hook's add/update/delete operations (which do no duplicate check) and the
 * prefix rules that decide an account's statement family and normal side.
 */
module Chart {
  import opened Text

  datatype AccountType = Header | Detail

  datatype Account = Account(code: string, name: string, kind: AccountType)

  /** The chart seeded when nothing is stored yet. */
  const InitialChart: seq<Account> := [
    Account("1000", "Activos", Header),
    Account("1100", "Activos Corrientes", Header),
    Account("1101", "Caja", Detail),
    Account("1102", "Bancos", Detail),
    Account("1103", "Cuentas por Cobrar Clientes", Detail),
    Account("1200", "Inventario", Header),
    Account("1201", "Inventario de Mercancías", Detail),
    Account("2000", "Pasivos", Header),
    Account("2100", "Pasivos Corrientes", Header),
    Account("2101", "Cuentas por Pagar Proveedores", Detail),
    Account("3000", "Patrimonio", Header),
    Account("3101", "Capital Social", Detail),
    Account("4000", "Ingresos", Header),
    Account("4101", "Ventas", Detail),
    Account("4102", "Ingresos por Servicios", Detail),
    Account("5000", "Gastos", Header),
    Account("5101", "Costo de Ventas", Detail),
    Account("5102", "Gastos Operativos", Detail),
    Account("5103", "Gastos de Administración", Detail)
  ]

  /** The statement family of a code is its first character. */
  predicate InFamily(code: string, digit: char) {
    |code| > 0 && code[0] == digit
  }

  /** A code whose family is one of the five statement families 1..5. */
  predicate HasStatementFamily(code: string) {
    InFamily(code, '1') || InFamily(code, '2') || InFamily(code, '3')
    || InFamily(code, '4') || InFamily(code, '5')
  }

  /** Assets ('1') and expenses ('5') are debit-normal; every other code is credit-normal. */
  predicate DebitNormal(code: string) {
    InFamily(code, '1') || InFamily(code, '5')
  }

  /** The balance of an account by the sign rule of its code. */
  function SignedBalance(code: string, totalDebit: real, totalCredit: real): (b: real)
    ensures DebitNormal(code) ==> b == totalDebit - totalCredit
    ensures !DebitNormal(code) ==> b == totalCredit - totalDebit
  {
    if DebitNormal(code) then totalDebit - totalCredit else totalCredit - totalDebit
  }

  predicate InChart(chart: seq<Account>, code: string) {
    exists i :: 0 <= i < |chart| && chart[i].code == code
  }

  /** The first account with the code, if there is one. */
  function Find(chart: seq<Account>, code: string): (r: Option<Account>)
    ensures r.Some? <==> InChart(chart, code)
    ensures r.Some? ==> r.value in chart && r.value.code == code
    ensures r.Some? ==> exists i :: 0 <= i < |chart| && chart[i] == r.value
                                    && forall j :: 0 <= j < i ==> chart[j].code != code
  {
    if |chart| == 0 then None
    else if chart[0].code == code then Some(chart[0])
    else
      var r := Find(chart[1..], code);
      assert InChart(chart, code) <==> InChart(chart[1..], code) by {
        if InChart(chart, code) {
          var i :| 0 <= i < |chart| && chart[i].code == code;
          assert chart[1..][i - 1].code == code;
        }
        if InChart(chart[1..], code) {
          var i :| 0 <= i < |chart[1..]| && chart[1..][i].code == code;
          assert chart[i + 1].code == code;
        }
      }
      if r.Some? then
        assert exists i :: 0 <= i < |chart| && chart[i] == r.value
                           && forall j :: 0 <= j < i ==> chart[j].code != code by {
          var k :| 0 <= k < |chart[1..]| && chart[1..][k] == r.value
                   && forall j :: 0 <= j < k ==> chart[1..][j].code != code;
          assert chart[k + 1] == r.value;
          forall j | 0 <= j < k + 1 ensures chart[j].code != code {
            if j > 0 { assert chart[j] == chart[1..][j - 1]; }
          }
        }
        r
      else r
  }

  predicate UniqueCodes(chart: seq<Account>) {
    forall i, j :: 0 <= i < j < |chart| ==> chart[i].code != chart[j].code
  }

  /** The hook's `addChartOfAccount`: appends, with no duplicate check. */
  function AddAccount(chart: seq<Account>, account: Account): (r: seq<Account>)
    ensures r == chart + [account]
  {
    chart + [account]
  }

  /** The hook's `updateChartOfAccount`: replaces every account with the same code. */
  function UpdateAccount(chart: seq<Account>, account: Account): (r: seq<Account>)
    ensures |r| == |chart|
    ensures forall i :: 0 <= i < |r| ==>
              r[i] == (if chart[i].code == account.code then account else chart[i])
  {
    seq(|chart|, i requires 0 <= i < |chart| =>
      if chart[i].code == account.code then account else chart[i])
  }

  /** Whether an account has the code. */
  function HasCode(code: string): Account -> bool {
    (a: Account) => a.code == code
  }

  /**
   * The hook's `deleteChartOfAccount`: drops every account with the code,
   * whatever is posted to it, and keeps the others in order.
   */
  function DeleteAccount(chart: seq<Account>, code: string): (r: seq<Account>)
    ensures forall a :: a in r <==> a in chart && a.code != code
    ensures !InChart(r, code)
    ensures |r| <= |chart|
    ensures !InChart(chart, code) ==> r == chart
    ensures (forall a :: a in chart ==> a.code == code) ==> r == []
  {
    var r := Without(chart, HasCode(code));
    assert !InChart(chart, code) ==> forall a :: a in chart ==> a.code != code;
    assert InChart(r, code) ==> exists a :: a in r && a.code == code;
    r
  }

  /** Deletion works piecewise, so the kept accounts stay in order and keep their multiplicity. */
  lemma DeleteAccountAppend(a: seq<Account>, b: seq<Account>, code: string)
    ensures DeleteAccount(a + b, code) == DeleteAccount(a, code) + DeleteAccount(b, code)
  {
    WithoutConcat(a, b, HasCode(code));
  }

  /** Accounts that may receive postings in the manual-entry form. */
  function DetailAccounts(chart: seq<Account>): (r: seq<Account>)
    ensures forall a :: a in r <==> a in chart && a.kind == Detail
  {
    if |chart| == 0 then []
    else
      var rest := DetailAccounts(chart[1..]);
      if chart[0].kind == Detail then [chart[0]] + rest else rest
  }

  /** Cash and bank accounts offered by the payment and collection forms. */
  function CashBankAccounts(chart: seq<Account>): (r: seq<Account>)
    ensures forall a :: a in r <==>
              a in chart && a.kind == Detail && (StartsWith(a.code, "1101") || StartsWith(a.code, "1102"))
  {
    if |chart| == 0 then []
    else
      var rest := CashBankAccounts(chart[1..]);
      var a := chart[0];
      if a.kind == Detail && (StartsWith(a.code, "1101") || StartsWith(a.code, "1102"))
      then [a] + rest else rest
  }

  /** Current-asset accounts (code prefix "11") offered by the income/expense form. */
  function CurrentAssetAccounts(chart: seq<Account>): (r: seq<Account>)
    ensures forall a :: a in r <==> a in chart && a.kind == Detail && StartsWith(a.code, "11")
  {
    if |chart| == 0 then []
    else
      var rest := CurrentAssetAccounts(chart[1..]);
      if chart[0].kind == Detail && StartsWith(chart[0].code, "11") then [chart[0]] + rest else rest
  }

  /** Every seeded code belongs to one of the five statement families. */
  lemma InitialChartFamilies()
    ensures forall i :: 0 <= i < |InitialChart| ==> HasStatementFamily(InitialChart[i].code)
  {
    forall i | 0 <= i < |InitialChart| ensures HasStatementFamily(InitialChart[i].code) {
      var c := InitialChart[i].code;
      assert c[0] in "12345";
    }
  }

  /** The income/expense form offers the receivable account 1103 besides cash and bank. */
  lemma ReceivableOfferedForIncome()
    ensures Account("1103", "Cuentas por Cobrar Clientes", Detail) in CurrentAssetAccounts(InitialChart)
    ensures Account("1103", "Cuentas por Cobrar Clientes", Detail) !in CashBankAccounts(InitialChart)
  {
    assert InitialChart[4] == Account("1103", "Cuentas por Cobrar Clientes", Detail);
    assert StartsWith("1103", "11");
    assert "1103"[..4][3] != "1101"[3] && "1103"[..4][3] != "1102"[3];
  }

  /** The hook alone can break code uniqueness: adding an existing code is accepted. */
  lemma HookAddAllowsDuplicate()
    ensures !UniqueCodes(AddAccount(InitialChart, Account("1101", "Caja 2", Detail)))
  {
    var r := AddAccount(InitialChart, Account("1101", "Caja 2", Detail));
    assert r[2].code == r[19].code;
  }
}

=== FILE: chart_manager.dfy ===
/**
 * The chart-of-accounts manager: the account form (code and name required,
 * the code locked while editing), the duplicate-code guard in front of the
 * engine's add and update, delete, and the listing sorted by code.
 */
module ChartManager {
  import opened Text
  import opened Chart
  import opened Sorting

  /**
   * `handleSubmit` then `handleSave`: a missing code or name is refused; so
   * is a code some account already has, unless it is the code of the
   * account being edited; otherwise the account is updated or added.
   */
  function Save(chart: seq<Account>, editing: Option<Account>, data: Account): (r: Submission<seq<Account>>)
    ensures r.Rejected? && r.reason == MissingFields <==> data.code == "" || data.name == ""
    ensures r.Rejected? && r.reason == DuplicateCode <==>
              && data.code != "" && data.name != ""
              && InChart(chart, data.code)
              && (editing.None? || data.code != editing.value.code)
    ensures r.Rejected? ==> r.reason == MissingFields || r.reason == DuplicateCode
    ensures r.Accepted? && editing.Some? ==> r.value == UpdateAccount(chart, data)
    ensures r.Accepted? && editing.None? ==> r.value == AddAccount(chart, data)
  {
    if data.code == "" || data.name == "" then Rejected(MissingFields)
    else if InChart(chart, data.code) && (editing.None? || data.code != editing.value.code) then Rejected(DuplicateCode)
    else if editing.Some? then Accepted(UpdateAccount(chart, data))
    else Accepted(AddAccount(chart, data))
  }

  /** A new account is accepted exactly when its code and name are filled and its code is not taken. */
  lemma AddAcceptedIffNew(chart: seq<Account>, data: Account)
    ensures Save(chart, None, data).Accepted? <==> data.code != "" && data.name != "" && !InChart(chart, data.code)
  {
  }

  /** With the code field locked, an edit is never refused as a duplicate. */
  lemma EditNeverDuplicate(chart: seq<Account>, editing: Account, data: Account)
    requires data.code == editing.code
    ensures Save(chart, Some(editing), data).Accepted? <==> data.code != "" && data.name != ""
  {
  }

  /** Whatever the form submits, a chart with unique codes keeps them. */
  lemma SaveKeepsUniqueCodes(chart: seq<Account>, editing: Option<Account>, data: Account)
    requires UniqueCodes(chart)
    requires Save(chart, editing, data).Accepted?
    ensures UniqueCodes(Save(chart, editing, data).value)
  {
    var r := Save(chart, editing, data).value;
    if editing.None? {
      forall i, j | 0 <= i < j < |r| ensures r[i].code != r[j].code {
        if j == |chart| {
          assert r[i] == chart[i];
        }
      }
    }
  }

  /** `handleDelete`: every account with the code is gone and every other account stays. */
  lemma DeleteRemovesCode(chart: seq<Account>, code: string)
    requires UniqueCodes(chart)
    ensures !InChart(DeleteAccount(chart, code), code)
    ensures forall a :: a in chart && a.code != code ==> a in DeleteAccount(chart, code)
    ensures |DeleteAccount(chart, code)| == |chart| - (if InChart(chart, code) then 1 else 0)
  {
    DeleteCount(chart, code);
  }

  lemma {:induction false} DeleteCount(chart: seq<Account>, code: string)
    requires UniqueCodes(chart)
    ensures |DeleteAccount(chart, code)| == |chart| - (if InChart(chart, code) then 1 else 0)
    decreases |chart|
  {
    if |chart| > 0 {
      assert UniqueCodes(chart[1..]) by {
        forall i, j | 0 <= i < j < |chart[1..]| ensures chart[1..][i].code != chart[1..][j].code {
          assert chart[1..][i] == chart[i + 1] && chart[1..][j] == chart[j + 1];
        }
      }
      DeleteCount(chart[1..], code);
      assert InChart(chart, code) <==> chart[0].code == code || InChart(chart[1..], code) by {
        if InChart(chart, code) {
          var i :| 0 <= i < |chart| && chart[i].code == code;
          if i > 0 {
            assert chart[1..][i - 1].code == code;
          }
        }
        if InChart(chart[1..], code) {
          var i :| 0 <= i < |chart[1..]| && chart[1..][i].code == code;
          assert chart[i + 1].code == code;
        }
      }
      if chart[0].code == code {
        assert !InChart(chart[1..], code) by {
          forall i | 0 <= i < |chart[1..]| ensures chart[1..][i].code != code {
            assert chart[1..][i] == chart[i + 1];
          }
        }
      }
    }
  }

  // ----- the listing -----

  /** Code-point order on strings, standing in for `localeCompare`. */
  predicate TextLeq(a: string, b: string) {
    if |a| == 0 then true
    else if |b| == 0 then false
    else if a[0] != b[0] then a[0] < b[0]
    else TextLeq(a[1..], b[1..])
  }

  lemma {:induction false} TextLeqTotal(a: string, b: string)
    ensures TextLeq(a, b) || TextLeq(b, a)
    decreases |a|
  {
    if |a| > 0 && |b| > 0 && a[0] == b[0] {
      TextLeqTotal(a[1..], b[1..]);
    }
  }

  lemma {:induction false} TextLeqTransitive(a: string, b: string, c: string)
    requires TextLeq(a, b) && TextLeq(b, c)
    ensures TextLeq(a, c)
    decreases |a|
  {
    if |a| > 0 && |b| > 0 && |c| > 0 && a[0] == b[0] && b[0] == c[0] {
      TextLeqTransitive(a[1..], b[1..], c[1..]);
    }
  }

  lemma {:induction false} TextLeqAntisymmetric(a: string, b: string)
    requires TextLeq(a, b) && TextLeq(b, a)
    ensures a == b
    decreases |a|
  {
    if |a| > 0 && |b| > 0 {
      TextLeqAntisymmetric(a[1..], b[1..]);
      assert a == [a[0]] + a[1..] && b == [b[0]] + b[1..];
    }
  }

  function ByCode(a: Account, b: Account): bool {
    TextLeq(a.code, b.code)
  }

  lemma ByCodeOrders()
    ensures Total(ByCode) && Transitive(ByCode)
  {
    forall a: Account, b: Account ensures ByCode(a, b) || ByCode(b, a) {
      TextLeqTotal(a.code, b.code);
    }
    forall a: Account, b: Account, c: Account | ByCode(a, b) && ByCode(b, c) ensures ByCode(a, c) {
      TextLeqTransitive(a.code, b.code, c.code);
    }
  }

  /** The rows of the table: the chart sorted by code. */
  function Listing(chart: seq<Account>): (r: seq<Account>)
    ensures multiset(r) == multiset(chart)
    ensures Sorted(ByCode, r)
  {
    ByCodeOrders();
    SortSorted(ByCode, chart);
    Sort(ByCode, chart)
  }

  /** With unique codes, the listing shows the codes in strictly increasing order. */
  lemma ListingStrictlyIncreasing(chart: seq<Account>)
    requires UniqueCodes(chart)
    ensures forall i, j :: 0 <= i < j < |Listing(chart)| ==>
              TextLeq(Listing(chart)[i].code, Listing(chart)[j].code) && Listing(chart)[i].code != Listing(chart)[j].code
  {
    var r := Listing(chart);
    forall i, j | 0 <= i < j < |r| ensures r[i].code != r[j].code {
      if r[i].code == r[j].code {
        UniqueCodesNoDuplicateRecords(chart, r, i, j);
      }
    }
  }

  /** Two positions of a permutation of a chart with unique codes hold different codes. */
  lemma UniqueCodesNoDuplicateRecords(chart: seq<Account>, r: seq<Account>, i: int, j: int)
    requires UniqueCodes(chart)
    requires multiset(r) == multiset(chart)
    requires 0 <= i < j < |r|
    ensures r[i].code != r[j].code
  {
    if r[i].code == r[j].code {
      assert r[i] in multiset(chart) && r[j] in multiset(chart);
      var a :| 0 <= a < |chart| && chart[a] == r[i];
      var b :| 0 <= b < |chart| && chart[b] == r[j];
      if a == b {
        CountTwice(r, i, j);
        CountOnce(chart, a);
      }
    }
  }

  lemma CountTwice(r: seq<Account>, i: int, j: int)
    requires 0 <= i < j < |r| && r[i] == r[j]
    ensures multiset(r)[r[i]] >= 2
  {
    assert r == r[..i] + [r[i]] + r[i + 1..j] + [r[j]] + r[j + 1..];
  }

  lemma CountOnce(chart: seq<Account>, a: int)
    requires UniqueCodes(chart)
    requires 0 <= a < |chart|
    ensures multiset(chart)[chart[a]] == 1
  {
    assert chart == chart[..a] + [chart[a]] + chart[a + 1..];
    assert chart[a] !in chart[..a];
    assert chart[a] !in chart[a + 1..];
  }
}

=== FILE: collection_form.dfy ===
/**
 * The collection form: choosing a client lists that client's pending
 * invoices and, when there is exactly one, fills in its id, its total and a
 * description; choosing an invoice does the same. Submitting requires a
 * client, an amount and a cash or bank account.
 */
module CollectionForm {
  import opened Text
  import opened Chart
  import opened Journal
  import opened Inventory
  import opened Posting
  import Engine

  datatype Form = Form(
    date: int,
    contactId: string,
    invoiceId: string,
    amount: NumText,
    paymentAccountCode: string,
    description: string)

  function Fresh(today: int): Form {
    Form(today, "", "", Blank, "", "")
  }

  /** The client's pending invoices, in list order. */
  function PendingOf(invoices: seq<Invoice>, contactId: string): (r: seq<Invoice>)
    ensures forall v :: v in r <==> v in invoices && v.contactId == contactId && v.status == Pending
    ensures |r| <= |invoices|
  {
    if |invoices| == 0 then []
    else
      var v := invoices[0];
      (if v.contactId == contactId && v.status == Pending then [v] else []) + PendingOf(invoices[1..], contactId)
  }

  /** The description the form writes for a collection of an invoice. */
  function InvoiceNote(id: string): string {
    "Cobro Factura #" + id
  }

  /** The fields an invoice fills in. */
  function Fill(f: Form, inv: Invoice): Form {
    f.(invoiceId := inv.id, amount := Num(inv.total), description := InvoiceNote(inv.id))
  }

  /**
   * The effect run when the client (or the invoice list) changes: exactly one
   * pending invoice is chosen for the user; otherwise invoice, amount and
   * description are cleared.
   */
  function OnClientChange(invoices: seq<Invoice>, f: Form): (r: Form)
    ensures r.date == f.date && r.contactId == f.contactId && r.paymentAccountCode == f.paymentAccountCode
    ensures f.contactId != "" && |PendingOf(invoices, f.contactId)| == 1 ==>
              r == Fill(f, PendingOf(invoices, f.contactId)[0])
    ensures r.amount.Num? <==> f.contactId != "" && |PendingOf(invoices, f.contactId)| == 1
    ensures r.amount.Blank? ==> r.invoiceId == "" && r.description == ""
  {
    var cleared := f.(invoiceId := "", amount := Blank, description := "");
    if f.contactId == "" then cleared
    else
      var pending := PendingOf(invoices, f.contactId);
      if |pending| == 1 then Fill(f, pending[0]) else cleared
  }

  /** The first invoice with the id, if there is one. */
  function FindInvoice(invoices: seq<Invoice>, id: string): (r: Option<Invoice>)
    ensures r.Some? ==> r.value in invoices && r.value.id == id
    ensures r.None? <==> forall v :: v in invoices ==> v.id != id
    ensures r.Some? ==> exists i :: 0 <= i < |invoices| && invoices[i] == r.value
                                    && forall j :: 0 <= j < i ==> invoices[j].id != id
  {
    if |invoices| == 0 then None
    else if invoices[0].id == id then Some(invoices[0])
    else
      var r := FindInvoice(invoices[1..], id);
      assert r.Some? ==> exists i :: 0 <= i < |invoices| && invoices[i] == r.value
                                     && forall j :: 0 <= j < i ==> invoices[j].id != id by {
        if r.Some? {
          var k :| 0 <= k < |invoices[1..]| && invoices[1..][k] == r.value
                   && forall j :: 0 <= j < k ==> invoices[1..][j].id != id;
          assert invoices[k + 1] == r.value;
          forall j | 0 <= j < k + 1 ensures invoices[j].id != id {
            if j > 0 { assert invoices[j] == invoices[1..][j - 1]; }
          }
        }
      }
      r
  }

  /** `handleInvoiceSelect`: only one of the client's pending invoices is taken. */
  function SelectInvoice(invoices: seq<Invoice>, f: Form, invoiceId: string): (r: Form)
    ensures r.contactId == f.contactId && r.paymentAccountCode == f.paymentAccountCode && r.date == f.date
    ensures r != f ==> exists v :: v in invoices && v.contactId == f.contactId && v.status == Pending
                                   && v.id == invoiceId && r == Fill(f, v)
    ensures (forall v :: v in invoices && v.contactId == f.contactId && v.status == Pending ==> v.id != invoiceId) ==> r == f
  {
    match FindInvoice(PendingOf(invoices, f.contactId), invoiceId)
    case None => f
    case Some(v) => Fill(f, v)
  }

  datatype Outcome = Outcome(submission: Submission<Collection>, after: Form)

  /**
   * `handleSubmit`: the collection handed to the engine, under the id the
   * engine generates. An accepted collection resets the form to today's
   * date with every other field cleared; a refused one leaves it as it was.
   */
  function Submit(f: Form, generatedId: string, today: int): (r: Outcome)
    ensures r.submission.Accepted? <==> f.contactId != "" && Filled(f.amount) && f.paymentAccountCode != ""
    ensures r.submission.Rejected? ==> r.submission.reason == MissingFields && r.after == f
    ensures r.submission.Accepted? ==>
              && r.submission.value == Collection(generatedId, f.date, f.contactId, f.amount.v,
                                                  f.paymentAccountCode, f.description, f.invoiceId)
              && r.after == Fresh(today)
  {
    if f.contactId == "" || !Filled(f.amount) || f.paymentAccountCode == "" then Outcome(Rejected(MissingFields), f)
    else Outcome(Accepted(Collection(generatedId, f.date, f.contactId, f.amount.v, f.paymentAccountCode,
                                     f.description, f.invoiceId)), Fresh(today))
  }

  /** The accounts the form offers to collect into. */
  function CollectionAccounts(chart: seq<Account>): (r: seq<Account>)
    ensures forall a :: a in r ==> a in chart && a.code != "1103"
  {
    forall a | a in CashBankAccounts(chart) ensures a.code != "1103" {
      assert a.code[..4] != "1103";
    }
    CashBankAccounts(chart)
  }

  /**
   * Collecting the one pending invoice as the form fills it in credits the
   * receivable with the invoice's taxed total, while the invoice debited it
   * with its untaxed lines only: the receivable is over-credited by the tax.
   */
  lemma AutoFilledCollectionOvercredits(products: seq<Product>, invoices: seq<Invoice>, f: Form, chart: seq<Account>,
                                        account: Account, generatedId: string, today: int)
    requires f.contactId != "" && |PendingOf(invoices, f.contactId)| == 1
    requires var inv := PendingOf(invoices, f.contactId)[0];
             inv.subtotal == LinesTotal(inv.lines) && inv.total == inv.subtotal + inv.tax
    requires account in CollectionAccounts(chart)
    ensures var inv := PendingOf(invoices, f.contactId)[0];
            var filled := OnClientChange(invoices, f).(paymentAccountCode := account.code);
            && Submit(filled, generatedId, today).submission.Accepted?
            && var c := Submit(filled, generatedId, today).submission.value;
               c.invoiceId == inv.id
               && TotalCredit(EntriesFor(CollectionPosting(c), "1103"))
                  - TotalDebit(EntriesFor(InvoicePosting(products, inv), "1103")) == inv.tax
               && TotalDebit(EntriesFor(CollectionPosting(c), "1103")) == 0.0
  {
    var inv := PendingOf(invoices, f.contactId)[0];
    var filled := OnClientChange(invoices, f).(paymentAccountCode := account.code);
    var c := Submit(filled, generatedId, today).submission.value;
    InvoicePostingBalanced(products, inv);
    TwoLegsEntries("JE-COL-" + Last4(c.id), c.date, FromCollection(c.id), c.paymentAccountCode, "1103", c.amount, "1103");
  }

  /** Once collected, an invoice is no longer offered to any client as pending; the rest stay offered. */
  lemma CollectedInvoiceLeavesPending(s: Engine.State, f: Form, generatedId: string, today: int, contactId: string)
    requires Submit(f, generatedId, today).submission.Accepted? && f.invoiceId != ""
    ensures var after := Engine.AddCollection(s, Submit(f, generatedId, today).submission.value).invoices;
            && (forall v :: v in PendingOf(after, contactId) ==> v.id != f.invoiceId)
            && (forall v :: v in PendingOf(s.invoices, contactId) && v.id != f.invoiceId ==> v in PendingOf(after, contactId))
  {
    var c := Submit(f, generatedId, today).submission.value;
    var after := Engine.AddCollection(s, c).invoices;
    forall v | v in PendingOf(s.invoices, contactId) && v.id != f.invoiceId ensures v in PendingOf(after, contactId) {
      var i :| 0 <= i < |s.invoices| && s.invoices[i] == v;
      assert after[i] == v;
    }
    forall v | v in PendingOf(after, contactId) ensures v.id != f.invoiceId {
      var i :| 0 <= i < |after| && after[i] == v;
    }
  }
}

=== FILE: contacts.dfy ===
/**
 * Contacts, as far as the bookkeeping uses them: a contact is a client or a
 * supplier, and the pages split the contact list by that type. Contact
 * creation and editing are not part of this model.
 */
module Contacts {

  /** The `type` field: 'client', 'supplier', or anything else. */
  datatype ContactKind = Client | Supplier | OtherKind(name: string)

  datatype Contact = Contact(id: string, name: string, kind: ContactKind)

  /** The contacts whose type is `kind`, in the list's order. */
  function OfKind(contacts: seq<Contact>, kind: ContactKind): (r: seq<Contact>)
    ensures |r| <= |contacts|
    ensures forall c :: c in r <==> c in contacts && c.kind == kind
  {
    if |contacts| == 0 then []
    else (if contacts[0].kind == kind then [contacts[0]] else []) + OfKind(contacts[1..], kind)
  }

  function Clients(contacts: seq<Contact>): seq<Contact> {
    OfKind(contacts, Client)
  }

  function Suppliers(contacts: seq<Contact>): seq<Contact> {
    OfKind(contacts, Supplier)
  }

  /** No contact is both a client and a supplier, and together they are every contact of either type. */
  lemma {:induction false} ClientsAndSuppliersSplit(contacts: seq<Contact>)
    ensures forall c :: c in Clients(contacts) ==> c !in Suppliers(contacts)
    ensures |Clients(contacts)| + |Suppliers(contacts)| <= |contacts|
    ensures (forall c :: c in contacts ==> !c.kind.OtherKind?) ==>
              |Clients(contacts)| + |Suppliers(contacts)| == |contacts|
    decreases |contacts|
  {
    if |contacts| > 0 {
      ClientsAndSuppliersSplit(contacts[1..]);
      assert forall c :: c in contacts[1..] ==> c in contacts;
    }
  }
}

=== FILE: dashboard.dfy ===
/**
 * The dashboard figures and the journal list the application shell derives
 * from the engine's state: counts, sales as the sum of invoice totals (tax
 * included), purchases as the sum of purchase transactions, collected and
 * paid amounts, and the net income and cash balance read off the statements.
 */
module Dashboard {
  import opened Text
  import opened Chart
  import opened Journal
  import opened Inventory
  import opened Posting
  import opened Statements
  import opened Contacts
  import opened Engine

  datatype Stats = Stats(
    totalProducts: nat,
    totalClients: nat,
    totalSuppliers: nat,
    totalTransactions: nat,
    totalSales: real,
    totalPurchases: real,
    netIncome: real,
    cashBalance: real,
    totalInvoices: nat,
    totalCollections: real,
    totalPayments: real)

  function InvoiceTotals(invoices: seq<Invoice>): real {
    if |invoices| == 0 then 0.0 else InvoiceTotals(invoices[..|invoices| - 1]) + invoices[|invoices| - 1].total
  }

  /** The totals of the purchase transactions; sales and unrecognised types add nothing. */
  function PurchaseTotals(txs: seq<Transaction>): real {
    if |txs| == 0 then 0.0
    else PurchaseTotals(txs[..|txs| - 1]) + if txs[|txs| - 1].kind == Purchase then txs[|txs| - 1].total else 0.0
  }

  function CollectedAmounts(cs: seq<Collection>): real {
    if |cs| == 0 then 0.0 else CollectedAmounts(cs[..|cs| - 1]) + cs[|cs| - 1].amount
  }

  function PaidAmounts(ps: seq<Payment>): real {
    if |ps| == 0 then 0.0 else PaidAmounts(ps[..|ps| - 1]) + ps[|ps| - 1].amount
  }

  function StatsOf(s: State, contacts: seq<Contact>): (st: Stats)
    ensures var fs := GetFinancialStatements(s.chart, s.journal, s.manual);
            && st.netIncome == fs.incomeStatement.netIncome
            && st.cashBalance == fs.cashFlow.netCashFlow
    ensures st.totalProducts == |s.products| && st.totalTransactions == |s.transactions|
    ensures st.totalInvoices == |s.invoices|
    ensures st.totalClients == |Clients(contacts)| && st.totalSuppliers == |Suppliers(contacts)|
    ensures st.totalClients + st.totalSuppliers <= |contacts|
  {
    var fs := GetFinancialStatements(s.chart, s.journal, s.manual);
    ClientsAndSuppliersSplit(contacts);
    Stats(|s.products|, |Clients(contacts)|, |Suppliers(contacts)|, |s.transactions|,
          InvoiceTotals(s.invoices), PurchaseTotals(s.transactions),
          fs.incomeStatement.netIncome, fs.cashFlow.netCashFlow,
          |s.invoices|, CollectedAmounts(s.collections), PaidAmounts(s.payments))
  }

  /** The lines the journal page receives: the journal, then the manual lines once more. */
  function JournalList(s: State): (r: seq<Line>)
    ensures |r| == |s.journal| + |s.manual|
    ensures r[..|s.journal|] == s.journal && r[|s.journal|..] == s.manual
  {
    s.journal + s.manual
  }

  /** Recording a transaction moves purchases by its total when it is a purchase, and never moves sales. */
  lemma TransactionMovesPurchasesOnly(s: State, contacts: seq<Contact>, tx: Transaction)
    ensures var before := StatsOf(s, contacts);
            var after := StatsOf(AddTransaction(s, tx), contacts);
            && after.totalSales == before.totalSales
            && after.totalPurchases == before.totalPurchases + (if tx.kind == Purchase then tx.total else 0.0)
            && after.totalTransactions == before.totalTransactions + 1
  {
    var txs := s.transactions + [tx];
    assert txs[..|txs| - 1] == s.transactions;
  }

  /** Recording an invoice moves sales by its taxed total. */
  lemma InvoiceMovesSales(s: State, contacts: seq<Contact>, inv: Invoice)
    ensures var before := StatsOf(s, contacts);
            var after := StatsOf(AddInvoice(s, inv), contacts);
            && after.totalSales == before.totalSales + inv.total
            && after.totalPurchases == before.totalPurchases
            && after.totalInvoices == before.totalInvoices + 1
  {
    var invs := s.invoices + [inv.(status := Pending)];
    assert invs[..|invs| - 1] == s.invoices;
  }

  /** A collection adds its amount to the collected total; a payment adds its amount to the paid total. */
  lemma CollectionsAndPaymentsAdd(s: State, contacts: seq<Contact>, c: Collection, p: Payment)
    ensures StatsOf(AddCollection(s, c), contacts).totalCollections == StatsOf(s, contacts).totalCollections + c.amount
    ensures StatsOf(AddPayment(s, p), contacts).totalPayments == StatsOf(s, contacts).totalPayments + p.amount
  {
    var cs := s.collections + [c];
    assert cs[..|cs| - 1] == s.collections;
    var ps := s.payments + [p];
    assert ps[..|ps| - 1] == s.payments;
  }

  /** A manual entry adds each of its lines to the journal page twice: once from the journal, once from the manual list. */
  lemma ManualEntryListedTwice(s: State, entryId: string, e: ManualEntry)
    ensures var g := ManualPosting(entryId, e);
            multiset(JournalList(AddManualEntry(s, entryId, e))) == multiset(JournalList(s)) + multiset(g) + multiset(g)
  {
  }
}

=== FILE: engine.dfy ===
/**
 * The bookkeeping engine as transitions on one state record: products,
 * transactions, journal lines, manual lines, invoices, payments,
 * collections and the chart of accounts. Generated ids and dates arrive as
 * parameters. Inventory writes follow the snapshot reading: every write of a
 * command is built from the product list as it was before the command.
 */
module Engine {
  import opened Text
  import opened Chart
  import opened Journal
  import opened Inventory
  import opened Posting

  datatype State = State(
    products: seq<Product>,
    transactions: seq<Transaction>,
    journal: seq<Line>,
    manual: seq<Line>,
    invoices: seq<Invoice>,
    payments: seq<Payment>,
    collections: seq<Collection>,
    chart: seq<Account>)

  /** The state before anything is stored: empty lists and the seeded chart. */
  const Initial: State := State([], [], [], [], [], [], [], InitialChart)

  /** The product fields `addProduct` receives from the product form. */
  datatype ProductInput = ProductInput(code: string, name: string, cost: real, price: real, initialStock: int)

  // ----- products -----

  /** `addProduct`: the id is the code, or the generated id when the code is empty; stock starts at the initial stock. */
  function AddProduct(s: State, input: ProductInput, generatedId: string): (r: State)
    ensures |r.products| == |s.products| + 1 && r.products[..|s.products|] == s.products
    ensures var p := r.products[|s.products|];
            && p.id == (if input.code != "" then input.code else generatedId)
            && p.stock == input.initialStock as real && p.entradas == 0.0 && p.salidas == 0.0
            && Consistent(p)
    ensures r.(products := s.products) == s
  {
    var p := Product(if input.code != "" then input.code else generatedId, input.code, input.name,
                     input.cost, input.price, input.initialStock, input.initialStock as real, 0.0, 0.0);
    s.(products := s.products + [p])
  }

  /** `updateProduct`: every product with the record's id is replaced by it. */
  function UpdateProduct(s: State, q: Product): (r: State)
    ensures r.products == ReplaceProduct(s.products, q)
    ensures r.(products := s.products) == s
  {
    s.(products := ReplaceProduct(s.products, q))
  }

  /** `deleteProduct`'s list: the products with other ids, in order. */
  function RemoveProduct(products: seq<Product>, id: string): (r: seq<Product>)
    ensures forall p :: p in r <==> p in products && p.id != id
    ensures (forall p :: p in products ==> p.id != id) ==> r == products
    ensures (forall p :: p in products ==> p.id == id) ==> r == []
  {
    Without(products, ProductHasId(id))
  }

  /** Removal works piecewise, so the kept products stay in order and keep their multiplicity. */
  lemma RemoveProductAppend(a: seq<Product>, b: seq<Product>, id: string)
    ensures RemoveProduct(a + b, id) == RemoveProduct(a, id) + RemoveProduct(b, id)
  {
    WithoutConcat(a, b, ProductHasId(id));
  }

  function DeleteProduct(s: State, id: string): (r: State)
    ensures r.products == RemoveProduct(s.products, id)
    ensures forall p :: p in r.products <==> p in s.products && p.id != id
    ensures r.(products := s.products) == s
  {
    s.(products := RemoveProduct(s.products, id))
  }

  // ----- transactions -----

  /** The first transaction with the id, if there is one. */
  function FindTransaction(txs: seq<Transaction>, id: string): (r: Option<Transaction>)
    ensures r.Some? ==> r.value in txs && r.value.id == id
    ensures r.None? <==> forall t :: t in txs ==> t.id != id
    ensures r.Some? ==> exists i :: 0 <= i < |txs| && txs[i] == r.value
                                    && forall j :: 0 <= j < i ==> txs[j].id != id
  {
    if |txs| == 0 then None
    else if txs[0].id == id then Some(txs[0])
    else
      var r := FindTransaction(txs[1..], id);
      assert r.Some? ==> exists i :: 0 <= i < |txs| && txs[i] == r.value
                                     && forall j :: 0 <= j < i ==> txs[j].id != id by {
        if r.Some? {
          var k :| 0 <= k < |txs[1..]| && txs[1..][k] == r.value
                   && forall j :: 0 <= j < k ==> txs[1..][j].id != id;
          assert txs[k + 1] == r.value;
          forall j | 0 <= j < k + 1 ensures txs[j].id != id {
            if j > 0 { assert txs[j] == txs[1..][j - 1]; }
          }
        }
      }
      r
  }

  function ReplaceTransaction(txs: seq<Transaction>, tx: Transaction): (r: seq<Transaction>)
    ensures |r| == |txs|
    ensures forall i :: 0 <= i < |r| ==> r[i] == (if txs[i].id == tx.id then tx else txs[i])
  {
    ReplaceWhere(txs, TxHasId(tx.id), tx)
  }

  /** Whether a transaction has the id. */
  function TxHasId(id: string): Transaction -> bool {
    (t: Transaction) => t.id == id
  }

  /** `deleteTransaction`'s list: the transactions with other ids, in order. */
  function RemoveTransaction(txs: seq<Transaction>, id: string): (r: seq<Transaction>)
    ensures forall t :: t in r <==> t in txs && t.id != id
    ensures (forall t :: t in txs ==> t.id != id) ==> r == txs
    ensures (forall t :: t in txs ==> t.id == id) ==> r == []
  {
    Without(txs, TxHasId(id))
  }

  /** Removal works piecewise, so the kept transactions stay in order and keep their multiplicity. */
  lemma RemoveTransactionAppend(a: seq<Transaction>, b: seq<Transaction>, id: string)
    ensures RemoveTransaction(a + b, id) == RemoveTransaction(a, id) + RemoveTransaction(b, id)
  {
    WithoutConcat(a, b, TxHasId(id));
  }

  /** The inventory step of a transaction, forwards or backwards. */
  function TxStep(tx: Transaction, revert: bool): Step {
    Step(revert, tx.kind, tx.productId, tx.quantity as real)
  }

  /** `addTransaction`: record it, post its lines, move its product's stock. */
  function AddTransaction(s: State, tx: Transaction): (r: State)
    ensures r.transactions == s.transactions + [tx]
    ensures r.journal == s.journal + TransactionPosting(s.products, tx)
    ensures r.products == RunFromSnapshot(s.products, [TxStep(tx, false)])
    ensures r.(products := s.products, transactions := s.transactions, journal := s.journal) == s
  {
    s.(transactions := s.transactions + [tx],
       journal := s.journal + TransactionPosting(s.products, tx),
       products := RunFromSnapshot(s.products, [TxStep(tx, false)]))
  }

  /**
   * `updateTransaction`: when a transaction with the id exists, drop its lines,
   * post the new ones, and queue a revert of the old movement and the new
   * movement, both read from the same product snapshot.
   */
  function UpdateTransaction(s: State, tx: Transaction): (r: State)
    ensures FindTransaction(s.transactions, tx.id).None? ==> r == s
    ensures FindTransaction(s.transactions, tx.id).Some? ==>
              var prev := FindTransaction(s.transactions, tx.id).value;
              && r.journal == WithoutTransaction(s.journal, prev.id) + TransactionPosting(s.products, tx)
              && r.products == RunFromSnapshot(s.products, [TxStep(prev, true), TxStep(tx, false)])
    ensures |r.transactions| == |s.transactions|
    ensures forall i :: 0 <= i < |r.transactions| ==>
              r.transactions[i] == (if s.transactions[i].id == tx.id then tx else s.transactions[i])
    ensures r.(products := s.products, transactions := s.transactions, journal := s.journal) == s
  {
    match FindTransaction(s.transactions, tx.id)
    case None =>
      assert ReplaceTransaction(s.transactions, tx) == s.transactions;
      s
    case Some(prev) =>
      s.(journal := WithoutTransaction(s.journal, prev.id) + TransactionPosting(s.products, tx),
         products := RunFromSnapshot(s.products, [TxStep(prev, true), TxStep(tx, false)]),
         transactions := ReplaceTransaction(s.transactions, tx))
  }

  /**
   * `deleteTransaction`: when a transaction with the id exists, revert its
   * movement from the product snapshot; drop every transaction with the id
   * and exactly the lines tagged with it.
   */
  function DeleteTransaction(s: State, id: string): (r: State)
    ensures r.transactions == RemoveTransaction(s.transactions, id)
    ensures r.journal == WithoutTransaction(s.journal, id)
    ensures forall t :: t in r.transactions <==> t in s.transactions && t.id != id
    ensures forall l :: l in r.journal <==> l in s.journal && !OfTransaction(l, id)
    ensures FindTransaction(s.transactions, id).None? ==> r.products == s.products
    ensures FindTransaction(s.transactions, id).Some? ==>
              r.products == RunFromSnapshot(s.products, [TxStep(FindTransaction(s.transactions, id).value, true)])
    ensures r.(products := s.products, transactions := s.transactions, journal := s.journal) == s
  {
    var products := match FindTransaction(s.transactions, id)
                    case None => s.products
                    case Some(prev) => RunFromSnapshot(s.products, [TxStep(prev, true)]);
    s.(products := products,
       transactions := RemoveTransaction(s.transactions, id),
       journal := WithoutTransaction(s.journal, id))
  }

  // ----- other events -----

  /** `addManualJournalEntry`: the parsed lines go to both the manual list and the journal. */
  function AddManualEntry(s: State, entryId: string, e: ManualEntry): (r: State)
    ensures r.manual == s.manual + ManualPosting(entryId, e)
    ensures r.journal == s.journal + ManualPosting(entryId, e)
    ensures r.(manual := s.manual, journal := s.journal) == s
  {
    var lines := ManualPosting(entryId, e);
    s.(manual := s.manual + lines, journal := s.journal + lines)
  }

  function AddPayment(s: State, p: Payment): (r: State)
    ensures r.payments == s.payments + [p]
    ensures r.journal == s.journal + PaymentPosting(p)
    ensures r.(payments := s.payments, journal := s.journal) == s
  {
    s.(payments := s.payments + [p], journal := s.journal + PaymentPosting(p))
  }

  /** Marks the invoice with the id as paid. */
  function MarkPaid(invoices: seq<Invoice>, id: string): (r: seq<Invoice>)
    ensures |r| == |invoices|
    ensures forall i :: 0 <= i < |r| ==>
              r[i] == (if invoices[i].id == id then invoices[i].(status := Paid) else invoices[i])
  {
    seq(|invoices|, i requires 0 <= i < |invoices| =>
      if invoices[i].id == id then invoices[i].(status := Paid) else invoices[i])
  }

  /** `addCollection`: record it, post it, and mark the chosen invoice (if any) paid. */
  function AddCollection(s: State, c: Collection): (r: State)
    ensures r.collections == s.collections + [c]
    ensures r.journal == s.journal + CollectionPosting(c)
    ensures |r.invoices| == |s.invoices|
    ensures forall i :: 0 <= i < |r.invoices| ==>
              if c.invoiceId != "" && s.invoices[i].id == c.invoiceId
              then r.invoices[i] == s.invoices[i].(status := Paid)
              else r.invoices[i] == s.invoices[i]
    ensures r.(collections := s.collections, journal := s.journal, invoices := s.invoices) == s
  {
    s.(collections := s.collections + [c],
       journal := s.journal + CollectionPosting(c),
       invoices := if c.invoiceId != "" then MarkPaid(s.invoices, c.invoiceId) else s.invoices)
  }

  /** The inventory steps of an invoice: one sale per line. */
  function InvoiceSteps(lines: seq<InvoiceLine>): (steps: seq<Step>)
    ensures |steps| == |lines|
    ensures forall i :: 0 <= i < |lines| ==> steps[i] == Step(false, Sale, lines[i].productId, lines[i].quantity)
  {
    seq(|lines|, i requires 0 <= i < |lines| => Step(false, Sale, lines[i].productId, lines[i].quantity))
  }

  /** `addInvoice`: stored as pending, its lines posted, and one sale movement per line, all read from one snapshot. */
  function AddInvoice(s: State, inv: Invoice): (r: State)
    ensures r.invoices == s.invoices + [inv.(status := Pending)]
    ensures r.journal == s.journal + InvoicePosting(s.products, inv)
    ensures r.products == RunFromSnapshot(s.products, InvoiceSteps(inv.lines))
    ensures r.(invoices := s.invoices, journal := s.journal, products := s.products) == s
  {
    s.(invoices := s.invoices + [inv.(status := Pending)],
       journal := s.journal + InvoicePosting(s.products, inv),
       products := RunFromSnapshot(s.products, InvoiceSteps(inv.lines)))
  }

  function UpdateInvoice(s: State, inv: Invoice): (r: State)
    ensures |r.invoices| == |s.invoices|
    ensures forall i :: 0 <= i < |r.invoices| ==> r.invoices[i] == (if s.invoices[i].id == inv.id then inv else s.invoices[i])
    ensures r.(invoices := s.invoices) == s
  {
    s.(invoices := seq(|s.invoices|, i requires 0 <= i < |s.invoices| =>
                         if s.invoices[i].id == inv.id then inv else s.invoices[i]))
  }

  /** Whether an invoice has the id. */
  function InvoiceHasId(id: string): Invoice -> bool {
    (v: Invoice) => v.id == id
  }

  /** `deleteInvoice`'s list: the invoices with other ids, in order. */
  function RemoveInvoice(invoices: seq<Invoice>, id: string): (r: seq<Invoice>)
    ensures forall v :: v in r <==> v in invoices && v.id != id
    ensures (forall v :: v in invoices ==> v.id != id) ==> r == invoices
    ensures (forall v :: v in invoices ==> v.id == id) ==> r == []
  {
    Without(invoices, InvoiceHasId(id))
  }

  /** Removal works piecewise, so the kept invoices stay in order and keep their multiplicity. */
  lemma RemoveInvoiceAppend(a: seq<Invoice>, b: seq<Invoice>, id: string)
    ensures RemoveInvoice(a + b, id) == RemoveInvoice(a, id) + RemoveInvoice(b, id)
  {
    WithoutConcat(a, b, InvoiceHasId(id));
  }

  function DeleteInvoice(s: State, id: string): (r: State)
    ensures r.invoices == RemoveInvoice(s.invoices, id)
    ensures forall v :: v in r.invoices <==> v in s.invoices && v.id != id
    ensures r.(invoices := s.invoices) == s
  {
    s.(invoices := RemoveInvoice(s.invoices, id))
  }

  function AddIncome(s: State, entryId: string, x: IncomeExpense): (r: State)
    ensures r.journal == s.journal + IncomePosting(entryId, x)
    ensures r.(journal := s.journal) == s
  {
    s.(journal := s.journal + IncomePosting(entryId, x))
  }

  function AddExpense(s: State, entryId: string, x: IncomeExpense): (r: State)
    ensures r.journal == s.journal + ExpensePosting(entryId, x)
    ensures r.(journal := s.journal) == s
  {
    s.(journal := s.journal + ExpensePosting(entryId, x))
  }

  // ----- chart of accounts -----

  function AddChartAccount(s: State, a: Account): (r: State)
    ensures r.chart == s.chart + [a]
    ensures r.(chart := s.chart) == s
  {
    s.(chart := AddAccount(s.chart, a))
  }

  function UpdateChartAccount(s: State, a: Account): (r: State)
    ensures |r.chart| == |s.chart|
    ensures forall i :: 0 <= i < |r.chart| ==> r.chart[i] == (if s.chart[i].code == a.code then a else s.chart[i])
    ensures r.(chart := s.chart) == s
  {
    s.(chart := UpdateAccount(s.chart, a))
  }

  /** Deleting an account leaves its journal lines in place; the ledger then skips them. */
  function DeleteChartAccount(s: State, code: string): (r: State)
    ensures r.chart == DeleteAccount(s.chart, code)
    ensures !InChart(r.chart, code)
    ensures forall a :: a in r.chart <==> a in s.chart && a.code != code
    ensures r.(chart := s.chart) == s
  {
    s.(chart := DeleteAccount(s.chart, code))
  }

  // ----- the journal invariant -----

  /** Every transaction's lines balance on their own. */
  ghost predicate TransactionsBalanced(journal: seq<Line>) {
    forall id :: Balanced(TransactionLines(journal, id))
  }

  /**
   * What every command keeps: the journal and the manual list balance, each
   * transaction's lines balance, and every product satisfies the stock identity.
   */
  ghost predicate Invariant(s: State) {
    && Balanced(s.journal)
    && Balanced(s.manual)
    && TransactionsBalanced(s.journal)
    && AllConsistent(s.products)
  }

  lemma InitialInvariant()
    ensures Invariant(Initial)
  {
  }

  /** Appending a balanced group carrying no transaction id keeps the journal part of the invariant. */
  lemma AppendUntagged(journal: seq<Line>, g: seq<Line>)
    requires Balanced(journal) && TransactionsBalanced(journal)
    requires Balanced(g)
    requires forall l :: l in g ==> !l.origin.FromTransaction?
    ensures Balanced(journal + g) && TransactionsBalanced(journal + g)
  {
    AppendBalanced(journal, g);
    forall id ensures Balanced(TransactionLines(journal + g, id)) {
      TaggedAppend(journal, g, id);
      WithoutAbsentTransaction(g, id);
      assert TransactionLines(journal, id) + [] == TransactionLines(journal, id);
    }
  }

  /** Appending a transaction's posting keeps the journal part of the invariant. */
  lemma AppendTransactionPosting(journal: seq<Line>, products: seq<Product>, tx: Transaction)
    requires Balanced(journal) && TransactionsBalanced(journal)
    requires Balanced(TransactionLines(journal, tx.id))
    ensures Balanced(journal + TransactionPosting(products, tx))
    ensures TransactionsBalanced(journal + TransactionPosting(products, tx))
  {
    var g := TransactionPosting(products, tx);
    TransactionPostingBalanced(products, tx);
    AppendBalanced(journal, g);
    forall id ensures Balanced(TransactionLines(journal + g, id)) {
      TaggedAppend(journal, g, id);
      if id == tx.id {
        AllOfTransaction(g, id);
        TotalsAppend(TransactionLines(journal, id), g);
      } else {
        WithoutAbsentTransaction(g, id);
        assert TransactionLines(journal, id) + [] == TransactionLines(journal, id);
      }
    }
  }

  /** Removing a transaction's lines keeps the journal part of the invariant. */
  lemma RemoveTransactionLines(journal: seq<Line>, id: string)
    requires Balanced(journal) && TransactionsBalanced(journal)
    ensures Balanced(WithoutTransaction(journal, id))
    ensures TransactionsBalanced(WithoutTransaction(journal, id))
    ensures TransactionLines(WithoutTransaction(journal, id), id) == []
  {
    NetWithoutTransaction(journal, id);
    forall other ensures TransactionLines(WithoutTransaction(journal, id), other) ==
                         if other == id then [] else TransactionLines(journal, other) {
      FilterCommute(journal, id, other);
    }
  }

  /** Tag filters commute: the lines of one transaction, after removing another's. */
  lemma {:induction false} FilterCommute(lines: seq<Line>, id: string, other: string)
    ensures TransactionLines(WithoutTransaction(lines, id), other) ==
            if other == id then [] else TransactionLines(lines, other)
  {
    if |lines| > 0 {
      FilterCommute(lines[1..], id, other);
    }
  }

  lemma {:induction false} RunKeepsConsistent(products: seq<Product>, steps: seq<Step>)
    requires AllConsistent(products)
    ensures AllConsistent(RunFromSnapshot(products, steps))
  {
    SnapshotRunKeepsConsistent(products, steps);
  }

  lemma AddTransactionKeepsInvariant(s: State, tx: Transaction)
    requires Invariant(s)
    ensures Invariant(AddTransaction(s, tx))
  {
    AppendTransactionPosting(s.journal, s.products, tx);
    RunKeepsConsistent(s.products, [TxStep(tx, false)]);
  }

  lemma UpdateTransactionKeepsInvariant(s: State, tx: Transaction)
    requires Invariant(s)
    ensures Invariant(UpdateTransaction(s, tx))
  {
    match FindTransaction(s.transactions, tx.id)
    case None =>
    case Some(prev) =>
      RemoveTransactionLines(s.journal, prev.id);
      AppendTransactionPosting(WithoutTransaction(s.journal, prev.id), s.products, tx);
      RunKeepsConsistent(s.products, [TxStep(prev, true), TxStep(tx, false)]);
  }

  lemma DeleteTransactionKeepsInvariant(s: State, id: string)
    requires Invariant(s)
    ensures Invariant(DeleteTransaction(s, id))
  {
    RemoveTransactionLines(s.journal, id);
    match FindTransaction(s.transactions, id)
    case None =>
    case Some(prev) => RunKeepsConsistent(s.products, [TxStep(prev, true)]);
  }

  /** A manual entry keeps the invariant when its parsed debits and credits agree, which the entry form enforces. */
  lemma AddManualEntryKeepsInvariant(s: State, entryId: string, e: ManualEntry)
    requires Invariant(s)
    requires InputDebits(e.lines) == InputCredits(e.lines)
    ensures Invariant(AddManualEntry(s, entryId, e))
  {
    var g := ManualPosting(entryId, e);
    ManualPostingTotals(entryId, e);
    AppendUntagged(s.journal, g);
    AppendBalanced(s.manual, g);
  }

  /** Without the form's check, an unbalanced manual entry unbalances the journal. */
  lemma UnbalancedManualEntryBreaksBalance(s: State, entryId: string, e: ManualEntry)
    requires Invariant(s)
    requires InputDebits(e.lines) != InputCredits(e.lines)
    ensures !Balanced(AddManualEntry(s, entryId, e).journal)
  {
    ManualPostingTotals(entryId, e);
    AppendBalanced(s.journal, ManualPosting(entryId, e));
  }

  lemma AddPaymentKeepsInvariant(s: State, p: Payment)
    requires Invariant(s)
    ensures Invariant(AddPayment(s, p))
  {
    AppendUntagged(s.journal, PaymentPosting(p));
  }

  lemma AddCollectionKeepsInvariant(s: State, c: Collection)
    requires Invariant(s)
    ensures Invariant(AddCollection(s, c))
  {
    AppendUntagged(s.journal, CollectionPosting(c));
  }

  lemma AddInvoiceKeepsInvariant(s: State, inv: Invoice)
    requires Invariant(s)
    ensures Invariant(AddInvoice(s, inv))
  {
    InvoicePostingBalanced(s.products, inv);
    AppendUntagged(s.journal, InvoicePosting(s.products, inv));
    RunKeepsConsistent(s.products, InvoiceSteps(inv.lines));
  }

  lemma AddIncomeKeepsInvariant(s: State, entryId: string, x: IncomeExpense)
    requires Invariant(s)
    ensures Invariant(AddIncome(s, entryId, x))
  {
    AppendUntagged(s.journal, IncomePosting(entryId, x));
  }

  lemma AddExpenseKeepsInvariant(s: State, entryId: string, x: IncomeExpense)
    requires Invariant(s)
    ensures Invariant(AddExpense(s, entryId, x))
  {
    AppendUntagged(s.journal, ExpensePosting(entryId, x));
  }

  lemma AddProductKeepsInvariant(s: State, input: ProductInput, generatedId: string)
    requires Invariant(s)
    ensures Invariant(AddProduct(s, input, generatedId))
  {
    var r := AddProduct(s, input, generatedId);
    forall p | p in r.products ensures Consistent(p) {
      if p !in s.products {
        assert p == r.products[|s.products|];
      }
    }
  }

  /** Updating a product keeps the invariant when the new record satisfies the stock identity. */
  lemma UpdateProductKeepsInvariant(s: State, q: Product)
    requires Invariant(s)
    requires Consistent(q)
    ensures Invariant(UpdateProduct(s, q))
  {
    CommitKeepsConsistent(s.products, [Some(q)]);
    var ws: seq<Option<Product>> := [Some(q)];
    assert ws[1..] == [];
  }

  // ----- round trip -----

  /** A movement and its revert, each read from the list the other left, restore the product list. */
  lemma ApplyThenRevert(products: seq<Product>, tx: Transaction)
    requires UniqueIds(products)
    ensures RunFromSnapshot(RunFromSnapshot(products, [TxStep(tx, false)]), [TxStep(tx, true)]) == products
  {
    var mid := RunFromSnapshot(products, [TxStep(tx, false)]);
    RunSingle(products, TxStep(tx, false));
    RunSingle(mid, TxStep(tx, true));
    match FindProduct(products, tx.productId)
    case None =>
    case Some(p) =>
      var moved := Apply(p, tx.kind, tx.quantity as real);
      FindWritten(products, moved);
      RevertUndoesApply(p, tx.kind, tx.quantity as real);
      LastWriteWins(products, moved, p);
      ReplaceWithSelf(products, p);
  }

  /** A one-step command writes once. */
  lemma RunSingle(products: seq<Product>, step: Step)
    ensures RunFromSnapshot(products, [step]) == ApplyWrite(products, WriteFrom(products, step))
  {
    var ws := WritesFrom(products, [step]);
    assert ws == [WriteFrom(products, step)];
    assert ws[1..] == [];
    assert Commit(products, ws) == Commit(ApplyWrite(products, ws[0]), ws[1..]);
  }

  /**
   * Deleting a transaction right after adding it restores the products, the
   * transactions and the journal, when its id is new and product ids are unique.
   */
  lemma AddThenDeleteTransaction(s: State, tx: Transaction)
    requires FindTransaction(s.transactions, tx.id).None?
    requires TransactionLines(s.journal, tx.id) == []
    requires UniqueIds(s.products)
    ensures DeleteTransaction(AddTransaction(s, tx), tx.id) == s
  {
    var a := AddTransaction(s, tx);
    assert FindTransaction(a.transactions, tx.id) == Some(tx) by {
      FindTransactionAppend(s.transactions, tx);
    }
    ApplyThenRevert(s.products, tx);
    RemoveFresh(s.transactions, tx);
    var g := TransactionPosting(s.products, tx);
    WithoutAppend(s.journal, g, tx.id);
    AllOfTransaction(g, tx.id);
    WithoutFresh(s.journal, tx.id);
  }

  lemma {:induction false} FindTransactionAppend(txs: seq<Transaction>, tx: Transaction)
    requires FindTransaction(txs, tx.id).None?
    ensures FindTransaction(txs + [tx], tx.id) == Some(tx)
  {
    if |txs| > 0 {
      assert (txs + [tx])[1..] == txs[1..] + [tx];
      FindTransactionAppend(txs[1..], tx);
    }
  }

  lemma {:induction false} RemoveFresh(txs: seq<Transaction>, tx: Transaction)
    requires FindTransaction(txs, tx.id).None?
    ensures RemoveTransaction(txs + [tx], tx.id) == txs
  {
    if |txs| == 0 {
      assert [tx][1..] == [];
    } else {
      assert (txs + [tx])[1..] == txs[1..] + [tx];
      RemoveFresh(txs[1..], tx);
      assert [txs[0]] + txs[1..] == txs;
    }
  }

  lemma {:induction false} WithoutFresh(lines: seq<Line>, id: string)
    requires TransactionLines(lines, id) == []
    ensures WithoutTransaction(lines, id) == lines
  {
    if |lines| > 0 {
      WithoutFresh(lines[1..], id);
      assert [lines[0]] + lines[1..] == lines;
    }
  }

  // ----- the lost revert on edit, and its correction -----

  /**
   * `updateTransaction` as intended: the revert of the old movement is applied
   * first and the new movement reads the list it leaves.
   */
  function UpdateTransactionFixed(s: State, tx: Transaction): (r: State)
    ensures FindTransaction(s.transactions, tx.id).None? ==> r == s
    ensures FindTransaction(s.transactions, tx.id).Some? ==>
              var prev := FindTransaction(s.transactions, tx.id).value;
              r.products == RunSequentially(s.products, [TxStep(prev, true), TxStep(tx, false)])
    ensures r.(products := s.products) == UpdateTransaction(s, tx).(products := s.products)
  {
    match FindTransaction(s.transactions, tx.id)
    case None => UpdateTransaction(s, tx)
    case Some(prev) =>
      UpdateTransaction(s, tx).(products := RunSequentially(s.products, [TxStep(prev, true), TxStep(tx, false)]))
  }

  /** The corrected edit keeps the invariant: it posts like the source and moves stock one step at a time. */
  lemma UpdateTransactionFixedKeepsInvariant(s: State, tx: Transaction)
    requires Invariant(s)
    ensures Invariant(UpdateTransactionFixed(s, tx))
  {
    UpdateTransactionKeepsInvariant(s, tx);
    match FindTransaction(s.transactions, tx.id)
    case None =>
    case Some(prev) =>
      SequentialRunKeepsConsistent(s.products, [TxStep(prev, true), TxStep(tx, false)]);
  }

  /** When the old and new transaction move different products, the source's edit is already right. */
  lemma UpdateFixedAgreesOnDistinctProducts(s: State, tx: Transaction)
    requires FindTransaction(s.transactions, tx.id).Some? ==>
               FindTransaction(s.transactions, tx.id).value.productId != tx.productId
    ensures UpdateTransactionFixed(s, tx) == UpdateTransaction(s, tx)
  {
    match FindTransaction(s.transactions, tx.id)
    case None =>
    case Some(prev) =>
      SnapshotIsSequentialWhenDistinct(s.products, [TxStep(prev, true), TxStep(tx, false)]);
  }

  /** A product starting at 10 units, sold 2 and the sale edited to 3. */
  const EditProduct: Product := Product("P1", "P1", "Producto", 4.0, 6.0, 10, 10.0, 0.0, 0.0)
  const FirstSale: Transaction := Transaction("T1", Sale, "P1", "Producto", 2, 6.0, 12.0, "C1", 0)
  const EditedSale: Transaction := Transaction("T1", Sale, "P1", "Producto", 3, 6.0, 18.0, "C1", 0)

  /**
   * As written, editing a sale of 2 into a sale of 3 leaves 5 units instead of
   * the 7 that entering the sale of 3 directly leaves: the revert of the first
   * sale is overwritten by the new movement, read from the same pre-edit record.
   */
  lemma EditedSaleLosesRevert()
    ensures var s := Initial.(products := [EditProduct]);
            && UpdateTransaction(AddTransaction(s, FirstSale), EditedSale).products
               == [EditProduct.(stock := 5.0, salidas := 5.0)]
            && AddTransaction(s, EditedSale).products == [EditProduct.(stock := 7.0, salidas := 3.0)]
  {
    var s := Initial.(products := [EditProduct]);
    var a := AddTransaction(s, FirstSale);
    RunSingle(s.products, TxStep(FirstSale, false));
    var sold := EditProduct.(stock := 8.0, salidas := 2.0);
    assert a.products == [sold];
    assert FindTransaction(a.transactions, "T1") == Some(FirstSale);
    var w1 := Some(EditProduct.(stock := 10.0, salidas := 0.0));
    var w2 := Some(EditProduct.(stock := 5.0, salidas := 5.0));
    var ws := WritesFrom(a.products, [TxStep(FirstSale, true), TxStep(EditedSale, false)]);
    assert ws == [w1, w2];
    assert ws[1..][1..] == [];
    assert ApplyWrite(a.products, w1) == [w1.value];
    assert ApplyWrite([w1.value], w2) == [w2.value];
    assert Commit(a.products, ws) == Commit([w1.value], ws[1..]) == Commit([w2.value], ws[1..][1..]);
    RunSingle(s.products, TxStep(EditedSale, false));
  }

  /**
   * With the correction, editing a freshly added transaction gives exactly the
   * state of having added the edited transaction in the first place.
   */
  lemma EditEqualsReentry(s: State, first: Transaction, edited: Transaction)
    requires first.id == edited.id
    requires FindTransaction(s.transactions, first.id).None?
    requires TransactionLines(s.journal, first.id) == []
    requires UniqueIds(s.products)
    ensures UpdateTransactionFixed(AddTransaction(s, first), edited) == AddTransaction(s, edited)
  {
    EditReentryProducts(s, first, edited);
    EditReentryJournal(s, first, edited);
    EditReentryTransactions(s, first, edited);
  }

  lemma EditReentryTransactions(s: State, first: Transaction, edited: Transaction)
    requires first.id == edited.id
    requires FindTransaction(s.transactions, first.id).None?
    ensures UpdateTransactionFixed(AddTransaction(s, first), edited).transactions == s.transactions + [edited]
    ensures UpdateTransactionFixed(AddTransaction(s, first), edited).(products := s.products, journal := s.journal,
                                                                       transactions := s.transactions) == s
  {
    var a := AddTransaction(s, first);
    FindTransactionAppend(s.transactions, first);
    var replaced := ReplaceTransaction(a.transactions, edited);
    assert replaced == s.transactions + [edited] by {
      forall i | 0 <= i < |s.transactions| ensures replaced[i] == s.transactions[i] {
        assert s.transactions[i] in s.transactions;
      }
    }
    var u := UpdateTransaction(a, edited);
    assert u.transactions == replaced;
    assert UpdateTransactionFixed(a, edited).transactions == u.transactions;
  }

  lemma EditReentryProducts(s: State, first: Transaction, edited: Transaction)
    requires first.id == edited.id
    requires FindTransaction(s.transactions, first.id).None?
    requires UniqueIds(s.products)
    ensures UpdateTransactionFixed(AddTransaction(s, first), edited).products == AddTransaction(s, edited).products
  {
    var a := AddTransaction(s, first);
    FindTransactionAppend(s.transactions, first);
    ApplyThenRevert(s.products, first);
    SingleStepSequential(a.products, TxStep(first, true));
    SingleStepSequential(s.products, TxStep(edited, false));
    assert RunSequentially(a.products, [TxStep(first, true), TxStep(edited, false)])
        == RunSequentially(RunSequentially(a.products, [TxStep(first, true)]), [TxStep(edited, false)]);
  }

  lemma EditReentryJournal(s: State, first: Transaction, edited: Transaction)
    requires first.id == edited.id
    requires FindTransaction(s.transactions, first.id).None?
    requires TransactionLines(s.journal, first.id) == []
    ensures UpdateTransactionFixed(AddTransaction(s, first), edited).journal == AddTransaction(s, edited).journal
  {
    var a := AddTransaction(s, first);
    FindTransactionAppend(s.transactions, first);
    var g := TransactionPosting(s.products, first);
    WithoutAppend(s.journal, g, first.id);
    AllOfTransaction(g, first.id);
    WithoutFresh(s.journal, first.id);
    assert s.journal + [] == s.journal;
    MovesKeepCosts(s.products, TxStep(first, false), edited.productId, edited.quantity as real, edited.total);
  }

  /** One step run sequentially is the same as from the snapshot. */
  lemma SingleStepSequential(products: seq<Product>, step: Step)
    ensures RunSequentially(products, [step]) == RunFromSnapshot(products, [step])
  {
    SnapshotIsSequentialWhenDistinct(products, [step]);
  }

  /** Movements never change what a product costs, so a posting reads the same cost before and after. */
  lemma MovesKeepCosts(products: seq<Product>, step: Step, id: string, quantity: real, total: real)
    ensures CostOfSale(RunFromSnapshot(products, [step]), id, quantity, total) == CostOfSale(products, id, quantity, total)
  {
    RunSingle(products, step);
    var w := WriteFrom(products, step);
    if w.Some? {
      var p := FindProduct(products, step.productId).value;
      assert w.value.id == p.id && w.value.cost == p.cost;
      WriteKeepsCost(products, w.value, id, quantity, total);
    }
  }

  /** Writing a record with an existing id and the same cost leaves every cost of sale as it was. */
  lemma WriteKeepsCost(products: seq<Product>, q: Product, id: string, quantity: real, total: real)
    requires FindProduct(products, q.id).Some? && FindProduct(products, q.id).value.cost == q.cost
    ensures CostOfSale(ReplaceProduct(products, q), id, quantity, total) == CostOfSale(products, id, quantity, total)
  {
    FindAfterReplace(products, q, id);
    SameCostSameCostOfSale(ReplaceProduct(products, q), products, id, quantity, total);
  }


  // ----- the lost sale on an invoice that repeats a product, and its correction -----

  /** `addInvoice` as intended: each line's sale reads the list the previous line left. */
  function AddInvoiceFixed(s: State, inv: Invoice): (r: State)
    ensures r.products == RunSequentially(s.products, InvoiceSteps(inv.lines))
    ensures r.(products := s.products) == AddInvoice(s, inv).(products := s.products)
  {
    AddInvoice(s, inv).(products := RunSequentially(s.products, InvoiceSteps(inv.lines)))
  }

  /** The quantity of `id` sold by the lines of an invoice. */
  function SoldQuantity(lines: seq<InvoiceLine>, id: string): real {
    if |lines| == 0 then 0.0
    else (if lines[0].productId == id then lines[0].quantity else 0.0) + SoldQuantity(lines[1..], id)
  }

  /**
   * With the correction, every product of an invoice loses from its stock, and
   * adds to its outbound counter, the sum of the quantities of its lines.
   */
  lemma {:induction false} SequentialSales(products: seq<Product>, lines: seq<InvoiceLine>, p: Product)
    requires FindProduct(products, p.id) == Some(p)
    ensures FindProduct(RunSequentially(products, InvoiceSteps(lines)), p.id) == Some(Apply(p, Sale, SoldQuantity(lines, p.id)))
    decreases |lines|
  {
    if |lines| == 0 {
      assert RunSequentially(products, InvoiceSteps(lines)) == products;
    } else {
      var next := ApplyWrite(products, WriteFrom(products, Step(false, Sale, lines[0].productId, lines[0].quantity)));
      var d := if lines[0].productId == p.id then lines[0].quantity else 0.0;
      var k := SoldQuantity(lines[1..], p.id);
      SaleStepFinds(products, lines[0], p);
      SequentialSales(next, lines[1..], Apply(p, Sale, d));
      SequentialSalesStep(products, lines, p, d, k);
    }
  }

  /** The inductive step of `SequentialSales`: the first line's sale followed by the rest of the invoice. */
  lemma SequentialSalesStep(products: seq<Product>, lines: seq<InvoiceLine>, p: Product, d: real, k: real)
    requires |lines| > 0
    requires d == (if lines[0].productId == p.id then lines[0].quantity else 0.0)
    requires k == SoldQuantity(lines[1..], p.id)
    requires var next := ApplyWrite(products, WriteFrom(products, Step(false, Sale, lines[0].productId, lines[0].quantity)));
             FindProduct(RunSequentially(next, InvoiceSteps(lines[1..])), p.id) == Some(Apply(Apply(p, Sale, d), Sale, k))
    ensures FindProduct(RunSequentially(products, InvoiceSteps(lines)), p.id) == Some(Apply(p, Sale, SoldQuantity(lines, p.id)))
  {
    SequentialUnfold(products, lines);
    SalesAdd(p, d, k);
    SoldUnfold(lines, p.id);
  }

  lemma SoldUnfold(lines: seq<InvoiceLine>, id: string)
    requires |lines| > 0
    ensures SoldQuantity(lines, id) == (if lines[0].productId == id then lines[0].quantity else 0.0) + SoldQuantity(lines[1..], id)
  {
  }

  /** Running an invoice's steps one after another: the first line's sale, then the rest. */
  lemma SequentialUnfold(products: seq<Product>, lines: seq<InvoiceLine>)
    requires |lines| > 0
    ensures RunSequentially(products, InvoiceSteps(lines))
            == RunSequentially(ApplyWrite(products, WriteFrom(products, Step(false, Sale, lines[0].productId, lines[0].quantity))),
                               InvoiceSteps(lines[1..]))
  {
    assert InvoiceSteps(lines)[1..] == InvoiceSteps(lines[1..]);
  }

  /** Two sales of one product add up. */
  lemma SalesAdd(p: Product, a: real, b: real)
    ensures Apply(Apply(p, Sale, a), Sale, b) == Apply(p, Sale, a + b)
  {
  }

  /** One line's sale, seen from any product: its own moves by the line's quantity, the others by nothing. */
  lemma SaleStepFinds(products: seq<Product>, line: InvoiceLine, p: Product)
    requires FindProduct(products, p.id) == Some(p)
    ensures var w := WriteFrom(products, Step(false, Sale, line.productId, line.quantity));
            FindProduct(ApplyWrite(products, w), p.id)
            == Some(Apply(p, Sale, if line.productId == p.id then line.quantity else 0.0))
  {
    var w := WriteFrom(products, Step(false, Sale, line.productId, line.quantity));
    if line.productId == p.id {
      FindWritten(products, w.value);
    } else {
      if w.Some? {
        FindAfterReplace(products, w.value, p.id);
      }
      assert Apply(p, Sale, 0.0) == p;
    }
  }

  /** Invoice lines that repeat a product: 1 unit and then 2 units of P1. */
  const TwoLinesOfOneProduct: seq<InvoiceLine> :=
    [InvoiceLine("P1", "Producto", 1.0, 6.0, 6.0), InvoiceLine("P1", "Producto", 2.0, 6.0, 12.0)]

  /**
   * As written, an invoice selling 1 and then 2 units of a product with 10 in
   * stock leaves 8 units: both sales read the pre-invoice record and the
   * second write replaces the first. The corrected invoice leaves 7.
   */
  lemma RepeatedProductLosesSale()
    ensures var s := Initial.(products := [EditProduct]);
            var inv := Invoice("INV-1", "C1", 0, 30, TwoLinesOfOneProduct, 18.0, 2.16, 20.16, Pending);
            && AddInvoice(s, inv).products == [EditProduct.(stock := 8.0, salidas := 2.0)]
            && AddInvoiceFixed(s, inv).products == [EditProduct.(stock := 7.0, salidas := 3.0)]
  {
    var ps := [EditProduct];
    var steps := InvoiceSteps(TwoLinesOfOneProduct);
    var w1 := Some(EditProduct.(stock := 9.0, salidas := 1.0));
    var w2 := Some(EditProduct.(stock := 8.0, salidas := 2.0));
    var ws := WritesFrom(ps, steps);
    assert ws == [w1, w2];
    assert ws[1..][1..] == [];
    assert ApplyWrite(ps, w1) == [w1.value];
    assert ApplyWrite([w1.value], w2) == [w2.value];
    assert Commit(ps, ws) == Commit([w1.value], ws[1..]) == Commit([w2.value], ws[1..][1..]);
    assert SoldQuantity(TwoLinesOfOneProduct, "P1") == 3.0 by {
      assert TwoLinesOfOneProduct[1..][1..] == [];
    }
    SequentialSales(ps, TwoLinesOfOneProduct, EditProduct);
    var after := RunSequentially(ps, steps);
    assert |after| == 1 by {
      RunSequentiallyLength(ps, steps);
    }
    assert after[0] == FindProduct(after, "P1").value;
  }

  /** Neither run of the steps changes the number of products. */
  lemma {:induction false} RunSequentiallyLength(products: seq<Product>, steps: seq<Step>)
    ensures |RunSequentially(products, steps)| == |products|
    decreases |steps|
  {
    if |steps| > 0 {
      RunSequentiallyLength(ApplyWrite(products, WriteFrom(products, steps[0])), steps[1..]);
    }
  }

  /** When no product repeats across the lines, the source's invoice is already right. */
  lemma AddInvoiceFixedAgreesOnDistinctProducts(s: State, inv: Invoice)
    requires forall i, j :: 0 <= i < j < |inv.lines| ==> inv.lines[i].productId != inv.lines[j].productId
    ensures AddInvoiceFixed(s, inv) == AddInvoice(s, inv)
  {
    SnapshotIsSequentialWhenDistinct(s.products, InvoiceSteps(inv.lines));
  }

  /** The corrected invoice keeps the invariant too. */
  lemma {:induction false} SequentialRunKeepsConsistent(products: seq<Product>, steps: seq<Step>)
    requires AllConsistent(products)
    ensures AllConsistent(RunSequentially(products, steps))
    decreases |steps|
  {
    if |steps| > 0 {
      var w := WriteFrom(products, steps[0]);
      var next := ApplyWrite(products, w);
      if w.Some? {
        var p := FindProduct(products, steps[0].productId).value;
        MovementsKeepConsistent(p, steps[0].t, steps[0].qty);
        forall x | x in next ensures Consistent(x) {
          var i :| 0 <= i < |next| && next[i] == x;
        }
      }
      SequentialRunKeepsConsistent(next, steps[1..]);
    }
  }

  lemma AddInvoiceFixedKeepsInvariant(s: State, inv: Invoice)
    requires Invariant(s)
    ensures Invariant(AddInvoiceFixed(s, inv))
  {
    AddInvoiceKeepsInvariant(s, inv);
    SequentialRunKeepsConsistent(s.products, InvoiceSteps(inv.lines));
  }
}

=== FILE: income_expense_form.dfy ===
/**
 * The simplified income and expense form: description, amount and a
 * current-asset account are required; the contact list offers clients for
 * an income and suppliers for an expense.
 */
module IncomeExpenseForm {
  import opened Text
  import opened Chart
  import opened Journal
  import opened Posting
  import opened Contacts

  /** Which of the two the form records. */
  datatype Direction = Income | Expense

  datatype Form = Form(date: int, description: string, amount: NumText, contactId: string, accountId: string)

  function Fresh(today: int): Form {
    Form(today, "", Blank, "", "")
  }

  /** The contacts the form offers: clients for an income, suppliers for an expense. */
  function OfferedContacts(d: Direction, contacts: seq<Contact>): (r: seq<Contact>)
    ensures forall c :: c in r <==> c in contacts && c.kind == (if d == Income then Client else Supplier)
  {
    OfKind(contacts, if d == Income then Client else Supplier)
  }

  /** The accounts the form offers: detail accounts whose code starts with "11". */
  function OfferedAccounts(chart: seq<Account>): (r: seq<Account>)
    ensures forall a :: a in r <==> a in chart && a.kind == Detail && StartsWith(a.code, "11")
  {
    CurrentAssetAccounts(chart)
  }

  datatype Outcome = Outcome(submission: Submission<IncomeExpense>, after: Form)

  /** `handleSubmit`: the record handed to `addIncome` or `addExpense`, or the refusal. */
  function Submit(f: Form, today: int): (r: Outcome)
    ensures r.submission.Accepted? <==> f.description != "" && Filled(f.amount) && f.accountId != ""
    ensures r.submission.Rejected? ==> r.submission.reason == MissingFields && r.after == f
    ensures r.submission.Accepted? ==>
              && r.submission.value == IncomeExpense(f.date, f.description, f.amount.v, f.contactId, f.accountId)
              && r.after == Fresh(today)
  {
    if f.description == "" || !Filled(f.amount) || f.accountId == "" then Outcome(Rejected(MissingFields), f)
    else Outcome(Accepted(IncomeExpense(f.date, f.description, f.amount.v, f.contactId, f.accountId)), Fresh(today))
  }

  /** The posting each direction makes: an income debits the chosen account against revenue 4102, an expense credits it against 5103. */
  function Post(d: Direction, entryId: string, x: IncomeExpense): seq<Line> {
    if d == Income then IncomePosting(entryId, x) else ExpensePosting(entryId, x)
  }

  /**
   * With one of the offered accounts, an income raises that account and the
   * generic revenue by the amount, and an expense lowers that account and
   * raises the generic expense by the amount.
   */
  lemma PostingMovesChosenAccount(d: Direction, entryId: string, f: Form, today: int, chart: seq<Account>)
    requires Submit(f, today).submission.Accepted?
    requires exists a :: a in OfferedAccounts(chart) && a.code == f.accountId
    ensures var g := Post(d, entryId, Submit(f, today).submission.value);
            && Balanced(g)
            && Net(EntriesFor(g, f.accountId)) == (if d == Income then f.amount.v else -f.amount.v)
            && (d == Income ==> TotalCredit(EntriesFor(g, "4102")) == f.amount.v)
            && (d == Expense ==> TotalDebit(EntriesFor(g, "5103")) == f.amount.v)
  {
    var x := Submit(f, today).submission.value;
    var a :| a in OfferedAccounts(chart) && a.code == f.accountId;
    assert f.accountId != "4102" && f.accountId != "5103" by {
      assert a.code[..2] == "11";
      assert a.code[0] == a.code[..2][0] == '1';
    }
    if d == Income {
      TwoLegsEntries(entryId, x.date, FromIncomeOrExpense, x.accountId, "4102", x.amount, x.accountId);
      TwoLegsEntries(entryId, x.date, FromIncomeOrExpense, x.accountId, "4102", x.amount, "4102");
    } else {
      TwoLegsEntries(entryId, x.date, FromIncomeOrExpense, "5103", x.accountId, x.amount, x.accountId);
      TwoLegsEntries(entryId, x.date, FromIncomeOrExpense, "5103", x.accountId, x.amount, "5103");
    }
  }
}

=== FILE: inventory.dfy ===
/**
 * Inventory adjustment: the stock, inbound (`entradas`) and outbound
 * (`salidas`) counters of a product, moved by purchases and sales and moved
 * back on revert. Within one command every write is a whole product record
 * built from the product list as it stood before the command (the snapshot),
 * and the writes are then replayed in order, so the last write for an id wins.
 */
module Inventory {
  import opened Text

  datatype Product = Product(
    id: string,
    code: string,
    name: string,
    cost: real,
    price: real,
    initialStock: int,
    stock: real,
    entradas: real,
    salidas: real)

  /** The `type` field of a transaction: only "sale" and "purchase" move stock or post lines. */
  datatype TxType = Sale | Purchase | Unrecognised(name: string)

  function ParseType(s: string): (t: TxType)
    ensures t == Sale <==> s == "sale"
    ensures t == Purchase <==> s == "purchase"
  {
    if s == "sale" then Sale else if s == "purchase" then Purchase else Unrecognised(s)
  }

  /** The stock invariant established by `addProduct` and kept by every movement. */
  predicate Consistent(p: Product) {
    p.stock == p.initialStock as real + p.entradas - p.salidas
  }

  /** `updateInventory` on one product record (no negative-stock guard). */
  function Apply(p: Product, t: TxType, qty: real): (r: Product)
    ensures r.id == p.id && r.code == p.code && r.cost == p.cost && r.initialStock == p.initialStock
    ensures r == p.(stock := r.stock, entradas := r.entradas, salidas := r.salidas)
    ensures t.Unrecognised? ==> r == p
  {
    match t
    case Purchase => p.(stock := p.stock + qty, entradas := p.entradas + qty)
    case Sale => p.(stock := p.stock - qty, salidas := p.salidas + qty)
    case Unrecognised(_) => p
  }

  /** `revertInventoryUpdate` on one product record. */
  function Revert(p: Product, t: TxType, qty: real): (r: Product)
    ensures r.id == p.id && r.code == p.code && r.cost == p.cost && r.initialStock == p.initialStock
    ensures r == p.(stock := r.stock, entradas := r.entradas, salidas := r.salidas)
    ensures t.Unrecognised? ==> r == p
  {
    match t
    case Purchase => p.(stock := p.stock - qty, entradas := p.entradas - qty)
    case Sale => p.(stock := p.stock + qty, salidas := p.salidas - qty)
    case Unrecognised(_) => p
  }

  /** Apply and revert are inverse to each other, in both orders. */
  lemma RevertUndoesApply(p: Product, t: TxType, qty: real)
    ensures Revert(Apply(p, t, qty), t, qty) == p
    ensures Apply(Revert(p, t, qty), t, qty) == p
  {
  }

  /** A purchase adds to stock and inbound; a sale takes from stock and adds to outbound. */
  lemma MovementEffect(p: Product, t: TxType, qty: real)
    ensures t == Purchase ==> Apply(p, t, qty).stock - p.stock == qty
                               && Apply(p, t, qty).entradas - p.entradas == qty
                               && Apply(p, t, qty).salidas == p.salidas
    ensures t == Sale ==> p.stock - Apply(p, t, qty).stock == qty
                           && Apply(p, t, qty).salidas - p.salidas == qty
                           && Apply(p, t, qty).entradas == p.entradas
  {
  }

  /** Both directions keep `stock = initialStock + entradas - salidas`, and neither can repair it. */
  lemma MovementsKeepConsistent(p: Product, t: TxType, qty: real)
    ensures Consistent(Apply(p, t, qty)) <==> Consistent(p)
    ensures Consistent(Revert(p, t, qty)) <==> Consistent(p)
  {
  }

  /** No guard: a sale of more than is in stock drives the stock negative. */
  lemma SaleCanOverdraw(p: Product, qty: real)
    requires qty > p.stock
    ensures Apply(p, Sale, qty).stock < 0.0
  {
  }

  /** The first product with the id, if there is one. */
  function FindProduct(products: seq<Product>, id: string): (r: Option<Product>)
    ensures r.Some? ==> r.value in products && r.value.id == id
    ensures r.None? <==> forall p :: p in products ==> p.id != id
    ensures r.Some? ==> exists i :: 0 <= i < |products| && products[i] == r.value
                                    && forall j :: 0 <= j < i ==> products[j].id != id
  {
    if |products| == 0 then None
    else if products[0].id == id then Some(products[0])
    else
      var r := FindProduct(products[1..], id);
      assert r.Some? ==> exists i :: 0 <= i < |products| && products[i] == r.value
                                     && forall j :: 0 <= j < i ==> products[j].id != id by {
        if r.Some? {
          var k :| 0 <= k < |products[1..]| && products[1..][k] == r.value
                   && forall j :: 0 <= j < k ==> products[1..][j].id != id;
          assert products[k + 1] == r.value;
          forall j | 0 <= j < k + 1 ensures products[j].id != id {
            if j > 0 { assert products[j] == products[1..][j - 1]; }
          }
        }
      }
      r
  }

  /** Whether a product has the id. */
  function ProductHasId(id: string): Product -> bool {
    (p: Product) => p.id == id
  }

  /** `updateProduct`: every product with the record's id becomes the record. */
  function ReplaceProduct(products: seq<Product>, q: Product): (r: seq<Product>)
    ensures |r| == |products|
    ensures forall i :: 0 <= i < |r| ==> r[i] == (if products[i].id == q.id then q else products[i])
  {
    ReplaceWhere(products, ProductHasId(q.id), q)
  }

  /** One queued write; `None` stands for the early return on an unknown product. */
  function ApplyWrite(products: seq<Product>, w: Option<Product>): seq<Product> {
    match w
    case None => products
    case Some(q) => ReplaceProduct(products, q)
  }

  /** The queued writes of one command, replayed in order. */
  function Commit(products: seq<Product>, writes: seq<Option<Product>>): seq<Product>
    decreases |writes|
  {
    if |writes| == 0 then products else Commit(ApplyWrite(products, writes[0]), writes[1..])
  }

  /** One inventory step of a command: apply or revert a movement of a product. */
  datatype Step = Step(revert: bool, t: TxType, productId: string, qty: real)

  function Move(p: Product, s: Step): Product {
    if s.revert then Revert(p, s.t, s.qty) else Apply(p, s.t, s.qty)
  }

  /** The write a step queues: the product record read from `snapshot`, moved. */
  function WriteFrom(snapshot: seq<Product>, s: Step): (w: Option<Product>)
    ensures w.None? <==> FindProduct(snapshot, s.productId).None?
    ensures w.Some? ==> w.value == Move(FindProduct(snapshot, s.productId).value, s)
  {
    match FindProduct(snapshot, s.productId)
    case None => None
    case Some(p) => Some(Move(p, s))
  }

  /** All steps of one command read the same snapshot. */
  function WritesFrom(snapshot: seq<Product>, steps: seq<Step>): (ws: seq<Option<Product>>)
    ensures |ws| == |steps|
    ensures forall i :: 0 <= i < |steps| ==> ws[i] == WriteFrom(snapshot, steps[i])
  {
    seq(|steps|, i requires 0 <= i < |steps| => WriteFrom(snapshot, steps[i]))
  }

  /** What a command does to the product list under snapshot semantics. */
  function RunFromSnapshot(products: seq<Product>, steps: seq<Step>): seq<Product> {
    Commit(products, WritesFrom(products, steps))
  }

  /** The intended reading: each step reads the list the previous step left. */
  function RunSequentially(products: seq<Product>, steps: seq<Step>): seq<Product>
    decreases |steps|
  {
    if |steps| == 0 then products
    else RunSequentially(ApplyWrite(products, WriteFrom(products, steps[0])), steps[1..])
  }

  predicate DistinctProducts(steps: seq<Step>) {
    forall i, j :: 0 <= i < j < |steps| ==> steps[i].productId != steps[j].productId
  }

  /** A write leaves the lookup of every other id as it was, and makes its own id find the record. */
  lemma {:induction false} FindAfterReplace(products: seq<Product>, q: Product, id: string)
    ensures id != q.id ==> FindProduct(ReplaceProduct(products, q), id) == FindProduct(products, id)
    ensures id == q.id && FindProduct(products, id).Some? ==>
              FindProduct(ReplaceProduct(products, q), id) == Some(q)
  {
    if |products| > 0 {
      var r := ReplaceProduct(products, q);
      assert r[1..] == ReplaceProduct(products[1..], q);
      FindAfterReplace(products[1..], q, id);
    }
  }

  /** Two writes to the same id: the first is lost. */
  lemma {:induction false} LastWriteWins(products: seq<Product>, a: Product, b: Product)
    requires a.id == b.id
    ensures ReplaceProduct(ReplaceProduct(products, a), b) == ReplaceProduct(products, b)
  {
  }

  /**
   * When the steps touch pairwise distinct products, reading every step from
   * the snapshot gives the same list as running the steps one after another.
   */
  lemma {:induction false} SnapshotMatchesSequential(snapshot: seq<Product>, current: seq<Product>, steps: seq<Step>)
    requires DistinctProducts(steps)
    requires forall s :: s in steps ==> FindProduct(current, s.productId) == FindProduct(snapshot, s.productId)
    ensures Commit(current, WritesFrom(snapshot, steps)) == RunSequentially(current, steps)
    decreases |steps|
  {
    if |steps| > 0 {
      var w := WriteFrom(snapshot, steps[0]);
      assert w == WriteFrom(current, steps[0]);
      var next := ApplyWrite(current, w);
      forall s | s in steps[1..]
        ensures FindProduct(next, s.productId) == FindProduct(snapshot, s.productId)
      {
        var k :| 0 <= k < |steps[1..]| && steps[1..][k] == s;
        assert steps[k + 1] == s;
        if w.Some? {
          FindAfterReplace(current, w.value, s.productId);
        }
      }
      assert DistinctProducts(steps[1..]) by {
        forall i, j | 0 <= i < j < |steps[1..]|
          ensures steps[1..][i].productId != steps[1..][j].productId
        {
          assert steps[1..][i] == steps[i + 1] && steps[1..][j] == steps[j + 1];
        }
      }
      SnapshotMatchesSequential(snapshot, next, steps[1..]);
      assert WritesFrom(snapshot, steps)[1..] == WritesFrom(snapshot, steps[1..]);
    }
  }

  /** The snapshot run of a command coincides with the sequential run when its products are distinct. */
  lemma SnapshotIsSequentialWhenDistinct(products: seq<Product>, steps: seq<Step>)
    requires DistinctProducts(steps)
    ensures RunFromSnapshot(products, steps) == RunSequentially(products, steps)
  {
    SnapshotMatchesSequential(products, products, steps);
  }

  predicate AllConsistent(products: seq<Product>) {
    forall p :: p in products ==> Consistent(p)
  }

  /** Writes of consistent records keep every product consistent. */
  lemma {:induction false} CommitKeepsConsistent(products: seq<Product>, writes: seq<Option<Product>>)
    requires AllConsistent(products)
    requires forall w :: w in writes && w.Some? ==> Consistent(w.value)
    ensures AllConsistent(Commit(products, writes))
    decreases |writes|
  {
    if |writes| > 0 {
      var next := ApplyWrite(products, writes[0]);
      assert AllConsistent(next) by {
        forall p | p in next ensures Consistent(p) {
          var i :| 0 <= i < |next| && next[i] == p;
        }
      }
      assert forall w :: w in writes[1..] ==> w in writes;
      CommitKeepsConsistent(next, writes[1..]);
    }
  }

  /** Every command's inventory effect keeps the stock invariant of every product. */
  lemma SnapshotRunKeepsConsistent(products: seq<Product>, steps: seq<Step>)
    requires AllConsistent(products)
    ensures AllConsistent(RunFromSnapshot(products, steps))
  {
    var ws := WritesFrom(products, steps);
    forall w | w in ws && w.Some? ensures Consistent(w.value) {
      var i :| 0 <= i < |ws| && ws[i] == w;
      var p := FindProduct(products, steps[i].productId).value;
      MovementsKeepConsistent(p, steps[i].t, steps[i].qty);
    }
    CommitKeepsConsistent(products, ws);
  }

  /** A step on an unknown product changes nothing. */
  lemma UnknownProductIsNoOp(products: seq<Product>, s: Step)
    requires forall p :: p in products ==> p.id != s.productId
    ensures RunFromSnapshot(products, [s]) == products
    ensures RunSequentially(products, [s]) == products
  {
    assert WritesFrom(products, [s]) == [None];
    var ws: seq<Option<Product>> := [None];
    assert ws[1..] == [];
    assert Commit(products, ws) == Commit(products, []);
  }

  predicate UniqueIds(products: seq<Product>) {
    forall i, j :: 0 <= i < j < |products| ==> products[i].id != products[j].id
  }

  /** With unique ids, writing back the record a list already holds changes nothing. */
  lemma ReplaceWithSelf(products: seq<Product>, q: Product)
    requires UniqueIds(products)
    requires q in products
    ensures ReplaceProduct(products, q) == products
  {
  }

  /** With unique ids, the lookup of a just-written id finds what was written. */
  lemma {:induction false} FindWritten(products: seq<Product>, q: Product)
    requires FindProduct(products, q.id).Some?
    ensures FindProduct(ReplaceProduct(products, q), q.id) == Some(q)
  {
    FindAfterReplace(products, q, q.id);
  }
}

=== FILE: invoice_form.dfy ===
/**
 * The invoice form: editable lines of product, quantity and unit price whose
 * total is recomputed on every change, the subtotal, 12% tax and total over
 * the lines, and a submit that requires a client and, on every line, a
 * product and a positive quantity.
 */
module InvoiceForm {
  import opened Text
  import opened Journal
  import opened Inventory
  import opened Posting

  /** A line as the form holds it: quantity and price are still input values. */
  datatype FormLine = FormLine(productId: string, productName: string, quantity: NumText, unitPrice: NumText, total: real)

  datatype Form = Form(
    id: string,
    status: InvoiceStatus,
    contactId: string,
    date: int,
    dueDate: int,
    lines: seq<FormLine>)

  /** The line a new invoice starts with and `handleAddLine` appends: one unit at price 0. */
  const FreshLine: FormLine := FormLine("", "", Num(1.0), Num(0.0), 0.0)

  const TaxRate: real := 0.12

  /** A line's total: quantity times unit price, each blank field read as 0. */
  function LineTotal(l: FormLine): real {
    ParseFloatOrZero(l.quantity) * ParseFloatOrZero(l.unitPrice)
  }

  /** Every line's total agrees with its quantity and price. */
  predicate TotalsCurrent(lines: seq<FormLine>) {
    forall i :: 0 <= i < |lines| ==> lines[i].total == LineTotal(lines[i])
  }

  /** The edits `handleLineChange` reacts to by recomputing the line total. */
  datatype LineEdit = ChooseProduct(productId: string) | SetQuantity(quantity: NumText) | SetPrice(unitPrice: NumText)

  /** `handleLineChange` on one line: a chosen product that exists brings its price and name. */
  function ChangeLine(products: seq<Product>, l: FormLine, edit: LineEdit): (r: FormLine)
    ensures r.total == LineTotal(r)
    ensures edit.ChooseProduct? ==> r.productId == edit.productId && r.quantity == l.quantity
    ensures edit.ChooseProduct? && FindProduct(products, edit.productId).Some? ==>
              var p := FindProduct(products, edit.productId).value;
              r.unitPrice == Num(p.price) && r.productName == p.name
    ensures edit.ChooseProduct? && FindProduct(products, edit.productId).None? ==>
              r.unitPrice == l.unitPrice && r.productName == l.productName
    ensures edit.SetQuantity? ==> r == l.(quantity := edit.quantity, total := r.total)
    ensures edit.SetPrice? ==> r == l.(unitPrice := edit.unitPrice, total := r.total)
  {
    var changed := match edit
      case ChooseProduct(id) =>
        (match FindProduct(products, id)
         case Some(p) => l.(productId := id, unitPrice := Num(p.price), productName := p.name)
         case None => l.(productId := id))
      case SetQuantity(q) => l.(quantity := q)
      case SetPrice(u) => l.(unitPrice := u);
    changed.(total := LineTotal(changed))
  }

  function HandleLineChange(products: seq<Product>, f: Form, index: int, edit: LineEdit): (r: Form)
    requires 0 <= index < |f.lines|
    ensures |r.lines| == |f.lines| && r.lines[index] == ChangeLine(products, f.lines[index], edit)
    ensures forall i :: 0 <= i < |f.lines| && i != index ==> r.lines[i] == f.lines[i]
    ensures r.(lines := f.lines) == f
  {
    f.(lines := f.lines[index := ChangeLine(products, f.lines[index], edit)])
  }

  function AddLine(f: Form): Form {
    f.(lines := f.lines + [FreshLine])
  }

  function RemoveLine(f: Form, index: int): Form {
    f.(lines := RemoveAt(f.lines, index))
  }

  /** Adding, removing and editing lines keep every line total in step with its quantity and price. */
  lemma LineTotalsStayCurrent(products: seq<Product>, f: Form, index: int, edit: LineEdit)
    requires TotalsCurrent(f.lines)
    ensures TotalsCurrent(AddLine(f).lines)
    ensures TotalsCurrent(RemoveLine(f, index).lines)
    ensures 0 <= index < |f.lines| ==> TotalsCurrent(HandleLineChange(products, f, index, edit).lines)
  {
    var r := RemoveLine(f, index).lines;
    if 0 <= index < |f.lines| {
      forall i | 0 <= i < |r| ensures r[i].total == LineTotal(r[i]) {
        assert r[i] == f.lines[if i < index then i else i + 1];
      }
    }
  }

  function Subtotal(lines: seq<FormLine>): real {
    if |lines| == 0 then 0.0 else lines[0].total + Subtotal(lines[1..])
  }

  /** `calculateTotals`. */
  datatype Totals = Totals(subtotal: real, tax: real, total: real)

  function TotalsOf(lines: seq<FormLine>): (t: Totals)
    ensures t.subtotal == Subtotal(lines)
    ensures t.total == t.subtotal * 1.12 && t.tax == t.total - t.subtotal
  {
    var subtotal := Subtotal(lines);
    var tax := subtotal * TaxRate;
    Totals(subtotal, tax, subtotal + tax)
  }

  /** The quantity check compares the input as a number, so an empty quantity counts as 0. */
  predicate ValidLine(l: FormLine) {
    l.productId != "" && ParseFloatOrZero(l.quantity) > 0.0
  }

  /** The line handed to the engine: the quantity read as a number. */
  function ToInvoiceLine(l: FormLine): InvoiceLine {
    InvoiceLine(l.productId, l.productName, ParseFloatOrZero(l.quantity), ParseFloatOrZero(l.unitPrice), l.total)
  }

  function ToInvoiceLines(lines: seq<FormLine>): (r: seq<InvoiceLine>)
    ensures |r| == |lines|
    ensures forall i :: 0 <= i < |lines| ==> r[i] == ToInvoiceLine(lines[i])
  {
    seq(|lines|, i requires 0 <= i < |lines| => ToInvoiceLine(lines[i]))
  }

  /** `handleSubmit`: the invoice passed on, with the totals of its lines, or the refusal. */
  function Submit(f: Form): (r: Submission<Invoice>)
    ensures r.Accepted? <==> f.contactId != "" && forall i :: 0 <= i < |f.lines| ==> ValidLine(f.lines[i])
    ensures r.Rejected? ==> r.reason == MissingFields
    ensures r.Accepted? ==>
              && r.value.id == f.id && r.value.contactId == f.contactId
              && r.value.lines == ToInvoiceLines(f.lines)
              && r.value.subtotal == Subtotal(f.lines)
              && r.value.tax == Subtotal(f.lines) * TaxRate
              && r.value.total == r.value.subtotal + r.value.tax
  {
    if f.contactId == "" || exists i :: 0 <= i < |f.lines| && !ValidLine(f.lines[i]) then Rejected(MissingFields)
    else
      var t := TotalsOf(f.lines);
      Accepted(Invoice(f.id, f.contactId, f.date, f.dueDate, ToInvoiceLines(f.lines), t.subtotal, t.tax, t.total, f.status))
  }

  lemma {:induction false} SubtotalIsLinesTotal(lines: seq<FormLine>)
    ensures LinesTotal(ToInvoiceLines(lines)) == Subtotal(lines)
    decreases |lines|
  {
    if |lines| > 0 {
      SubtotalIsLinesTotal(lines[1..]);
      assert ToInvoiceLines(lines)[1..] == ToInvoiceLines(lines[1..]);
    }
  }

  /**
   * The tax is never posted: an accepted invoice puts its subtotal, not its
   * taxed total, on the receivable account.
   */
  lemma TaxNeverPosted(products: seq<Product>, f: Form)
    requires Submit(f).Accepted?
    ensures var inv := Submit(f).value;
            && TotalDebit(EntriesFor(InvoicePosting(products, inv), "1103")) == inv.subtotal
            && inv.total - TotalDebit(EntriesFor(InvoicePosting(products, inv), "1103")) == inv.tax
  {
    var inv := Submit(f).value;
    InvoicePostingBalanced(products, inv);
    SubtotalIsLinesTotal(f.lines);
  }
}

=== FILE: journal.dfy ===
/**
 * Journal lines and the sums over them. A line is tagged with the business
 * event that produced it; only transaction lines carry a transaction id, which
 * is what editing or deleting a transaction filters on.
 */
module Journal {

  /** Which command produced a line (`transactionId`, `invoiceId`, `paymentId`, `collectionId`, `isManual`). */
  datatype Origin =
    | FromTransaction(transactionId: string)
    | FromInvoice(invoiceId: string)
    | FromPayment(paymentId: string)
    | FromCollection(collectionId: string)
    | FromIncomeOrExpense
    | FromManualEntry

  /** A journal line; its display key (`id`) is not modelled. */
  datatype Line = Line(
    entryId: string,
    date: int,
    accountCode: string,
    description: string,
    debit: real,
    credit: real,
    origin: Origin)

  /** Whether the line is tagged with the transaction id. */
  predicate OfTransaction(line: Line, id: string) {
    line.origin.FromTransaction? && line.origin.transactionId == id
  }

  function TotalDebit(lines: seq<Line>): real {
    if |lines| == 0 then 0.0 else lines[0].debit + TotalDebit(lines[1..])
  }

  function TotalCredit(lines: seq<Line>): real {
    if |lines| == 0 then 0.0 else lines[0].credit + TotalCredit(lines[1..])
  }

  /** Debits minus credits. */
  function Net(lines: seq<Line>): real {
    TotalDebit(lines) - TotalCredit(lines)
  }

  /** The double-entry rule for a group of lines: debits equal credits. */
  predicate Balanced(lines: seq<Line>) {
    TotalDebit(lines) == TotalCredit(lines)
  }

  lemma {:induction false} TotalsAppend(a: seq<Line>, b: seq<Line>)
    ensures TotalDebit(a + b) == TotalDebit(a) + TotalDebit(b)
    ensures TotalCredit(a + b) == TotalCredit(a) + TotalCredit(b)
    ensures Net(a + b) == Net(a) + Net(b)
  {
    if |a| > 0 {
      assert (a + b)[1..] == a[1..] + b;
      TotalsAppend(a[1..], b);
    } else {
      assert a + b == b;
    }
  }

  /** Appending a balanced group keeps a balanced journal balanced, and only then. */
  lemma AppendBalanced(journal: seq<Line>, group: seq<Line>)
    requires Balanced(journal)
    ensures Balanced(journal + group) <==> Balanced(group)
  {
    TotalsAppend(journal, group);
  }

  /** The lines posted to one account, in journal order. */
  function EntriesFor(lines: seq<Line>, code: string): (r: seq<Line>)
    ensures |r| <= |lines|
    ensures forall l :: l in r <==> l in lines && l.accountCode == code
  {
    if |lines| == 0 then []
    else
      var rest := EntriesFor(lines[1..], code);
      if lines[0].accountCode == code then [lines[0]] + rest else rest
  }

  /** The lines not tagged with the transaction id, in order. */
  function WithoutTransaction(lines: seq<Line>, id: string): (r: seq<Line>)
    ensures forall l :: l in r <==> l in lines && !OfTransaction(l, id)
  {
    if |lines| == 0 then []
    else
      var rest := WithoutTransaction(lines[1..], id);
      if OfTransaction(lines[0], id) then rest else [lines[0]] + rest
  }

  /** The lines tagged with one transaction id. */
  function TransactionLines(lines: seq<Line>, id: string): (r: seq<Line>)
    ensures forall l :: l in r <==> l in lines && OfTransaction(l, id)
  {
    if |lines| == 0 then []
    else
      var rest := TransactionLines(lines[1..], id);
      if OfTransaction(lines[0], id) then [lines[0]] + rest else rest
  }

  lemma {:induction false} WithoutAppend(a: seq<Line>, b: seq<Line>, id: string)
    ensures WithoutTransaction(a + b, id) == WithoutTransaction(a, id) + WithoutTransaction(b, id)
  {
    if |a| > 0 {
      assert (a + b)[1..] == a[1..] + b;
      WithoutAppend(a[1..], b, id);
    } else {
      assert a + b == b;
    }
  }

  lemma {:induction false} TaggedAppend(a: seq<Line>, b: seq<Line>, id: string)
    ensures TransactionLines(a + b, id) == TransactionLines(a, id) + TransactionLines(b, id)
  {
    if |a| > 0 {
      assert (a + b)[1..] == a[1..] + b;
      TaggedAppend(a[1..], b, id);
    } else {
      assert a + b == b;
    }
  }

  lemma {:induction false} EntriesAppend(a: seq<Line>, b: seq<Line>, code: string)
    ensures EntriesFor(a + b, code) == EntriesFor(a, code) + EntriesFor(b, code)
  {
    if |a| > 0 {
      assert (a + b)[1..] == a[1..] + b;
      EntriesAppend(a[1..], b, code);
    } else {
      assert a + b == b;
    }
  }

  /** Filters distribute over concatenation. */
  lemma FiltersAppend(a: seq<Line>, b: seq<Line>, id: string, code: string)
    ensures WithoutTransaction(a + b, id) == WithoutTransaction(a, id) + WithoutTransaction(b, id)
    ensures TransactionLines(a + b, id) == TransactionLines(a, id) + TransactionLines(b, id)
    ensures EntriesFor(a + b, code) == EntriesFor(a, code) + EntriesFor(b, code)
  {
    WithoutAppend(a, b, id);
    TaggedAppend(a, b, id);
    EntriesAppend(a, b, code);
  }

  /** Removing a transaction's lines removes exactly their net amount from the journal. */
  lemma {:induction false} NetWithoutTransaction(lines: seq<Line>, id: string)
    ensures Net(lines) == Net(WithoutTransaction(lines, id)) + Net(TransactionLines(lines, id))
  {
    if |lines| > 0 {
      NetWithoutTransaction(lines[1..], id);
      var rest := WithoutTransaction(lines[1..], id);
      var tagged := TransactionLines(lines[1..], id);
      TotalsAppend([lines[0]], rest);
      TotalsAppend([lines[0]], tagged);
      assert [lines[0]] + lines[1..] == lines;
      TotalsAppend([lines[0]], lines[1..]);
    }
  }

  /** A filter that keeps nothing: no line of `lines` belongs to the transaction. */
  lemma {:induction false} WithoutAbsentTransaction(lines: seq<Line>, id: string)
    requires forall l :: l in lines ==> !OfTransaction(l, id)
    ensures WithoutTransaction(lines, id) == lines
    ensures TransactionLines(lines, id) == []
  {
    if |lines| > 0 {
      WithoutAbsentTransaction(lines[1..], id);
      assert [lines[0]] + lines[1..] == lines;
    }
  }

  /** A group whose every line belongs to the transaction is kept whole by its tag. */
  lemma {:induction false} AllOfTransaction(lines: seq<Line>, id: string)
    requires forall l :: l in lines ==> OfTransaction(l, id)
    ensures WithoutTransaction(lines, id) == []
    ensures TransactionLines(lines, id) == lines
  {
    if |lines| > 0 {
      AllOfTransaction(lines[1..], id);
      assert [lines[0]] + lines[1..] == lines;
    }
  }
}

=== FILE: journal_book.dfy ===
/**
 * The journal book: lines grouped by entry id. The page folds the lines
 * into an object keyed by entry id, pushing each line onto its key's list,
 * and lists the keys in insertion order (entry ids are never array-index
 * strings, so the object keeps the order in which keys first appear). Each
 * group shows its first line's date and its debit and credit totals.
 */
module JournalBook {
  import opened Journal

  datatype Group = Group(entryId: string, entries: seq<Line>)

  /** The entry ids of the lines, each once, in order of first appearance. */
  function Keys(lines: seq<Line>): (ks: seq<string>)
    ensures forall k :: k in ks <==> exists l :: l in lines && l.entryId == k
    ensures forall i, j :: 0 <= i < j < |ks| ==> ks[i] != ks[j]
  {
    if |lines| == 0 then []
    else
      var front := lines[..|lines| - 1];
      var last := lines[|lines| - 1];
      assert forall l :: l in lines <==> l in front || l == last by {
        assert lines == front + [last];
      }
      var ks := Keys(front);
      if last.entryId in ks then ks else ks + [last.entryId]
  }

  /** The lines with one entry id, in their order. */
  function WithEntryId(lines: seq<Line>, id: string): (r: seq<Line>)
    ensures forall l :: l in r <==> l in lines && l.entryId == id
  {
    if |lines| == 0 then []
    else
      var front := lines[..|lines| - 1];
      var last := lines[|lines| - 1];
      assert forall l :: l in lines <==> l in front || l == last by {
        assert lines == front + [last];
      }
      WithEntryId(front, id) + if last.entryId == id then [last] else []
  }

  /** The position of the group for an id, or -1. */
  function GroupIndex(groups: seq<Group>, id: string): (k: int)
    ensures -1 <= k < |groups|
    ensures k >= 0 ==> groups[k].entryId == id
    ensures k < 0 ==> forall j :: 0 <= j < |groups| ==> groups[j].entryId != id
  {
    if |groups| == 0 then -1
    else if groups[|groups| - 1].entryId == id then |groups| - 1
    else GroupIndex(groups[..|groups| - 1], id)
  }

  /** One step of the page's fold: push the line onto its id's group, opening the group if the id is new. */
  function Push(groups: seq<Group>, l: Line): seq<Group> {
    var k := GroupIndex(groups, l.entryId);
    if k < 0 then groups + [Group(l.entryId, [l])]
    else groups[k := Group(l.entryId, groups[k].entries + [l])]
  }

  /** The groups are those of the lines: one per key, in key order, each holding its key's lines. */
  predicate GroupsOf(groups: seq<Group>, lines: seq<Line>) {
    && |groups| == |Keys(lines)|
    && forall k :: 0 <= k < |groups| ==>
         groups[k].entryId == Keys(lines)[k] && groups[k].entries == WithEntryId(lines, groups[k].entryId)
  }

  lemma PushNew(groups: seq<Group>, prefix: seq<Line>, l: Line)
    requires GroupsOf(groups, prefix)
    requires GroupIndex(groups, l.entryId) < 0
    ensures GroupsOf(Push(groups, l), prefix + [l])
  {
    var lines := prefix + [l];
    assert lines[..|lines| - 1] == prefix;
    assert l.entryId !in Keys(prefix) by {
      forall j | 0 <= j < |Keys(prefix)| ensures Keys(prefix)[j] != l.entryId {
        assert groups[j].entryId != l.entryId;
      }
    }
    NoneWithEntryId(prefix, l.entryId);
    assert Keys(lines) == Keys(prefix) + [l.entryId];
  }

  lemma PushExisting(groups: seq<Group>, prefix: seq<Line>, l: Line)
    requires GroupsOf(groups, prefix)
    requires GroupIndex(groups, l.entryId) >= 0
    ensures GroupsOf(Push(groups, l), prefix + [l])
  {
    var lines := prefix + [l];
    assert lines[..|lines| - 1] == prefix;
    var k := GroupIndex(groups, l.entryId);
    assert Keys(prefix)[k] == l.entryId;
    assert Keys(lines) == Keys(prefix);
  }

  /** The groups the page shows: one per entry id, in order of first appearance, each with its lines in order. */
  method GroupLines(lines: seq<Line>) returns (groups: seq<Group>)
    ensures |groups| == |Keys(lines)|
    ensures forall k :: 0 <= k < |groups| ==>
              groups[k].entryId == Keys(lines)[k] && groups[k].entries == WithEntryId(lines, groups[k].entryId)
  {
    groups := [];
    for i := 0 to |lines|
      invariant GroupsOf(groups, lines[..i])
    {
      assert lines[..i + 1] == lines[..i] + [lines[i]];
      if GroupIndex(groups, lines[i].entryId) < 0 {
        PushNew(groups, lines[..i], lines[i]);
      } else {
        PushExisting(groups, lines[..i], lines[i]);
      }
      groups := Push(groups, lines[i]);
    }
    assert lines[..|lines|] == lines;
  }

  /** Every line is shown in exactly one group: the one keyed by its entry id. */
  lemma GroupsPartition(lines: seq<Line>, groups: seq<Group>, l: Line)
    requires GroupsOf(groups, lines)
    requires l in lines
    ensures exists k :: 0 <= k < |groups| && groups[k].entryId == l.entryId && l in groups[k].entries
    ensures forall k :: 0 <= k < |groups| && l in groups[k].entries ==> groups[k].entryId == l.entryId
  {
    assert l.entryId in Keys(lines);
    var k :| 0 <= k < |Keys(lines)| && Keys(lines)[k] == l.entryId;
    assert l in groups[k].entries;
  }

  /** The date shown for a group: its first line's date. */
  function GroupDate(g: Group): int
    requires g.entries != []
  {
    g.entries[0].date
  }

  /** The first line of a journal with a given entry id. */
  lemma {:induction false} GroupDateIsFirstLine(lines: seq<Line>, id: string)
    requires WithEntryId(lines, id) != []
    ensures exists i :: 0 <= i < |lines| && lines[i].entryId == id
              && (forall j :: 0 <= j < i ==> lines[j].entryId != id)
              && GroupDate(Group(id, WithEntryId(lines, id))) == lines[i].date
    decreases |lines|
  {
    var front := lines[..|lines| - 1];
    if WithEntryId(front, id) != [] {
      GroupDateIsFirstLine(front, id);
      var i :| 0 <= i < |front| && front[i].entryId == id
               && (forall j :: 0 <= j < i ==> front[j].entryId != id)
               && GroupDate(Group(id, WithEntryId(front, id))) == front[i].date;
      FirstInFront(lines, id, i);
    } else {
      FirstIsLast(lines, id);
    }
  }

  /** A first line with the id found before the last line is still the first in the whole journal. */
  lemma FirstInFront(lines: seq<Line>, id: string, i: int)
    requires |lines| > 0
    requires var front := lines[..|lines| - 1];
             && WithEntryId(front, id) != []
             && 0 <= i < |front| && front[i].entryId == id
             && (forall j :: 0 <= j < i ==> front[j].entryId != id)
             && GroupDate(Group(id, WithEntryId(front, id))) == front[i].date
    ensures 0 <= i < |lines| && lines[i].entryId == id
            && (forall j :: 0 <= j < i ==> lines[j].entryId != id)
            && GroupDate(Group(id, WithEntryId(lines, id))) == lines[i].date
  {
    var front := lines[..|lines| - 1];
    assert WithEntryId(lines, id)[0] == WithEntryId(front, id)[0];
    assert forall j :: 0 <= j <= i ==> lines[j] == front[j];
  }

  /** When no line before the last has the id, the last line is the group's first. */
  lemma FirstIsLast(lines: seq<Line>, id: string)
    requires WithEntryId(lines, id) != []
    requires WithEntryId(lines[..|lines| - 1], id) == []
    ensures lines[|lines| - 1].entryId == id
    ensures forall j :: 0 <= j < |lines| - 1 ==> lines[j].entryId != id
    ensures GroupDate(Group(id, WithEntryId(lines, id))) == lines[|lines| - 1].date
  {
    var front := lines[..|lines| - 1];
    forall j | 0 <= j < |front| ensures lines[j].entryId != id {
      assert lines[j] == front[j] && front[j] in front;
    }
  }

  /** Filtering distributes over concatenation. */
  lemma {:induction false} WithEntryIdAppend(a: seq<Line>, b: seq<Line>, id: string)
    ensures WithEntryId(a + b, id) == WithEntryId(a, id) + WithEntryId(b, id)
    decreases |b|
  {
    if |b| == 0 {
      assert a + b == a;
    } else {
      var front := b[..|b| - 1];
      assert (a + b)[..|a + b| - 1] == a + front;
      WithEntryIdAppend(a, front, id);
    }
  }

  /** A group of lines that all carry one entry id is left whole by the filter. */
  lemma {:induction false} WithOwnEntryId(g: seq<Line>, id: string)
    requires forall l :: l in g ==> l.entryId == id
    ensures WithEntryId(g, id) == g
    decreases |g|
  {
    if |g| > 0 {
      WithOwnEntryId(g[..|g| - 1], id);
      assert g[..|g| - 1] + [g[|g| - 1]] == g;
    }
  }

  /** Lines that carry other entry ids contribute nothing to the group. */
  lemma NoneWithEntryId(lines: seq<Line>, id: string)
    requires forall l :: l in lines ==> l.entryId != id
    ensures WithEntryId(lines, id) == []
  {
    if WithEntryId(lines, id) != [] {
      assert WithEntryId(lines, id)[0] in WithEntryId(lines, id);
    }
  }

  /**
   * A balanced posting whose entry id no other line of the journal shares is
   * shown as one group whose debit and credit totals are equal.
   */
  lemma PostingShownBalanced(before: seq<Line>, posting: seq<Line>, after: seq<Line>, id: string)
    requires Balanced(posting)
    requires forall l :: l in posting ==> l.entryId == id
    requires forall l :: l in before + after ==> l.entryId != id
    ensures WithEntryId(before + posting + after, id) == posting
    ensures Balanced(WithEntryId(before + posting + after, id))
  {
    WithEntryIdAppend(before + posting, after, id);
    WithEntryIdAppend(before, posting, id);
    NoneWithEntryId(before, id);
    NoneWithEntryId(after, id);
    WithOwnEntryId(posting, id);
    assert [] + posting + [] == posting;
  }
}

=== FILE: ledger.dfy ===
/**
 * The general ledger: journal lines grouped by account. Lines whose account
 * is missing from the chart are skipped; every other line is added to its
 * account's record, which keeps the account's entries, debit and credit
 * totals, and its balance by the sign rule of the code.
 */
module Ledger {
  import opened Text
  import opened Chart
  import opened Journal
  import Sorting

  datatype LedgerAccount = LedgerAccount(
    accountCode: string,
    accountName: string,
    entries: seq<Line>,
    totalDebit: real,
    totalCredit: real,
    balance: real)

  /** What the ledger should hold for a code: the account's posted lines and their totals. */
  function AccountFor(chart: seq<Account>, lines: seq<Line>, code: string): (a: LedgerAccount)
    requires InChart(chart, code)
    ensures a.accountCode == code && a.accountName == Find(chart, code).value.name
    ensures a.entries == EntriesFor(lines, code)
    ensures a.balance == SignedBalance(code, TotalDebit(a.entries), TotalCredit(a.entries))
  {
    var es := EntriesFor(lines, code);
    LedgerAccount(code, Find(chart, code).value.name, es, TotalDebit(es), TotalCredit(es),
                  SignedBalance(code, TotalDebit(es), TotalCredit(es)))
  }

  /** The index of the first record for a code, or -1. */
  function IndexOf(ledger: seq<LedgerAccount>, code: string): (r: int)
    ensures -1 <= r < |ledger|
    ensures r >= 0 ==> ledger[r].accountCode == code && forall j :: 0 <= j < r ==> ledger[j].accountCode != code
    ensures r < 0 ==> forall j :: 0 <= j < |ledger| ==> ledger[j].accountCode != code
  {
    if |ledger| == 0 then -1
    else if ledger[0].accountCode == code then 0
    else
      var k := IndexOf(ledger[1..], code);
      if k < 0 then -1 else k + 1
  }

  /** The first ledger record for the code, if there is one. */
  function Lookup(ledger: seq<LedgerAccount>, code: string): (r: Option<LedgerAccount>)
    ensures r.Some? ==> r.value in ledger && r.value.accountCode == code
    ensures r.None? <==> forall j :: 0 <= j < |ledger| ==> ledger[j].accountCode != code
  {
    var k := IndexOf(ledger, code);
    if k < 0 then None else Some(ledger[k])
  }

  predicate DistinctCodes(ledger: seq<LedgerAccount>) {
    forall i, j :: 0 <= i < j < |ledger| ==> ledger[i].accountCode != ledger[j].accountCode
  }

  /** The record a code should have after the lines: none unless the code is in the chart and was posted to. */
  function Expected(chart: seq<Account>, lines: seq<Line>, code: string): Option<LedgerAccount> {
    if InChart(chart, code) && EntriesFor(lines, code) != [] then Some(AccountFor(chart, lines, code)) else None
  }

  /**
   * A ledger describes the lines over a chart when each code has at most one
   * record, and a code has a record exactly when it is in the chart and has a
   * posted line, that record being the code's entries and totals.
   */
  ghost predicate Describes(ledger: seq<LedgerAccount>, chart: seq<Account>, lines: seq<Line>) {
    && DistinctCodes(ledger)
    && forall code :: Lookup(ledger, code) == Expected(chart, lines, code)
  }

  /** The record of a code's first posting: an empty record with the chart's name, after one addition. */
  function Open(chart: seq<Account>, l: Line): (a: LedgerAccount)
    requires InChart(chart, l.accountCode)
    ensures a.accountCode == l.accountCode && a.entries == [l]
  {
    AddLine(LedgerAccount(l.accountCode, Find(chart, l.accountCode).value.name, [], 0.0, 0.0, 0.0), l)
  }

  /** One line added to its account's record; the balance is recomputed from the new totals. */
  function AddLine(a: LedgerAccount, l: Line): (r: LedgerAccount)
    ensures r.accountCode == a.accountCode && r.accountName == a.accountName
    ensures r.entries == a.entries + [l]
    ensures r.totalDebit - r.totalCredit == a.totalDebit - a.totalCredit + (l.debit - l.credit)
    ensures r.balance == SignedBalance(a.accountCode, r.totalDebit, r.totalCredit)
  {
    var d := a.totalDebit + l.debit;
    var c := a.totalCredit + l.credit;
    a.(entries := a.entries + [l], totalDebit := d, totalCredit := c, balance := SignedBalance(a.accountCode, d, c))
  }

  /** One step of the ledger's `forEach`: skip a line with an unknown account, open or extend its record. */
  function Post(ledger: seq<LedgerAccount>, chart: seq<Account>, l: Line): seq<LedgerAccount> {
    if !InChart(chart, l.accountCode) then ledger
    else
      var k := IndexOf(ledger, l.accountCode);
      if k < 0 then ledger + [Open(chart, l)] else ledger[k := AddLine(ledger[k], l)]
  }

  /** `getGeneralLedger` over a sequence of lines, as a left fold of `Post`. */
  function LedgerOf(chart: seq<Account>, lines: seq<Line>): (r: seq<LedgerAccount>)
    ensures forall i :: 0 <= i < |r| ==> InChart(chart, r[i].accountCode)
    ensures forall i :: 0 <= i < |r| ==>
              r[i].balance == SignedBalance(r[i].accountCode, r[i].totalDebit, r[i].totalCredit)
  {
    if |lines| == 0 then []
    else Post(LedgerOf(chart, lines[..|lines| - 1]), chart, lines[|lines| - 1])
  }

  /** The fold, one line at a time. */
  lemma LedgerOfSnoc(chart: seq<Account>, lines: seq<Line>, l: Line)
    ensures LedgerOf(chart, lines + [l]) == Post(LedgerOf(chart, lines), chart, l)
  {
    assert (lines + [l])[..|lines|] == lines;
  }

  /** The ledger of any lines describes them. */
  lemma {:induction false} LedgerDescribes(chart: seq<Account>, lines: seq<Line>)
    ensures Describes(LedgerOf(chart, lines), chart, lines)
    decreases |lines|
  {
    if |lines| == 0 {
      forall code ensures Lookup([], code) == Expected(chart, lines, code) {
      }
    } else {
      var front := lines[..|lines| - 1];
      var l := lines[|lines| - 1];
      assert front + [l] == lines;
      LedgerDescribes(chart, front);
      PostDescribes(LedgerOf(chart, front), chart, front, l);
    }
  }

  lemma ExpectedOther(chart: seq<Account>, lines: seq<Line>, l: Line, code: string)
    requires code != l.accountCode
    ensures Expected(chart, lines + [l], code) == Expected(chart, lines, code)
  {
    EntriesAppend(lines, [l], code);
    assert [l][1..] == [];
    assert EntriesFor(lines, code) + [] == EntriesFor(lines, code);
  }

  lemma ExpectedSame(chart: seq<Account>, lines: seq<Line>, l: Line)
    requires InChart(chart, l.accountCode)
    ensures Expected(chart, lines + [l], l.accountCode) ==
            match Expected(chart, lines, l.accountCode)
            case None => Some(Open(chart, l))
            case Some(a) => Some(AddLine(a, l))
  {
    var code := l.accountCode;
    var es := EntriesFor(lines, code);
    EntriesAppend(lines, [l], code);
    assert [l][1..] == [];
    assert EntriesFor([l], code) == [l];
    TotalsAppend(es, [l]);
    if es == [] {
      assert es + [l] == [l];
    }
  }

  /** Adding one line to the described lines keeps the ledger a description of them. */
  lemma PostDescribes(ledger: seq<LedgerAccount>, chart: seq<Account>, lines: seq<Line>, l: Line)
    requires Describes(ledger, chart, lines)
    ensures Describes(Post(ledger, chart, l), chart, lines + [l])
  {
    var r := Post(ledger, chart, l);
    var code0 := l.accountCode;
    if !InChart(chart, code0) {
      forall code ensures Lookup(r, code) == Expected(chart, lines + [l], code) {
        if code != code0 {
          ExpectedOther(chart, lines, l, code);
        }
      }
    } else {
      var k := IndexOf(ledger, code0);
      ExpectedSame(chart, lines, l);
      if k < 0 {
        LookupAppend(ledger, Open(chart, l));
      } else {
        assert Lookup(ledger, code0) == Some(ledger[k]);
        LookupUpdate(ledger, k, AddLine(ledger[k], l));
      }
      forall code ensures Lookup(r, code) == Expected(chart, lines + [l], code) {
        if code != code0 {
          ExpectedOther(chart, lines, l, code);
        }
      }
    }
  }

  /** Appending a record for a new code leaves every other lookup unchanged. */
  lemma LookupAppend(ledger: seq<LedgerAccount>, a: LedgerAccount)
    requires DistinctCodes(ledger)
    requires Lookup(ledger, a.accountCode).None?
    ensures DistinctCodes(ledger + [a])
    ensures forall code :: Lookup(ledger + [a], code) == if code == a.accountCode then Some(a) else Lookup(ledger, code)
  {
    var r := ledger + [a];
    forall code ensures Lookup(r, code) == if code == a.accountCode then Some(a) else Lookup(ledger, code) {
      var k := IndexOf(ledger, code);
      var m := IndexOf(r, code);
      if k >= 0 {
        assert r[k].accountCode == code;
        assert m == k;
      } else if code == a.accountCode {
        assert r[|ledger|].accountCode == code;
        assert m == |ledger|;
      } else {
        assert m < 0;
      }
    }
  }

  /** Replacing a record by one with the same code changes only that code's lookup. */
  lemma LookupUpdate(ledger: seq<LedgerAccount>, k: int, a: LedgerAccount)
    requires DistinctCodes(ledger)
    requires 0 <= k < |ledger| && ledger[k].accountCode == a.accountCode
    ensures DistinctCodes(ledger[k := a])
    ensures forall code :: Lookup(ledger[k := a], code) == if code == a.accountCode then Some(a) else Lookup(ledger, code)
  {
    var r := ledger[k := a];
    forall code ensures Lookup(r, code) == if code == a.accountCode then Some(a) else Lookup(ledger, code) {
      var m := IndexOf(r, code);
      var n := IndexOf(ledger, code);
      if code == a.accountCode {
        assert r[k].accountCode == code;
        assert m == k;
      } else {
        if n >= 0 {
          assert r[n].accountCode == code;
          assert m == n;
        } else {
          assert m < 0;
        }
      }
    }
  }

  /** The value of a digit character; any other character counts as 0. */
  function DigitValue(c: char): nat {
    if '0' <= c <= '9' then (c as int) - ('0' as int) else 0
  }

  /** The value of a string read as a decimal numeral. */
  function DecimalValue(s: string): nat {
    if |s| == 0 then 0 else DecimalValue(s[..|s| - 1]) * 10 + DigitValue(s[|s| - 1])
  }

  /**
   * Whether a code is an array index as an object key in JavaScript: the
   * canonical numeral ("0", or digits without a leading zero) of an integer
   * below 2^32 - 1.
   */
  predicate IsIndexKey(code: string) {
    && |code| > 0
    && (forall i :: 0 <= i < |code| ==> '0' <= code[i] <= '9')
    && (code[0] == '0' ==> |code| == 1)
    && DecimalValue(code) < 0xFFFF_FFFF
  }

  /**
   * The order in which `Object.values` lists an object's properties: keys
   * that are array indices first, ascending by value, then every other key.
   * Other keys are all tied, so a stable sort keeps them in insertion order.
   */
  predicate KeyOrder(a: LedgerAccount, b: LedgerAccount) {
    if IsIndexKey(a.accountCode) then
      !IsIndexKey(b.accountCode) || DecimalValue(a.accountCode) <= DecimalValue(b.accountCode)
    else !IsIndexKey(b.accountCode)
  }

  lemma KeyOrderOrders()
    ensures Sorting.Total(KeyOrder) && Sorting.Transitive(KeyOrder)
  {
  }

  /**
   * The ledger `getGeneralLedger` returns: the records the fold builds, in
   * the order `Object.values` lists the keys of the object that holds them.
   */
  function GeneralLedger(chart: seq<Account>, lines: seq<Line>): (r: seq<LedgerAccount>)
    ensures |r| == |LedgerOf(chart, lines)|
    ensures multiset(r) == multiset(LedgerOf(chart, lines))
    ensures Sorting.Sorted(KeyOrder, r)
  {
    KeyOrderOrders();
    Sorting.SortSorted(KeyOrder, LedgerOf(chart, lines));
    Sorting.Sort(KeyOrder, LedgerOf(chart, lines))
  }

  /**
   * Records whose codes are not array indices keep their first-posting
   * order; so do records that share a numeric value, which distinct
   * canonical codes never do.
   */
  lemma GeneralLedgerStable(chart: seq<Account>, lines: seq<Line>, c: LedgerAccount)
    ensures Sorting.TiedWith(KeyOrder, GeneralLedger(chart, lines), c) ==
            Sorting.TiedWith(KeyOrder, LedgerOf(chart, lines), c)
  {
    KeyOrderOrders();
    Sorting.SortStable(KeyOrder, LedgerOf(chart, lines), c);
  }

  /** In a ledger with one record per code, no record occurs twice. */
  lemma {:induction false} OnceEach(ledger: seq<LedgerAccount>, x: LedgerAccount)
    requires DistinctCodes(ledger)
    ensures multiset(ledger)[x] <= 1
    decreases |ledger|
  {
    if |ledger| > 0 {
      var rest := ledger[1..];
      assert ledger == [ledger[0]] + rest;
      assert multiset(ledger) == multiset{ledger[0]} + multiset(rest);
      assert DistinctCodes(rest) by {
        forall i, j | 0 <= i < j < |rest| ensures rest[i].accountCode != rest[j].accountCode {
          assert rest[i] == ledger[i + 1] && rest[j] == ledger[j + 1];
        }
      }
      OnceEach(rest, x);
      if x == ledger[0] {
        forall k | 0 <= k < |rest| ensures rest[k] != x {
          assert rest[k] == ledger[k + 1];
        }
        assert x !in rest;
      }
    }
  }

  /** An element found at two positions occurs at least twice. */
  lemma TwiceAt(ledger: seq<LedgerAccount>, i: int, j: int)
    requires 0 <= i < j < |ledger| && ledger[i] == ledger[j]
    ensures multiset(ledger)[ledger[i]] >= 2
  {
    var x := ledger[j];
    assert ledger == ledger[..j] + [x] + ledger[j + 1..];
    assert ledger[..j][i] == x;
    assert multiset(ledger[..j])[x] >= 1;
    assert multiset(ledger) == multiset(ledger[..j]) + multiset{x} + multiset(ledger[j + 1..]);
  }

  /** Listing the records of a ledger with one record per code in another order changes no lookup. */
  lemma DescribesPermutation(a: seq<LedgerAccount>, b: seq<LedgerAccount>, chart: seq<Account>, lines: seq<Line>)
    requires Describes(a, chart, lines)
    requires multiset(a) == multiset(b)
    ensures Describes(b, chart, lines)
  {
    forall i, j | 0 <= i < j < |b| ensures b[i].accountCode != b[j].accountCode {
      if b[i].accountCode == b[j].accountCode {
        assert b[i] in multiset(a) && b[j] in multiset(a);
        LookupMember(a, b[i]);
        LookupMember(a, b[j]);
        TwiceAt(b, i, j);
        OnceEach(a, b[i]);
        assert false;
      }
    }
    forall code ensures Lookup(b, code) == Lookup(a, code) {
      var ra := Lookup(a, code);
      var rb := Lookup(b, code);
      if ra.Some? {
        assert ra.value in multiset(b);
      }
      if rb.Some? {
        assert rb.value in multiset(a);
        LookupMember(a, rb.value);
      }
    }
  }

  /** The listed ledger describes the lines, and every record is on a chart code with its signed balance. */
  lemma GeneralLedgerDescribes(chart: seq<Account>, lines: seq<Line>)
    ensures Describes(GeneralLedger(chart, lines), chart, lines)
    ensures forall a :: a in GeneralLedger(chart, lines) <==> a in LedgerOf(chart, lines)
    ensures forall i :: 0 <= i < |GeneralLedger(chart, lines)| ==>
              var a := GeneralLedger(chart, lines)[i];
              InChart(chart, a.accountCode) && a.balance == SignedBalance(a.accountCode, a.totalDebit, a.totalCredit)
  {
    var g := GeneralLedger(chart, lines);
    var f := LedgerOf(chart, lines);
    LedgerDescribes(chart, lines);
    DescribesPermutation(f, g, chart, lines);
    forall a ensures a in g <==> a in f {
      assert a in g <==> a in multiset(g);
      assert a in f <==> a in multiset(f);
    }
    forall i | 0 <= i < |g| ensures InChart(chart, g[i].accountCode) && g[i].balance == SignedBalance(g[i].accountCode, g[i].totalDebit, g[i].totalCredit) {
      assert g[i] in multiset(f);
      var k :| 0 <= k < |f| && f[k] == g[i];
    }
  }

  /**
   * `getGeneralLedger`: all lines are the journal followed by the manual
   * lines (which the journal already holds as well), folded into an object
   * keyed by code and listed with `Object.values`.
   */
  method GetGeneralLedger(chart: seq<Account>, journal: seq<Line>, manual: seq<Line>) returns (ledger: seq<LedgerAccount>)
    ensures Describes(ledger, chart, journal + manual)
    ensures forall i :: 0 <= i < |ledger| ==> InChart(chart, ledger[i].accountCode)
    ensures Sorting.Sorted(KeyOrder, ledger)
    ensures ledger == GeneralLedger(chart, journal + manual)
  {
    var all := journal + manual;
    var posted := [];
    var i := 0;
    while i < |all|
      invariant 0 <= i <= |all|
      invariant posted == LedgerOf(chart, all[..i])
    {
      assert all[..i] + [all[i]] == all[..i + 1];
      LedgerOfSnoc(chart, all[..i], all[i]);
      posted := Post(posted, chart, all[i]);
      i := i + 1;
    }
    assert all[..|all|] == all;
    ledger := Sorting.Sort(KeyOrder, posted);
    GeneralLedgerDescribes(chart, all);
  }

  /** Debits minus credits of a ledger record. */
  function AccountNet(a: LedgerAccount): real {
    a.totalDebit - a.totalCredit
  }

  function SumNet(ledger: seq<LedgerAccount>): real {
    if |ledger| == 0 then 0.0 else SumNet(ledger[..|ledger| - 1]) + AccountNet(ledger[|ledger| - 1])
  }

  /** The lines the ledger keeps: those whose account is in the chart. */
  function Posted(chart: seq<Account>, lines: seq<Line>): (r: seq<Line>)
    ensures forall l :: l in r <==> l in lines && InChart(chart, l.accountCode)
    ensures (forall l :: l in lines ==> InChart(chart, l.accountCode)) ==> r == lines
  {
    if |lines| == 0 then []
    else
      var rest := Posted(chart, lines[1..]);
      assert [lines[0]] + lines[1..] == lines;
      if InChart(chart, lines[0].accountCode) then [lines[0]] + rest else rest
  }

  lemma {:induction false} SumNetAppend(ledger: seq<LedgerAccount>, a: LedgerAccount)
    ensures SumNet(ledger + [a]) == SumNet(ledger) + AccountNet(a)
  {
    assert (ledger + [a])[..|ledger|] == ledger;
  }

  lemma {:induction false} SumNetUpdate(ledger: seq<LedgerAccount>, k: int, a: LedgerAccount)
    requires 0 <= k < |ledger|
    ensures SumNet(ledger[k := a]) == SumNet(ledger) - AccountNet(ledger[k]) + AccountNet(a)
    decreases |ledger|
  {
    var n := |ledger|;
    var r := ledger[k := a];
    if k == n - 1 {
      assert r[..n - 1] == ledger[..n - 1];
    } else {
      assert r[..n - 1] == ledger[..n - 1][k := a];
      SumNetUpdate(ledger[..n - 1], k, a);
    }
  }

  lemma {:induction false} PostedAppend(chart: seq<Account>, lines: seq<Line>, l: Line)
    ensures Posted(chart, lines + [l]) == Posted(chart, lines) + (if InChart(chart, l.accountCode) then [l] else [])
  {
    if |lines| == 0 {
      assert lines + [l] == [l];
      assert [l][1..] == [];
    } else {
      assert (lines + [l])[1..] == lines[1..] + [l];
      PostedAppend(chart, lines[1..], l);
    }
  }

  lemma {:induction false} SumNetConcat(a: seq<LedgerAccount>, b: seq<LedgerAccount>)
    ensures SumNet(a + b) == SumNet(a) + SumNet(b)
    decreases |b|
  {
    if |b| == 0 {
      assert a + b == a;
    } else {
      var front := b[..|b| - 1];
      var x := b[|b| - 1];
      assert a + b == (a + front) + [x];
      assert b == front + [x];
      SumNetConcat(a, front);
      SumNetAppend(a + front, x);
      SumNetAppend(front, x);
    }
  }

  /** The ledger's net amount does not depend on the order of its records. */
  lemma {:induction false} SumNetOfPermutation(a: seq<LedgerAccount>, b: seq<LedgerAccount>)
    requires multiset(a) == multiset(b)
    ensures SumNet(a) == SumNet(b)
    decreases |a|
  {
    if |a| == 0 {
      assert |b| == |multiset(b)| == 0;
    } else {
      var front := a[..|a| - 1];
      var x := a[|a| - 1];
      assert a == front + [x];
      assert x in multiset(b);
      var i :| 0 <= i < |b| && b[i] == x;
      var rest := b[..i] + b[i + 1..];
      assert b == b[..i] + [x] + b[i + 1..];
      assert multiset(a) == multiset(front) + multiset{x};
      assert multiset(b) == multiset(b[..i]) + multiset{x} + multiset(b[i + 1..]);
      assert multiset(rest) == multiset(b[..i]) + multiset(b[i + 1..]);
      assert multiset(front) == multiset(a) - multiset{x};
      assert multiset(rest) == multiset(b) - multiset{x};
      SumNetOfPermutation(front, rest);
      SumNetAppend(front, x);
      SumNetConcat(b[..i] + [x], b[i + 1..]);
      SumNetAppend(b[..i], x);
      SumNetConcat(b[..i], b[i + 1..]);
    }
  }

  /** The ledger's records together carry exactly the net amount of the lines it keeps. */
  lemma {:induction false} LedgerNet(chart: seq<Account>, lines: seq<Line>)
    ensures SumNet(LedgerOf(chart, lines)) == Net(Posted(chart, lines))
    decreases |lines|
  {
    if |lines| > 0 {
      var front := lines[..|lines| - 1];
      var l := lines[|lines| - 1];
      var prev := LedgerOf(chart, front);
      assert LedgerOf(chart, lines) == Post(prev, chart, l);
      LedgerNet(chart, front);
      PostNet(prev, chart, l);
      assert front + [l] == lines;
      PostedAppend(chart, front, l);
      LineNet(Posted(chart, front), l, InChart(chart, l.accountCode));
    }
  }

  /** A posted line moves the ledger's net amount by the line's own, unless its account is unknown. */
  lemma PostNet(ledger: seq<LedgerAccount>, chart: seq<Account>, l: Line)
    ensures SumNet(Post(ledger, chart, l)) == SumNet(ledger) + if InChart(chart, l.accountCode) then l.debit - l.credit else 0.0
  {
    if InChart(chart, l.accountCode) {
      var k := IndexOf(ledger, l.accountCode);
      if k < 0 {
        SumNetAppend(ledger, Open(chart, l));
      } else {
        SumNetUpdate(ledger, k, AddLine(ledger[k], l));
      }
    }
  }

  lemma LineNet(lines: seq<Line>, l: Line, keep: bool)
    ensures Net(lines + (if keep then [l] else [])) == Net(lines) + if keep then l.debit - l.credit else 0.0
  {
    TotalsAppend(lines, [l]);
    assert [l][1..] == [];
    assert lines + [] == lines;
  }

  /** Deleting an account from the chart removes its record from the ledger, whatever was posted to it. */
  lemma DeletedAccountVanishes(chart: seq<Account>, lines: seq<Line>, code: string)
    ensures Lookup(LedgerOf(DeleteAccount(chart, code), lines), code).None?
  {
    LedgerDescribes(DeleteAccount(chart, code), lines);
  }

  /** In a ledger with one record per code, looking up a record's code finds that record. */
  lemma LookupMember(ledger: seq<LedgerAccount>, a: LedgerAccount)
    requires DistinctCodes(ledger)
    requires a in ledger
    ensures Lookup(ledger, a.accountCode) == Some(a)
  {
    var i :| 0 <= i < |ledger| && ledger[i] == a;
    var k := IndexOf(ledger, a.accountCode);
    assert k >= 0;
    assert k == i;
  }

  /** Every record of the ledger holds exactly its code's posted lines and their totals. */
  lemma LedgerRecord(chart: seq<Account>, lines: seq<Line>, a: LedgerAccount)
    requires a in LedgerOf(chart, lines)
    ensures InChart(chart, a.accountCode)
    ensures a == AccountFor(chart, lines, a.accountCode)
    ensures a.entries != []
  {
    var ledger := LedgerOf(chart, lines);
    LedgerDescribes(chart, lines);
    LookupMember(ledger, a);
    assert Lookup(ledger, a.accountCode) == Expected(chart, lines, a.accountCode);
  }
}

=== FILE: ledger_view.dfy ===
/**
 * What the general-ledger page derives from the ledger: per row, the debit
 * and credit cells (shown only when positive) and the running balance (debit
 * minus credit over the rows so far, whatever the account's family, shown
 * as an absolute value); per account, a header with the absolute balance
 * labelled debtor or creditor by its sign. The cash-flow table of the
 * statements page builds its rows the same way.
 */
module LedgerView {
  import opened Text
  import opened Chart
  import opened Journal
  import opened Ledger

  function Abs(x: real): (r: real)
    ensures r >= 0.0
    ensures r == x || r == -x
  {
    if x >= 0.0 then x else -x
  }

  /** A displayed entry row; `running` is the signed running balance that picks the row's colour. */
  datatype Row = Row(
    date: int,
    description: string,
    debit: Option<real>,
    credit: Option<real>,
    running: real,
    shown: real)

  /** A debit or credit cell: the amount when it is positive, a dash otherwise. */
  function PositiveCell(x: real): (c: Option<real>)
    ensures c.Some? <==> x > 0.0
    ensures c.Some? ==> c.value == x
  {
    if x > 0.0 then Some(x) else None
  }

  /**
   * The rows of a table of entries. The page recomputes each row's running
   * balance as a fold over the entries up to it; here it is carried along.
   */
  method Rows(entries: seq<Line>) returns (rows: seq<Row>)
    ensures |rows| == |entries|
    ensures forall i :: 0 <= i < |entries| ==>
              && rows[i].date == entries[i].date
              && rows[i].description == entries[i].description
              && (rows[i].debit.Some? <==> entries[i].debit > 0.0)
              && (rows[i].credit.Some? <==> entries[i].credit > 0.0)
              && (rows[i].debit.Some? ==> rows[i].debit.value == entries[i].debit)
              && (rows[i].credit.Some? ==> rows[i].credit.value == entries[i].credit)
    ensures forall i :: 0 <= i < |entries| ==>
              rows[i].running == Net(entries[..i + 1]) && rows[i].shown == Abs(rows[i].running)
    ensures |entries| > 0 ==> rows[|entries| - 1].running == Net(entries)
  {
    rows := [];
    var sum := 0.0;
    for i := 0 to |entries|
      invariant |rows| == i
      invariant sum == Net(entries[..i])
      invariant forall k :: 0 <= k < i ==>
                  && rows[k].date == entries[k].date
                  && rows[k].description == entries[k].description
                  && rows[k].debit == PositiveCell(entries[k].debit)
                  && rows[k].credit == PositiveCell(entries[k].credit)
                  && rows[k].running == Net(entries[..k + 1])
                  && rows[k].shown == Abs(rows[k].running)
    {
      var e := entries[i];
      assert entries[..i + 1] == entries[..i] + [e];
      TotalsAppend(entries[..i], [e]);
      sum := sum + e.debit - e.credit;
      rows := rows + [Row(e.date, e.description, PositiveCell(e.debit), PositiveCell(e.credit), sum, Abs(sum))];
    }
    assert entries[..|entries|] == entries;
  }

  /** A signed amount as the pages show it: its absolute value, and whether the sign is taken as good. */
  datatype Magnitude = Magnitude(amount: real, nonNegative: bool)

  function MagnitudeOf(x: real): (m: Magnitude)
    ensures m.nonNegative <==> x >= 0.0
    ensures m.nonNegative ==> m.amount == x
    ensures !m.nonNegative ==> m.amount == -x
  {
    Magnitude(Abs(x), x >= 0.0)
  }

  /** The account header: the absolute balance, labelled "(Deudor)" when non-negative and "(Acreedor)" otherwise. */
  function HeaderOf(a: LedgerAccount): Magnitude {
    MagnitudeOf(a.balance)
  }

  /**
   * The last running balance of an account's table is its total debit minus
   * total credit: its balance for debit-normal codes, the negated balance
   * for every other code.
   */
  lemma FinalRunningBalance(chart: seq<Account>, lines: seq<Line>, a: LedgerAccount)
    requires a in GeneralLedger(chart, lines)
    ensures Net(a.entries) == a.totalDebit - a.totalCredit
    ensures DebitNormal(a.accountCode) ==> Net(a.entries) == a.balance
    ensures !DebitNormal(a.accountCode) ==> Net(a.entries) == -a.balance
  {
    GeneralLedgerDescribes(chart, lines);
    LedgerRecord(chart, lines, a);
  }

  /**
   * The label follows the sign of the balance and not the side: a revenue
   * or liability account with more credit than debit is labelled debtor.
   */
  lemma CreditExcessLabelledDebtor(chart: seq<Account>, lines: seq<Line>, a: LedgerAccount)
    requires a in GeneralLedger(chart, lines)
    requires !DebitNormal(a.accountCode)
    ensures HeaderOf(a).nonNegative <==> a.totalCredit >= a.totalDebit
  {
    GeneralLedgerDescribes(chart, lines);
  }

  /** The page shows its empty-state message exactly when no line is posted to an account of the chart. */
  lemma EmptyLedgerIffNothingPosted(chart: seq<Account>, lines: seq<Line>)
    ensures |GeneralLedger(chart, lines)| == 0 <==> forall l :: l in lines ==> !InChart(chart, l.accountCode)
  {
    var ledger := LedgerOf(chart, lines);
    LedgerDescribes(chart, lines);
    if |ledger| > 0 {
      var code := ledger[0].accountCode;
      assert Lookup(ledger, code).Some?;
      assert Expected(chart, lines, code).Some?;
      var l := EntriesFor(lines, code)[0];
      assert l in EntriesFor(lines, code);
      assert l in lines && InChart(chart, l.accountCode);
    } else {
      forall l | l in lines ensures !InChart(chart, l.accountCode) {
        assert Lookup(ledger, l.accountCode).None?;
        assert l in EntriesFor(lines, l.accountCode);
      }
    }
  }
}

=== FILE: manual_entry_form.dfy ===
/**
 * The manual journal-entry form: editable lines of account, description,
 * debit and credit; a submit that refuses lines without an account first and
 * unbalanced or zero totals second; and a reset to one empty line after an
 * accepted entry. Only detail accounts can be chosen.
 */
module ManualEntryForm {
  import opened Text
  import opened Chart
  import opened Journal
  import opened Posting
  import opened Engine

  const EmptyLine: ManualLineInput := ManualLineInput("", "", Blank, Blank)

  datatype Form = Form(date: int, description: string, lines: seq<ManualLineInput>)

  /** The form as it opens and as it is reset: no description and one empty line. */
  function Fresh(today: int): Form {
    Form(today, "", [EmptyLine])
  }

  /** `handleAddLine`. */
  function AddLine(f: Form): (r: Form)
    ensures r.lines == f.lines + [EmptyLine]
    ensures r.(lines := f.lines) == f
  {
    f.(lines := f.lines + [EmptyLine])
  }

  /** `handleRemoveLine`. */
  function RemoveLine(f: Form, index: int): (r: Form)
    ensures 0 <= index < |f.lines| ==> |r.lines| == |f.lines| - 1
    ensures 0 <= index < |f.lines| ==>
              forall i :: 0 <= i < |r.lines| ==> r.lines[i] == f.lines[if i < index then i else i + 1]
    ensures !(0 <= index < |f.lines|) ==> r == f
    ensures r.(lines := f.lines) == f
  {
    f.(lines := RemoveAt(f.lines, index))
  }

  /** `handleLineChange` for a whole line. */
  function SetLine(f: Form, index: int, line: ManualLineInput): (r: Form)
    requires 0 <= index < |f.lines|
    ensures |r.lines| == |f.lines| && r.lines[index] == line
    ensures forall i :: 0 <= i < |f.lines| && i != index ==> r.lines[i] == f.lines[i]
  {
    f.(lines := f.lines[index := line])
  }

  predicate AllAccountsChosen(lines: seq<ManualLineInput>) {
    forall i :: 0 <= i < |lines| ==> lines[i].accountCode != ""
  }

  /** What a submit does: the entry passed on (or the refusal) and the form it leaves. */
  datatype Outcome = Outcome(submission: Submission<ManualEntry>, after: Form)

  /** `handleSubmit`. */
  function Submit(f: Form, today: int): (o: Outcome)
    ensures o.submission.Accepted? <==>
              && AllAccountsChosen(f.lines)
              && InputDebits(f.lines) == InputCredits(f.lines)
              && InputDebits(f.lines) != 0.0
    ensures !AllAccountsChosen(f.lines) ==> o.submission == Rejected(MissingAccount)
    ensures o.submission.Accepted? ==> o.submission.value == ManualEntry(f.date, f.description, f.lines)
    ensures o.submission.Accepted? ==> o.after == Fresh(today)
    ensures o.submission.Rejected? ==> o.after == f
  {
    if exists i :: 0 <= i < |f.lines| && f.lines[i].accountCode == "" then Outcome(Rejected(MissingAccount), f)
    else if InputDebits(f.lines) != InputCredits(f.lines) || InputDebits(f.lines) == 0.0 then Outcome(Rejected(Unbalanced), f)
    else Outcome(Accepted(ManualEntry(f.date, f.description, f.lines)), Fresh(today))
  }

  /** An entry the form accepts posts a balanced group, so it keeps the engine's invariant. */
  lemma AcceptedEntryKeepsInvariant(s: State, f: Form, today: int, entryId: string)
    requires Invariant(s)
    requires Submit(f, today).submission.Accepted?
    ensures Invariant(AddManualEntry(s, entryId, Submit(f, today).submission.value))
    ensures Balanced(ManualPosting(entryId, Submit(f, today).submission.value))
  {
    var e := Submit(f, today).submission.value;
    ManualPostingTotals(entryId, e);
    AddManualEntryKeepsInvariant(s, entryId, e);
  }

  /** An accepted entry posts a non-zero amount: its posted debits are its parsed debits. */
  lemma AcceptedEntryPostsAmount(f: Form, today: int, entryId: string)
    requires Submit(f, today).submission.Accepted?
    ensures TotalDebit(ManualPosting(entryId, Submit(f, today).submission.value)) == InputDebits(f.lines) != 0.0
  {
    ManualPostingTotals(entryId, Submit(f, today).submission.value);
  }

  /** The fresh form cannot be submitted: its one line has no account. */
  lemma FreshFormRejected(today: int)
    ensures Submit(Fresh(today), today).submission == Rejected(MissingAccount)
  {
    assert Fresh(today).lines[0].accountCode == "";
  }
}

=== FILE: payment_form.dfy ===
/**
 * The supplier payment form: supplier, amount and a cash or bank account are
 * required; the amount is parsed and the payment handed to the engine.
 */
module PaymentForm {
  import opened Text
  import opened Chart
  import opened Journal
  import opened Posting

  datatype Form = Form(date: int, contactId: string, amount: NumText, paymentAccountCode: string, description: string)

  function Fresh(today: int): Form {
    Form(today, "", Blank, "", "")
  }

  datatype Outcome = Outcome(submission: Submission<Payment>, after: Form)

  /** `handleSubmit`: an accepted payment resets the form; a refused one leaves it as it was. */
  function Submit(f: Form, generatedId: string, today: int): (r: Outcome)
    ensures r.submission.Accepted? <==> f.contactId != "" && Filled(f.amount) && f.paymentAccountCode != ""
    ensures r.submission.Rejected? ==> r.submission.reason == MissingFields && r.after == f
    ensures r.submission.Accepted? ==>
              && r.submission.value == Payment(generatedId, f.date, f.contactId, f.amount.v, f.paymentAccountCode, f.description)
              && r.after == Fresh(today)
  {
    if f.contactId == "" || !Filled(f.amount) || f.paymentAccountCode == "" then Outcome(Rejected(MissingFields), f)
    else Outcome(Accepted(Payment(generatedId, f.date, f.contactId, f.amount.v, f.paymentAccountCode, f.description)), Fresh(today))
  }

  /**
   * A payment from one of the offered cash or bank accounts takes the amount
   * off the payable and off that account, and touches no other code.
   */
  lemma PaymentSettlesPayable(f: Form, generatedId: string, today: int, chart: seq<Account>, code: string)
    requires Submit(f, generatedId, today).submission.Accepted?
    requires exists a :: a in CashBankAccounts(chart) && a.code == f.paymentAccountCode
    ensures var g := PaymentPosting(Submit(f, generatedId, today).submission.value);
            && TotalDebit(EntriesFor(g, "2101")) == f.amount.v && TotalCredit(EntriesFor(g, "2101")) == 0.0
            && TotalCredit(EntriesFor(g, f.paymentAccountCode)) == f.amount.v
            && TotalDebit(EntriesFor(g, f.paymentAccountCode)) == 0.0
            && (code != "2101" && code != f.paymentAccountCode ==> EntriesFor(g, code) == [])
  {
    var p := Submit(f, generatedId, today).submission.value;
    var a :| a in CashBankAccounts(chart) && a.code == f.paymentAccountCode;
    assert f.paymentAccountCode != "2101" by {
      assert a.code[..4] != "2101";
    }
    var entryId := "JE-PAY-" + Last4(p.id);
    TwoLegsEntries(entryId, p.date, FromPayment(p.id), "2101", p.paymentAccountCode, p.amount, "2101");
    TwoLegsEntries(entryId, p.date, FromPayment(p.id), "2101", p.paymentAccountCode, p.amount, p.paymentAccountCode);
    var g := PaymentPosting(p);
    if code != "2101" && code != f.paymentAccountCode {
      assert g[1..][1..] == [];
    }
  }
}

=== FILE: posting.dfy ===
/**
 * Posting rules: each business event becomes a fixed group of journal lines
 * against hard-coded account codes. Every group except a manual entry
 * balances by construction; a manual entry balances exactly when the parsed
 * debits and credits of its input lines agree.
 */
module Posting {
  import opened Text
  import opened Journal
  import opened Inventory

  datatype Transaction = Transaction(
    id: string,
    kind: TxType,
    productId: string,
    productName: string,
    quantity: int,
    unitPrice: real,
    total: real,
    contactId: string,
    date: int)

  datatype InvoiceLine = InvoiceLine(productId: string, productName: string, quantity: real, unitPrice: real, total: real)

  datatype InvoiceStatus = Pending | Paid | Overdue

  datatype Invoice = Invoice(
    id: string,
    contactId: string,
    date: int,
    dueDate: int,
    lines: seq<InvoiceLine>,
    subtotal: real,
    tax: real,
    total: real,
    status: InvoiceStatus)

  /** A payment to a supplier or a collection from a client; `invoiceId` is "" when none is chosen. */
  datatype Payment = Payment(id: string, date: int, contactId: string, amount: real, paymentAccountCode: string, description: string)

  datatype Collection = Collection(
    id: string,
    date: int,
    contactId: string,
    amount: real,
    paymentAccountCode: string,
    description: string,
    invoiceId: string)

  /** A simplified income or expense: `accountId` is the cash-side account. */
  datatype IncomeExpense = IncomeExpense(date: int, description: string, amount: real, contactId: string, accountId: string)

  /** A manual line as the form hands it over: debit and credit are still input text. */
  datatype ManualLineInput = ManualLineInput(accountCode: string, description: string, debit: NumText, credit: NumText)

  datatype ManualEntry = ManualEntry(date: int, description: string, lines: seq<ManualLineInput>)

  predicate Dr(l: Line, code: string, amount: real) {
    l.accountCode == code && l.debit == amount && l.credit == 0.0
  }

  predicate Cr(l: Line, code: string, amount: real) {
    l.accountCode == code && l.debit == 0.0 && l.credit == amount
  }

  /** Every line of a group carries the group's entry id, date and origin. */
  predicate Tagged(g: seq<Line>, entryId: string, date: int, origin: Origin) {
    forall l :: l in g ==> l.entryId == entryId && l.date == date && l.origin == origin
  }

  /** Cost of goods sold: the product's cost per unit, or 60% of the sale when the product is unknown. */
  function CostOfSale(products: seq<Product>, productId: string, quantity: real, total: real): (c: real)
    ensures FindProduct(products, productId).Some? ==> c == FindProduct(products, productId).value.cost * quantity
    ensures FindProduct(products, productId).None? ==> c == total * 0.6
  {
    match FindProduct(products, productId)
    case Some(p) => p.cost * quantity
    case None => total * 0.6
  }

  /** The cost of a sale reads nothing of the product but its cost. */
  lemma SameCostSameCostOfSale(a: seq<Product>, b: seq<Product>, productId: string, quantity: real, total: real)
    requires FindProduct(a, productId).Some? <==> FindProduct(b, productId).Some?
    requires FindProduct(a, productId).Some? ==> FindProduct(a, productId).value.cost == FindProduct(b, productId).value.cost
    ensures CostOfSale(a, productId, quantity, total) == CostOfSale(b, productId, quantity, total)
  {
  }

  /** A debit on one account against a credit on another, for the same amount. */
  function TwoLegs(entryId: string, date: int, origin: Origin, drCode: string, crCode: string, amount: real): (g: seq<Line>)
    ensures |g| == 2 && Dr(g[0], drCode, amount) && Cr(g[1], crCode, amount)
    ensures Tagged(g, entryId, date, origin)
  {
    [Line(entryId, date, drCode, "", amount, 0.0, origin),
     Line(entryId, date, crCode, "", 0.0, amount, origin)]
  }

  /** The four lines of a sale: receivable against revenue, cost of sales against inventory. */
  function SaleLegs(entryId: string, date: int, origin: Origin, amount: real, cost: real): (g: seq<Line>)
    ensures |g| == 4
    ensures Dr(g[0], "1103", amount) && Cr(g[1], "4101", amount)
    ensures Dr(g[2], "5101", cost) && Cr(g[3], "1201", cost)
    ensures Tagged(g, entryId, date, origin)
  {
    TwoLegs(entryId, date, origin, "1103", "4101", amount) + TwoLegs(entryId, date, origin, "5101", "1201", cost)
  }

  lemma TwoLegsBalanced(entryId: string, date: int, origin: Origin, drCode: string, crCode: string, amount: real)
    ensures Balanced(TwoLegs(entryId, date, origin, drCode, crCode, amount))
  {
    var g := TwoLegs(entryId, date, origin, drCode, crCode, amount);
    assert g[1..][1..] == [];
    assert TotalDebit(g[1..]) == 0.0 + TotalDebit(g[1..][1..]);
    assert TotalCredit(g[1..]) == amount + TotalCredit(g[1..][1..]);
  }

  lemma SaleLegsBalanced(entryId: string, date: int, origin: Origin, amount: real, cost: real)
    ensures Balanced(SaleLegs(entryId, date, origin, amount, cost))
  {
    TwoLegsBalanced(entryId, date, origin, "1103", "4101", amount);
    TwoLegsBalanced(entryId, date, origin, "5101", "1201", cost);
    TotalsAppend(TwoLegs(entryId, date, origin, "1103", "4101", amount), TwoLegs(entryId, date, origin, "5101", "1201", cost));
  }

  function TransactionEntryId(tx: Transaction): string {
    "TR-" + Last4(tx.id)
  }

  /** `createJournalEntriesForTransaction`, reading products from the pre-command list. */
  function TransactionPosting(products: seq<Product>, tx: Transaction): (g: seq<Line>)
    ensures tx.kind == Sale ==>
              g == SaleLegs(TransactionEntryId(tx), tx.date, FromTransaction(tx.id), tx.total,
                            CostOfSale(products, tx.productId, tx.quantity as real, tx.total))
    ensures tx.kind == Purchase ==> |g| == 2 && Dr(g[0], "1201", tx.total) && Cr(g[1], "2101", tx.total)
    ensures tx.kind.Unrecognised? ==> g == []
    ensures forall l :: l in g ==> OfTransaction(l, tx.id)
    ensures Tagged(g, TransactionEntryId(tx), tx.date, FromTransaction(tx.id))
  {
    var entryId := TransactionEntryId(tx);
    var origin := FromTransaction(tx.id);
    match tx.kind
    case Sale =>
      SaleLegs(entryId, tx.date, origin, tx.total, CostOfSale(products, tx.productId, tx.quantity as real, tx.total))
    case Purchase => TwoLegs(entryId, tx.date, origin, "1201", "2101", tx.total)
    case Unrecognised(_) => []
  }

  function InvoiceEntryId(inv: Invoice): string {
    "JE-INV-" + Last4(inv.id)
  }

  /** The four sale lines of each invoice line, in line order, all under the invoice's entry id. */
  function InvoiceLinesPosting(products: seq<Product>, entryId: string, date: int, origin: Origin, lines: seq<InvoiceLine>): (g: seq<Line>)
    ensures |g| == 4 * |lines|
    ensures forall i :: 0 <= i < |lines| ==>
              g[4 * i..4 * i + 4] == SaleLegs(entryId, date, origin, lines[i].total,
                                               CostOfSale(products, lines[i].productId, lines[i].quantity, lines[i].total))
    ensures Tagged(g, entryId, date, origin)
  {
    if |lines| == 0 then []
    else
      var first := SaleLegs(entryId, date, origin, lines[0].total,
                            CostOfSale(products, lines[0].productId, lines[0].quantity, lines[0].total));
      var rest := InvoiceLinesPosting(products, entryId, date, origin, lines[1..]);
      var g := first + rest;
      assert forall i :: 1 <= i < |lines| ==> g[4 * i..4 * i + 4] == rest[4 * (i - 1)..4 * (i - 1) + 4];
      g
  }

  /** The journal lines `addInvoice` posts; the invoice's tax is never posted. */
  function InvoicePosting(products: seq<Product>, inv: Invoice): (g: seq<Line>)
    ensures |g| == 4 * |inv.lines|
    ensures Tagged(g, InvoiceEntryId(inv), inv.date, FromInvoice(inv.id))
  {
    InvoiceLinesPosting(products, InvoiceEntryId(inv), inv.date, FromInvoice(inv.id), inv.lines)
  }

  /** The invoice lines' totals, which is what reaches the receivable account. */
  function LinesTotal(lines: seq<InvoiceLine>): real {
    if |lines| == 0 then 0.0 else lines[0].total + LinesTotal(lines[1..])
  }

  /** What a two-line group contributes to one account. */
  lemma TwoLegsEntries(entryId: string, date: int, origin: Origin, drCode: string, crCode: string, amount: real, code: string)
    ensures TotalDebit(EntriesFor(TwoLegs(entryId, date, origin, drCode, crCode, amount), code))
            == if drCode == code then amount else 0.0
    ensures TotalCredit(EntriesFor(TwoLegs(entryId, date, origin, drCode, crCode, amount), code))
            == if crCode == code then amount else 0.0
  {
    var g := TwoLegs(entryId, date, origin, drCode, crCode, amount);
    assert g[1..][1..] == [];
    var tail := EntriesFor(g[1..], code);
    assert tail == if crCode == code then [g[1]] else [];
    assert TotalDebit(tail) == 0.0 by {
      if crCode == code { assert tail[1..] == []; }
    }
    assert TotalCredit(tail) == if crCode == code then amount else 0.0 by {
      if crCode == code { assert tail[1..] == []; }
    }
    if drCode == code {
      assert EntriesFor(g, code) == [g[0]] + tail;
      assert ([g[0]] + tail)[1..] == tail;
    }
  }

  /** In a sale group, the receivable and revenue accounts each see exactly one line. */
  lemma SaleEntries(entryId: string, date: int, origin: Origin, amount: real, cost: real)
    ensures TotalDebit(EntriesFor(SaleLegs(entryId, date, origin, amount, cost), "1103")) == amount
    ensures TotalCredit(EntriesFor(SaleLegs(entryId, date, origin, amount, cost), "4101")) == amount
  {
    var a := TwoLegs(entryId, date, origin, "1103", "4101", amount);
    var b := TwoLegs(entryId, date, origin, "5101", "1201", cost);
    EntriesAppend(a, b, "1103");
    EntriesAppend(a, b, "4101");
    TotalsAppend(EntriesFor(a, "1103"), EntriesFor(b, "1103"));
    TotalsAppend(EntriesFor(a, "4101"), EntriesFor(b, "4101"));
    TwoLegsEntries(entryId, date, origin, "1103", "4101", amount, "1103");
    TwoLegsEntries(entryId, date, origin, "1103", "4101", amount, "4101");
    TwoLegsEntries(entryId, date, origin, "5101", "1201", cost, "1103");
    TwoLegsEntries(entryId, date, origin, "5101", "1201", cost, "4101");
    assert "4101" != "1103" && "5101" != "1103" && "1201" != "1103";
    assert "5101" != "4101" && "1201" != "4101";
  }

  /** An invoice's posting balances, and debits the receivable with the untaxed line totals. */
  lemma {:induction false} InvoiceLinesBalanced(products: seq<Product>, entryId: string, date: int, origin: Origin, lines: seq<InvoiceLine>)
    ensures Balanced(InvoiceLinesPosting(products, entryId, date, origin, lines))
    ensures TotalDebit(EntriesFor(InvoiceLinesPosting(products, entryId, date, origin, lines), "1103")) == LinesTotal(lines)
    ensures TotalCredit(EntriesFor(InvoiceLinesPosting(products, entryId, date, origin, lines), "4101")) == LinesTotal(lines)
  {
    var g := InvoiceLinesPosting(products, entryId, date, origin, lines);
    if |lines| > 0 {
      var cost := CostOfSale(products, lines[0].productId, lines[0].quantity, lines[0].total);
      var first := SaleLegs(entryId, date, origin, lines[0].total, cost);
      var rest := InvoiceLinesPosting(products, entryId, date, origin, lines[1..]);
      InvoiceLinesBalanced(products, entryId, date, origin, lines[1..]);
      SaleLegsBalanced(entryId, date, origin, lines[0].total, cost);
      TotalsAppend(first, rest);
      EntriesAppend(first, rest, "1103");
      EntriesAppend(first, rest, "4101");
      SaleEntries(entryId, date, origin, lines[0].total, cost);
      TotalsAppend(EntriesFor(first, "1103"), EntriesFor(rest, "1103"));
      TotalsAppend(EntriesFor(first, "4101"), EntriesFor(rest, "4101"));
    }
  }

  lemma InvoicePostingBalanced(products: seq<Product>, inv: Invoice)
    ensures Balanced(InvoicePosting(products, inv))
    ensures TotalDebit(EntriesFor(InvoicePosting(products, inv), "1103")) == LinesTotal(inv.lines)
  {
    InvoiceLinesBalanced(products, InvoiceEntryId(inv), inv.date, FromInvoice(inv.id), inv.lines);
  }

  /** A transaction posting balances whatever its type. */
  lemma TransactionPostingBalanced(products: seq<Product>, tx: Transaction)
    ensures Balanced(TransactionPosting(products, tx))
  {
    var entryId := TransactionEntryId(tx);
    var origin := FromTransaction(tx.id);
    match tx.kind
    case Sale =>
      SaleLegsBalanced(entryId, tx.date, origin, tx.total, CostOfSale(products, tx.productId, tx.quantity as real, tx.total));
    case Purchase =>
      TwoLegsBalanced(entryId, tx.date, origin, "1201", "2101", tx.total);
    case Unrecognised(_) =>
  }

  /** `addPayment`: the payable is debited and the chosen cash or bank account credited. */
  function PaymentPosting(p: Payment): (g: seq<Line>)
    ensures |g| == 2 && Dr(g[0], "2101", p.amount) && Cr(g[1], p.paymentAccountCode, p.amount)
    ensures Balanced(g)
    ensures Tagged(g, "JE-PAY-" + Last4(p.id), p.date, FromPayment(p.id))
  {
    TwoLegsBalanced("JE-PAY-" + Last4(p.id), p.date, FromPayment(p.id), "2101", p.paymentAccountCode, p.amount);
    TwoLegs("JE-PAY-" + Last4(p.id), p.date, FromPayment(p.id), "2101", p.paymentAccountCode, p.amount)
  }

  /** `addCollection`: the chosen cash or bank account is debited and the receivable credited. */
  function CollectionPosting(c: Collection): (g: seq<Line>)
    ensures |g| == 2 && Dr(g[0], c.paymentAccountCode, c.amount) && Cr(g[1], "1103", c.amount)
    ensures Balanced(g)
    ensures Tagged(g, "JE-COL-" + Last4(c.id), c.date, FromCollection(c.id))
  {
    TwoLegsBalanced("JE-COL-" + Last4(c.id), c.date, FromCollection(c.id), c.paymentAccountCode, "1103", c.amount);
    TwoLegs("JE-COL-" + Last4(c.id), c.date, FromCollection(c.id), c.paymentAccountCode, "1103", c.amount)
  }

  /** `addIncome`: the chosen account is debited against the generic revenue account 4102. */
  function IncomePosting(entryId: string, x: IncomeExpense): (g: seq<Line>)
    ensures |g| == 2 && Dr(g[0], x.accountId, x.amount) && Cr(g[1], "4102", x.amount)
    ensures Balanced(g)
    ensures Tagged(g, entryId, x.date, FromIncomeOrExpense)
  {
    TwoLegsBalanced(entryId, x.date, FromIncomeOrExpense, x.accountId, "4102", x.amount);
    TwoLegs(entryId, x.date, FromIncomeOrExpense, x.accountId, "4102", x.amount)
  }

  /** `addExpense`: the generic expense account 5103 is debited against the chosen account. */
  function ExpensePosting(entryId: string, x: IncomeExpense): (g: seq<Line>)
    ensures |g| == 2 && Dr(g[0], "5103", x.amount) && Cr(g[1], x.accountId, x.amount)
    ensures Balanced(g)
    ensures Tagged(g, entryId, x.date, FromIncomeOrExpense)
  {
    TwoLegsBalanced(entryId, x.date, FromIncomeOrExpense, "5103", x.accountId, x.amount);
    TwoLegs(entryId, x.date, FromIncomeOrExpense, "5103", x.accountId, x.amount)
  }

  /** The debit total of manual input lines, each blank amount read as 0. */
  function InputDebits(lines: seq<ManualLineInput>): real {
    if |lines| == 0 then 0.0 else ParseFloatOrZero(lines[0].debit) + InputDebits(lines[1..])
  }

  function InputCredits(lines: seq<ManualLineInput>): real {
    if |lines| == 0 then 0.0 else ParseFloatOrZero(lines[0].credit) + InputCredits(lines[1..])
  }

  /** `addManualJournalEntry`: the caller's lines, parsed, with no balance check of its own. */
  function ManualPosting(entryId: string, e: ManualEntry): (g: seq<Line>)
    ensures |g| == |e.lines|
    ensures forall i :: 0 <= i < |g| ==>
              && g[i].accountCode == e.lines[i].accountCode
              && g[i].debit == ParseFloatOrZero(e.lines[i].debit)
              && g[i].credit == ParseFloatOrZero(e.lines[i].credit)
              && g[i].description == (if e.lines[i].description != "" then e.lines[i].description else e.description)
    ensures Tagged(g, entryId, e.date, FromManualEntry)
  {
    seq(|e.lines|, i requires 0 <= i < |e.lines| =>
      var l := e.lines[i];
      Line(entryId, e.date, l.accountCode,
           if l.description != "" then l.description else e.description,
           ParseFloatOrZero(l.debit), ParseFloatOrZero(l.credit), FromManualEntry))
  }

  /** The manual posting's totals are the parsed input totals, so it balances exactly when they agree. */
  lemma {:induction false} ManualPostingTotals(entryId: string, e: ManualEntry)
    ensures TotalDebit(ManualPosting(entryId, e)) == InputDebits(e.lines)
    ensures TotalCredit(ManualPosting(entryId, e)) == InputCredits(e.lines)
    ensures Balanced(ManualPosting(entryId, e)) <==> InputDebits(e.lines) == InputCredits(e.lines)
    decreases |e.lines|
  {
    if |e.lines| > 0 {
      var rest := ManualEntry(e.date, e.description, e.lines[1..]);
      ManualPostingTotals(entryId, rest);
      assert ManualPosting(entryId, e)[1..] == ManualPosting(entryId, rest);
    }
  }
}

=== FILE: product_form.dfy ===
/**
 * The product form: code, name, price, cost and initial stock, loaded from
 * the product being edited, and a submit that requires all five. An edit
 * overwrites the product's fields, initial stock included, and keeps its id
 * and its stock counters.
 */
module ProductForm {
  import opened Text
  import opened Inventory
  import Engine

  datatype Form = Form(code: string, name: string, price: NumText, cost: NumText, initialStock: NumText)

  const Empty: Form := Form("", "", Blank, Blank, Blank)

  /**
   * The form loaded with a product as the page does it: the code, or the id
   * when the code is empty; and the initial stock, or the current stock when
   * the initial stock is 0.
   */
  function Prefill(p: Product): (f: Form)
    ensures f.code == if p.code != "" then p.code else p.id
    ensures f.initialStock.Num?
    ensures p.initialStock != 0 ==> f.initialStock.v == p.initialStock as real
    ensures p.initialStock == 0 ==> f.initialStock.v == p.stock
  {
    var stockText := if p.initialStock != 0 then p.initialStock as real else if p.stock != 0.0 then p.stock else 0.0;
    Form(if p.code != "" then p.code else p.id, p.name, Num(p.price), Num(p.cost), Num(stockText))
  }

  /** What a submit hands on: the edited product record, or the fields of a new product. */
  datatype Saved = SaveEdit(product: Product) | SaveNew(input: Engine.ProductInput)

  /** `handleSubmit`. */
  function Submit(f: Form, editing: Option<Product>): (r: Submission<Saved>)
    ensures r.Accepted? <==>
              f.code != "" && f.name != "" && Filled(f.price) && Filled(f.cost) && Filled(f.initialStock)
    ensures r.Rejected? ==> r.reason == MissingFields
    ensures r.Accepted? ==> (r.value.SaveEdit? <==> editing.Some?)
    ensures r.Accepted? && editing.Some? ==>
              var p := editing.value;
              var q := r.value.product;
              && q.id == p.id && q.stock == p.stock && q.entradas == p.entradas && q.salidas == p.salidas
              && q.code == f.code && q.name == f.name && q.price == f.price.v && q.cost == f.cost.v
              && q.initialStock == Trunc(f.initialStock.v)
    ensures r.Accepted? && editing.None? ==>
              r.value.input == Engine.ProductInput(f.code, f.name, f.cost.v, f.price.v, Trunc(f.initialStock.v))
  {
    if f.code == "" || f.name == "" || !Filled(f.price) || !Filled(f.cost) || !Filled(f.initialStock) then
      Rejected(MissingFields)
    else
      var initialStock := Trunc(f.initialStock.v);
      match editing
      case Some(p) =>
        Accepted(SaveEdit(p.(code := f.code, name := f.name, price := f.price.v, cost := f.cost.v, initialStock := initialStock)))
      case None =>
        Accepted(SaveNew(Engine.ProductInput(f.code, f.name, f.cost.v, f.price.v, initialStock)))
  }

  /** An edit keeps a consistent product consistent exactly when it leaves the initial stock alone. */
  lemma EditKeepsConsistentIff(f: Form, p: Product)
    requires Consistent(p)
    requires Submit(f, Some(p)).Accepted?
    ensures Consistent(Submit(f, Some(p)).value.product) <==> Trunc(f.initialStock.v) == p.initialStock
  {
  }

  // ----- the edit form as written -----

  /** A product whose initial stock is 0 and which has received five units. */
  const Restocked: Product := Product("P9", "P9", "Widget", 2.0, 3.0, 0, 5.0, 5.0, 0.0)

  /**
   * Opening that product for edit and saving without touching anything
   * writes its current stock into the initial stock, and the saved record no
   * longer satisfies stock = initial + inbound - outbound.
   */
  lemma UnchangedEditBreaksStock()
    ensures Consistent(Restocked)
    ensures Submit(Prefill(Restocked), Some(Restocked)).Accepted?
    ensures var q := Submit(Prefill(Restocked), Some(Restocked)).value.product;
            q.initialStock == 5 && !Consistent(q)
  {
    TruncOfWhole(5);
    assert Prefill(Restocked).initialStock == Num(5.0);
  }

  // ----- the corrected edit form -----

  /** The form loaded with the product's own initial stock, zero included. */
  function PrefillFixed(p: Product): (f: Form)
    ensures f.initialStock == Num(p.initialStock as real)
    ensures f == Prefill(p).(initialStock := f.initialStock)
  {
    Prefill(p).(initialStock := Num(p.initialStock as real))
  }

  /** Saving the corrected form unchanged gives the product back, so its stock stays consistent. */
  lemma FixedEditRoundTrip(p: Product)
    requires p.code != "" && p.name != ""
    ensures Submit(PrefillFixed(p), Some(p)) == Accepted(SaveEdit(p))
    ensures Consistent(p) ==> Consistent(Submit(PrefillFixed(p), Some(p)).value.product)
  {
    TruncOfWhole(p.initialStock);
  }

  /** The two prefills differ only for a product whose initial stock is 0 and whose stock is not. */
  lemma PrefillsAgree(p: Product)
    ensures Prefill(p) == PrefillFixed(p) <==> p.initialStock != 0 || p.stock == 0.0
  {
  }
}

=== FILE: sorting.dfy ===
/**
 * A stable sort by a comparator, standing in for `Array.prototype.sort`
 * (stable since ECMAScript 2019). It orders the cash-flow entries by date and
 * the chart of accounts by code. It is an insertion sort: each element goes
 * after every element it does not precede, so elements that compare equal
 * keep their input order.
 */
module Sorting {

  /** A comparator `leq(a, b)`: `a` may come before `b`. */
  ghost predicate Total<T(!new)>(leq: (T, T) -> bool) {
    forall a, b :: leq(a, b) || leq(b, a)
  }

  ghost predicate Transitive<T(!new)>(leq: (T, T) -> bool) {
    forall a, b, c :: leq(a, b) && leq(b, c) ==> leq(a, c)
  }

  predicate Sorted<T>(leq: (T, T) -> bool, s: seq<T>) {
    forall i, j :: 0 <= i < j < |s| ==> leq(s[i], s[j])
  }

  /** Two elements the comparator cannot tell apart. */
  predicate Tied<T>(leq: (T, T) -> bool, a: T, b: T) {
    leq(a, b) && leq(b, a)
  }

  /** The elements of `s` tied with `c`, in their order in `s`. */
  function TiedWith<T>(leq: (T, T) -> bool, s: seq<T>, c: T): seq<T> {
    if |s| == 0 then []
    else TiedWith(leq, s[..|s| - 1], c) + (if Tied(leq, s[|s| - 1], c) then [s[|s| - 1]] else [])
  }

  /** Inserts `x` into sorted `s` after every element that may precede it. */
  function Insert<T>(leq: (T, T) -> bool, s: seq<T>, x: T): (r: seq<T>)
    ensures |r| == |s| + 1
    ensures multiset(r) == multiset(s) + multiset{x}
  {
    if |s| == 0 then [x]
    else if leq(s[|s| - 1], x) then s + [x]
    else
      var front := s[..|s| - 1];
      assert front + [s[|s| - 1]] == s;
      Insert(leq, front, x) + [s[|s| - 1]]
  }

  function Sort<T>(leq: (T, T) -> bool, s: seq<T>): (r: seq<T>)
    ensures |r| == |s|
    ensures multiset(r) == multiset(s)
  {
    if |s| == 0 then []
    else
      var front := s[..|s| - 1];
      assert front + [s[|s| - 1]] == s;
      Insert(leq, Sort(leq, front), s[|s| - 1])
  }

  lemma {:induction false} InsertSorted<T(!new)>(leq: (T, T) -> bool, s: seq<T>, x: T)
    requires Total(leq) && Transitive(leq)
    requires Sorted(leq, s)
    ensures Sorted(leq, Insert(leq, s, x))
    decreases |s|
  {
    if |s| > 0 && !leq(s[|s| - 1], x) {
      var front := s[..|s| - 1];
      var last := s[|s| - 1];
      var mid := Insert(leq, front, x);
      InsertSorted(leq, front, x);
      forall i | 0 <= i < |mid| ensures leq(mid[i], last) {
        assert mid[i] in multiset(mid);
        if mid[i] != x {
          assert mid[i] in multiset(front);
          var j :| 0 <= j < |front| && front[j] == mid[i];
          assert s[j] == mid[i];
        }
      }
    }
  }

  /** The sort orders its input. */
  lemma {:induction false} SortSorted<T(!new)>(leq: (T, T) -> bool, s: seq<T>)
    requires Total(leq) && Transitive(leq)
    ensures Sorted(leq, Sort(leq, s))
    decreases |s|
  {
    if |s| > 0 {
      SortSorted(leq, s[..|s| - 1]);
      InsertSorted(leq, Sort(leq, s[..|s| - 1]), s[|s| - 1]);
    }
  }

  lemma {:induction false} InsertStable<T(!new)>(leq: (T, T) -> bool, s: seq<T>, x: T, c: T)
    requires Transitive(leq)
    ensures TiedWith(leq, Insert(leq, s, x), c) == TiedWith(leq, s, c) + (if Tied(leq, x, c) then [x] else [])
    decreases |s|
  {
    if |s| == 0 {
      assert [x][..0] == [];
    } else if leq(s[|s| - 1], x) {
      assert (s + [x])[..|s|] == s;
    } else {
      var front := s[..|s| - 1];
      var last := s[|s| - 1];
      var mid := Insert(leq, front, x);
      InsertStable(leq, front, x, c);
      assert (mid + [last])[..|mid|] == mid;
      if Tied(leq, x, c) {
        assert !Tied(leq, last, c);
      }
    }
  }

  /**
   * The sort is stable: the elements tied with any `c` appear in the output
   * in the same order as in the input.
   */
  lemma {:induction false} SortStable<T(!new)>(leq: (T, T) -> bool, s: seq<T>, c: T)
    requires Transitive(leq)
    ensures TiedWith(leq, Sort(leq, s), c) == TiedWith(leq, s, c)
    decreases |s|
  {
    if |s| > 0 {
      SortStable(leq, s[..|s| - 1], c);
      InsertStable(leq, Sort(leq, s[..|s| - 1]), s[|s| - 1], c);
    }
  }

  /** Sorting what is already sorted changes nothing. */
  lemma {:induction false} SortOfSorted<T(!new)>(leq: (T, T) -> bool, s: seq<T>)
    requires Sorted(leq, s)
    ensures Sort(leq, s) == s
    decreases |s|
  {
    if |s| > 0 {
      var front := s[..|s| - 1];
      assert Sorted(leq, front);
      SortOfSorted(leq, front);
      if |front| > 0 {
        assert leq(front[|front| - 1], s[|s| - 1]);
      }
      assert front + [s[|s| - 1]] == s;
    }
  }
}

=== FILE: statements.dfy ===
/**
 * `getFinancialStatements`: the ledger partitioned by the first digit of the
 * account code into the balance sheet (1, 2, 3), the income statement (4, 5)
 * and a cash-flow list built from the cash (1101) and bank (1102) accounts.
 */
module Statements {
  import opened Text
  import opened Chart
  import opened Journal
  import opened Ledger
  import opened Sorting

  datatype BalanceSheet = BalanceSheet(
    assets: seq<LedgerAccount>,
    liabilities: seq<LedgerAccount>,
    equity: seq<LedgerAccount>,
    totalAssets: real,
    totalLiabilities: real,
    totalEquity: real)

  datatype IncomeStatement = IncomeStatement(
    revenues: seq<LedgerAccount>,
    expenses: seq<LedgerAccount>,
    totalRevenues: real,
    totalExpenses: real,
    netIncome: real)

  datatype CashFlow = CashFlow(entries: seq<Line>, netCashFlow: real)

  datatype FinancialStatements = FinancialStatements(
    balanceSheet: BalanceSheet,
    incomeStatement: IncomeStatement,
    cashFlow: CashFlow)

  /** The ledger records whose code starts with the digit, in ledger order. */
  function Family(ledger: seq<LedgerAccount>, digit: char): (r: seq<LedgerAccount>)
    ensures forall a :: a in r <==> a in ledger && InFamily(a.accountCode, digit)
  {
    if |ledger| == 0 then []
    else
      var front := ledger[..|ledger| - 1];
      var last := ledger[|ledger| - 1];
      assert front + [last] == ledger;
      Family(front, digit) + (if InFamily(last.accountCode, digit) then [last] else [])
  }

  /** The sum of the records' balances. */
  function SumBalance(accounts: seq<LedgerAccount>): real {
    if |accounts| == 0 then 0.0
    else SumBalance(accounts[..|accounts| - 1]) + accounts[|accounts| - 1].balance
  }

  /** The balance of an account, or 0 when it has no record. */
  function BalanceOrZero(ledger: seq<LedgerAccount>, code: string): (b: real)
    ensures Lookup(ledger, code).None? ==> b == 0.0
    ensures Lookup(ledger, code).Some? ==> b == Lookup(ledger, code).value.balance
  {
    match Lookup(ledger, code)
    case None => 0.0
    case Some(a) => a.balance
  }

  function EntriesOrEmpty(ledger: seq<LedgerAccount>, code: string): (es: seq<Line>)
    ensures Lookup(ledger, code).None? ==> es == []
    ensures Lookup(ledger, code).Some? ==> es == Lookup(ledger, code).value.entries
  {
    match Lookup(ledger, code)
    case None => []
    case Some(a) => a.entries
  }

  /** The comparator of the cash-flow sort: by date, earlier first. */
  function ByDate(a: Line, b: Line): bool {
    a.date <= b.date
  }

  lemma ByDateOrders()
    ensures Total(ByDate) && Transitive(ByDate)
  {
  }

  /** The cash and bank lines the cash flow lists, before sorting: 1101's, then 1102's. */
  function CashLines(ledger: seq<LedgerAccount>): seq<Line> {
    EntriesOrEmpty(ledger, "1101") + EntriesOrEmpty(ledger, "1102")
  }

  /**
   * The statements of a ledger: each section is its family of records with
   * the sum of their balances as its total, and the cash flow lists the cash
   * lines sorted by date.
   */
  function StatementsOf(ledger: seq<LedgerAccount>): (fs: FinancialStatements)
    ensures fs.balanceSheet.assets == Family(ledger, '1')
    ensures fs.balanceSheet.liabilities == Family(ledger, '2')
    ensures fs.balanceSheet.equity == Family(ledger, '3')
    ensures fs.incomeStatement.revenues == Family(ledger, '4')
    ensures fs.incomeStatement.expenses == Family(ledger, '5')
    ensures fs.balanceSheet.totalAssets == SumBalance(fs.balanceSheet.assets)
    ensures fs.balanceSheet.totalLiabilities == SumBalance(fs.balanceSheet.liabilities)
    ensures fs.incomeStatement.totalRevenues == SumBalance(fs.incomeStatement.revenues)
    ensures fs.incomeStatement.totalExpenses == SumBalance(fs.incomeStatement.expenses)
    ensures fs.cashFlow.entries == Sort(ByDate, CashLines(ledger))
    ensures fs.incomeStatement.netIncome == fs.incomeStatement.totalRevenues - fs.incomeStatement.totalExpenses
    ensures fs.balanceSheet.totalEquity == SumBalance(fs.balanceSheet.equity) + fs.incomeStatement.netIncome
    ensures fs.cashFlow.netCashFlow == BalanceOrZero(ledger, "1101") + BalanceOrZero(ledger, "1102")
    ensures multiset(fs.cashFlow.entries) == multiset(CashLines(ledger))
    ensures Sorted(ByDate, fs.cashFlow.entries)
  {
    var assets := Family(ledger, '1');
    var liabilities := Family(ledger, '2');
    var equity := Family(ledger, '3');
    var revenues := Family(ledger, '4');
    var expenses := Family(ledger, '5');
    var netIncome := SumBalance(revenues) - SumBalance(expenses);
    var cash := CashLines(ledger);
    ByDateOrders();
    SortSorted(ByDate, cash);
    FinancialStatements(
      BalanceSheet(assets, liabilities, equity, SumBalance(assets), SumBalance(liabilities), SumBalance(equity) + netIncome),
      IncomeStatement(revenues, expenses, SumBalance(revenues), SumBalance(expenses), netIncome),
      CashFlow(Sort(ByDate, cash), BalanceOrZero(ledger, "1101") + BalanceOrZero(ledger, "1102")))
  }

  /** `getFinancialStatements` over the chart and the two line lists, from the ledger `getGeneralLedger` lists. */
  function GetFinancialStatements(chart: seq<Account>, journal: seq<Line>, manual: seq<Line>): FinancialStatements {
    StatementsOf(GeneralLedger(chart, journal + manual))
  }

  /**
   * The cash-flow sort is stable: the lines of any one date keep their order
   * from the cash lines, 1101's before 1102's.
   */
  lemma CashFlowStable(ledger: seq<LedgerAccount>, c: Line)
    ensures TiedWith(ByDate, StatementsOf(ledger).cashFlow.entries, c) == TiedWith(ByDate, CashLines(ledger), c)
  {
    ByDateOrders();
    SortStable(ByDate, CashLines(ledger), c);
  }

  /** Each statement section holds exactly the ledger accounts of its family. */
  lemma SectionsPartition(ledger: seq<LedgerAccount>, a: LedgerAccount)
    requires a in ledger
    ensures var fs := StatementsOf(ledger);
            && (a in fs.balanceSheet.assets <==> InFamily(a.accountCode, '1'))
            && (a in fs.balanceSheet.liabilities <==> InFamily(a.accountCode, '2'))
            && (a in fs.balanceSheet.equity <==> InFamily(a.accountCode, '3'))
            && (a in fs.incomeStatement.revenues <==> InFamily(a.accountCode, '4'))
            && (a in fs.incomeStatement.expenses <==> InFamily(a.accountCode, '5'))
  {
  }

  /** Adding the last account to a family's total. */
  lemma FamilySnoc(ledger: seq<LedgerAccount>, d: char)
    requires |ledger| > 0
    ensures var a := ledger[|ledger| - 1];
            SumBalance(Family(ledger, d)) ==
            SumBalance(Family(ledger[..|ledger| - 1], d)) + if InFamily(a.accountCode, d) then a.balance else 0.0
  {
    var a := ledger[|ledger| - 1];
    var f := Family(ledger[..|ledger| - 1], d);
    if InFamily(a.accountCode, d) {
      assert (f + [a])[..|f|] == f;
    } else {
      assert f + [] == f;
    }
  }

  /** The ledger's net amount, split by family and turned into balances by each family's sign rule. */
  lemma {:induction false} FamilySplit(ledger: seq<LedgerAccount>)
    requires forall i :: 0 <= i < |ledger| ==> HasStatementFamily(ledger[i].accountCode)
    requires forall i :: 0 <= i < |ledger| ==>
               ledger[i].balance == SignedBalance(ledger[i].accountCode, ledger[i].totalDebit, ledger[i].totalCredit)
    ensures SumNet(ledger) ==
            SumBalance(Family(ledger, '1')) - SumBalance(Family(ledger, '2')) - SumBalance(Family(ledger, '3'))
            - SumBalance(Family(ledger, '4')) + SumBalance(Family(ledger, '5'))
    decreases |ledger|
  {
    if |ledger| > 0 {
      var front := ledger[..|ledger| - 1];
      var a := ledger[|ledger| - 1];
      FamilySplit(front);
      FamilySnoc(ledger, '1');
      FamilySnoc(ledger, '2');
      FamilySnoc(ledger, '3');
      FamilySnoc(ledger, '4');
      FamilySnoc(ledger, '5');
      assert SumNet(ledger) == SumNet(front) + AccountNet(a);
      assert HasStatementFamily(a.accountCode);
      assert a.balance == SignedBalance(a.accountCode, a.totalDebit, a.totalCredit);
    }
  }

  /**
   * The accounting identity: when the lines the ledger keeps balance and every
   * chart code starts with 1..5, assets equal liabilities plus equity
   * (equity including the period's net income).
   */
  lemma AccountingIdentity(chart: seq<Account>, lines: seq<Line>)
    requires forall i :: 0 <= i < |chart| ==> HasStatementFamily(chart[i].code)
    requires Balanced(Posted(chart, lines))
    ensures var bs := StatementsOf(GeneralLedger(chart, lines)).balanceSheet;
            bs.totalAssets == bs.totalLiabilities + bs.totalEquity
  {
    var ledger := GeneralLedger(chart, lines);
    GeneralLedgerDescribes(chart, lines);
    forall i | 0 <= i < |ledger| ensures HasStatementFamily(ledger[i].accountCode) {
      assert InChart(chart, ledger[i].accountCode);
    }
    FamilySplit(ledger);
    LedgerNet(chart, lines);
    SumNetOfPermutation(ledger, LedgerOf(chart, lines));
  }

  /** With every line on a chart account, balanced lines are all it takes. */
  lemma AccountingIdentityForChartLines(chart: seq<Account>, lines: seq<Line>)
    requires forall i :: 0 <= i < |chart| ==> HasStatementFamily(chart[i].code)
    requires forall l :: l in lines ==> InChart(chart, l.accountCode)
    requires Balanced(lines)
    ensures var bs := StatementsOf(GeneralLedger(chart, lines)).balanceSheet;
            bs.totalAssets == bs.totalLiabilities + bs.totalEquity
  {
    AccountingIdentity(chart, lines);
  }

  /** Debits minus credits do not depend on the order of the lines. */
  lemma {:induction false} NetOfPermutation(a: seq<Line>, b: seq<Line>)
    requires multiset(a) == multiset(b)
    ensures Net(a) == Net(b)
    decreases |a|
  {
    if |a| == 0 {
      assert |b| == |multiset(b)| == 0;
    } else {
      var x := a[0];
      assert x in multiset(b);
      var i :| 0 <= i < |b| && b[i] == x;
      var rest := b[..i] + b[i + 1..];
      assert b == b[..i] + [x] + b[i + 1..];
      assert a == [x] + a[1..];
      assert multiset(a) == multiset{x} + multiset(a[1..]);
      assert multiset(b) == multiset(b[..i]) + multiset{x} + multiset(b[i + 1..]);
      assert multiset(rest) == multiset(b[..i]) + multiset(b[i + 1..]);
      assert multiset(a[1..]) == multiset(a) - multiset{x};
      assert multiset(rest) == multiset(b) - multiset{x};
      NetOfPermutation(a[1..], rest);
      TotalsAppend([x], a[1..]);
      TotalsAppend(b[..i], [x]);
      TotalsAppend(b[..i] + [x], b[i + 1..]);
      TotalsAppend(b[..i], b[i + 1..]);
    }
  }

  /** For a debit-normal code, the net amount of its ledger entries is its balance (0 with no record). */
  lemma DebitNormalNet(chart: seq<Account>, lines: seq<Line>, code: string)
    requires DebitNormal(code)
    ensures var ledger := GeneralLedger(chart, lines);
            Net(EntriesOrEmpty(ledger, code)) == BalanceOrZero(ledger, code)
  {
    GeneralLedgerDescribes(chart, lines);
    assert Lookup(GeneralLedger(chart, lines), code) == Expected(chart, lines, code);
  }

  /** The cash-flow lines carry the net cash flow when each of the two accounts' lines carries its balance. */
  lemma CashFlowNetOf(ledger: seq<LedgerAccount>)
    requires Net(EntriesOrEmpty(ledger, "1101")) == BalanceOrZero(ledger, "1101")
    requires Net(EntriesOrEmpty(ledger, "1102")) == BalanceOrZero(ledger, "1102")
    ensures var cf := StatementsOf(ledger).cashFlow;
            Net(cf.entries) == cf.netCashFlow
  {
    var cash := EntriesOrEmpty(ledger, "1101");
    var bank := EntriesOrEmpty(ledger, "1102");
    var cf := StatementsOf(ledger).cashFlow;
    NetOfPermutation(cf.entries, cash + bank);
    TotalsAppend(cash, bank);
  }

  /** Cash and bank are debit-normal, so the cash-flow lines' net amount is the net cash flow. */
  lemma CashFlowNet(chart: seq<Account>, lines: seq<Line>)
    ensures var cf := StatementsOf(GeneralLedger(chart, lines)).cashFlow;
            Net(cf.entries) == cf.netCashFlow
  {
    DebitNormalNet(chart, lines, "1101");
    DebitNormalNet(chart, lines, "1102");
    CashFlowNetOf(GeneralLedger(chart, lines));
  }
}

=== FILE: statements_view.dfy ===
/**
 * What the statements page derives from the statements: account rows shown
 * as absolute balances under signed section totals, the cash-flow table with
 * its running balance and the net-cash banner, and the statement of changes
 * in equity, whose opening balances are all zero.
 */
module StatementsView {
  import opened Text
  import opened Chart
  import opened Journal
  import opened Ledger
  import opened Statements
  import opened LedgerView

  /** The amounts of a section's rows: each account's absolute balance. */
  function SectionRows(accounts: seq<LedgerAccount>): (r: seq<real>)
    ensures |r| == |accounts|
    ensures forall i :: 0 <= i < |accounts| ==> r[i] == Abs(accounts[i].balance)
  {
    seq(|accounts|, i requires 0 <= i < |accounts| => Abs(accounts[i].balance))
  }

  function Sum(xs: seq<real>): real {
    if |xs| == 0 then 0.0 else Sum(xs[..|xs| - 1]) + xs[|xs| - 1]
  }

  /**
   * The rows shown under a section add up to at least its signed total, and
   * to exactly that total only when no account in it has a negative balance.
   */
  lemma {:induction false} ShownRowsAgainstTotal(accounts: seq<LedgerAccount>)
    ensures Sum(SectionRows(accounts)) >= SumBalance(accounts)
    ensures Sum(SectionRows(accounts)) == SumBalance(accounts) <==>
            forall i :: 0 <= i < |accounts| ==> accounts[i].balance >= 0.0
    decreases |accounts|
  {
    if |accounts| > 0 {
      var front := accounts[..|accounts| - 1];
      var last := accounts[|accounts| - 1];
      ShownRowsAgainstTotal(front);
      assert SectionRows(accounts)[..|front|] == SectionRows(front);
      assert Sum(SectionRows(accounts)) == Sum(SectionRows(front)) + Abs(last.balance);
      if forall i :: 0 <= i < |front| ==> front[i].balance >= 0.0 {
        if last.balance >= 0.0 {
          forall i | 0 <= i < |accounts| ensures accounts[i].balance >= 0.0 {
            if i < |front| {
              assert accounts[i] == front[i];
            }
          }
        }
      } else {
        var i :| 0 <= i < |front| && front[i].balance < 0.0;
        assert accounts[i].balance < 0.0;
      }
    }
  }

  /**
   * The cash-flow table and the net-cash banner: the banner's label reads
   * "Flujo Positivo" exactly when the net cash flow is not negative, and
   * the last row's running balance is the net cash flow.
   */
  method CashFlowTable(chart: seq<Account>, lines: seq<Line>) returns (rows: seq<Row>, banner: Magnitude)
    ensures var cf := StatementsOf(GeneralLedger(chart, lines)).cashFlow;
            && |rows| == |cf.entries|
            && (|rows| > 0 ==> rows[|rows| - 1].running == cf.netCashFlow)
            && (banner.nonNegative <==> cf.netCashFlow >= 0.0)
            && banner.amount == Abs(cf.netCashFlow)
  {
    var cf := StatementsOf(GeneralLedger(chart, lines)).cashFlow;
    rows := Rows(cf.entries);
    CashFlowNet(chart, lines);
    banner := MagnitudeOf(cf.netCashFlow);
  }

  /** A row of the statement of changes in equity; `None` is a cell shown as '-'. */
  datatype EquityRow = EquityRow(capital: Option<real>, retained: Option<real>, periodIncome: real, total: real)

  datatype EquityChanges = EquityChanges(opening: EquityRow, income: EquityRow, closing: EquityRow)

  /** The statement of changes in equity, built from the net income alone. */
  function EquityChangesOf(income: IncomeStatement): (v: EquityChanges)
    ensures v.opening == EquityRow(Some(0.0), Some(0.0), 0.0, 0.0)
    ensures v.opening.total + v.income.total == v.closing.total
    ensures v.opening.periodIncome + v.income.periodIncome == v.closing.periodIncome
  {
    EquityChanges(
      EquityRow(Some(0.0), Some(0.0), 0.0, 0.0),
      EquityRow(None, None, income.netIncome, income.netIncome),
      EquityRow(Some(0.0), Some(0.0), income.netIncome, income.netIncome))
  }

  /**
   * The closing equity of the view is the net income, not the balance
   * sheet's total equity: the two agree exactly when the equity accounts
   * balance to zero.
   */
  lemma EquityViewClosesAtNetIncome(ledger: seq<LedgerAccount>)
    ensures var fs := StatementsOf(ledger);
            var v := EquityChangesOf(fs.incomeStatement);
            && v.closing.total == fs.incomeStatement.netIncome
            && (v.closing.total == fs.balanceSheet.totalEquity <==> SumBalance(fs.balanceSheet.equity) == 0.0)
  {
  }
}

=== FILE: text.dfy ===
/**
 * Text-level helpers shared by the engine and the forms: the value of an
 * `<input type="number">` field, the JavaScript parsing rules applied to it,
 * string prefixes and the `slice(-4)` used to derive entry ids.
 */
module Text {

  /** The value of a numeric input: the empty string, or a numeric string. */
  datatype NumText = Blank | Num(v: real)

  datatype Option<T> = None | Some(value: T)

  /** Why a form refused to submit. */
  datatype Reason = MissingFields | MissingAccount | Unbalanced | DuplicateCode

  /** The result of submitting a form: the data passed on, or a refusal. */
  datatype Submission<T> = Accepted(value: T) | Rejected(reason: Reason)

  /** JavaScript truthiness of a numeric input: only "" is falsy ("0" is not). */
  predicate Filled(t: NumText) {
    t.Num?
  }

  /**
   * The number a form reads from an input, falling back to zero: an empty
   * field does not parse and reads as 0, and any number reads as itself.
   * Plain numeric coercion of the field gives the same value.
   */
  function ParseFloatOrZero(t: NumText): (r: real)
    ensures t.Blank? ==> r == 0.0
    ensures t.Num? ==> r == t.v
  {
    match t
    case Blank => 0.0
    case Num(v) => v
  }

  /** Truncation toward zero, the integer part `parseInt` keeps of a decimal string. */
  function Trunc(v: real): (r: int)
    ensures v >= 0.0 ==> r as real <= v < r as real + 1.0
    ensures v < 0.0 ==> r as real - 1.0 < v <= r as real
  {
    if v >= 0.0 then v.Floor else -((-v).Floor)
  }

  /** `parseInt` keeps whole numbers unchanged. */
  lemma TruncOfWhole(n: int)
    ensures Trunc(n as real) == n
  {
  }

  /** Whether `p` is a prefix of `s`. */
  predicate StartsWith(s: string, p: string) {
    |p| <= |s| && s[..|p|] == p
  }

  /** The last four characters, or all of a shorter string. */
  function Last4(s: string): (r: string)
    ensures |r| == if |s| < 4 then |s| else 4
    ensures s == s[..|s| - |r|] + r
  {
    if |s| <= 4 then s else s[|s| - 4..]
  }

  /** The elements at every position other than `index`, in order. */
  function RemoveAt<T>(s: seq<T>, index: int): (r: seq<T>)
    ensures 0 <= index < |s| ==> r == s[..index] + s[index + 1..]
    ensures !(0 <= index < |s|) ==> r == s
    decreases |s|
  {
    if |s| == 0 then []
    else
      var rest := RemoveAt(s[1..], index - 1);
      assert 0 < index <= |s| - 1 ==> s[1..][..index - 1] == s[1..index] && s[1..][index..] == s[index + 1..];
      assert s == [s[0]] + s[1..];
      (if index == 0 then [] else [s[0]]) + rest
  }

  /**
   * The elements `drop` rejects, in their original order and with their
   * multiplicity: what a JavaScript `filter` with the negated test keeps.
   */
  function Without<T(!new)>(xs: seq<T>, drop: T -> bool): (r: seq<T>)
    ensures forall x :: x in r <==> x in xs && !drop(x)
    ensures |r| <= |xs|
    ensures (forall x :: x in xs ==> !drop(x)) ==> r == xs
    ensures (forall x :: x in xs ==> drop(x)) ==> r == []
  {
    if |xs| == 0 then []
    else
      var rest := Without(xs[1..], drop);
      assert xs == [xs[0]] + xs[1..];
      if drop(xs[0]) then rest else [xs[0]] + rest
  }

  /**
   * Filtering distributes over concatenation. With the two cases above for a
   * single element, this pins `Without` down as an order-preserving filter.
   */
  lemma {:induction false} WithoutConcat<T(!new)>(a: seq<T>, b: seq<T>, drop: T -> bool)
    ensures Without(a + b, drop) == Without(a, drop) + Without(b, drop)
  {
    if |a| > 0 {
      assert (a + b)[1..] == a[1..] + b;
      WithoutConcat(a[1..], b, drop);
    } else {
      assert a + b == b;
    }
  }

  /** Every element `hit` accepts becomes `x`; the others stay where they are. */
  function ReplaceWhere<T>(xs: seq<T>, hit: T -> bool, x: T): (r: seq<T>)
    ensures |r| == |xs|
    ensures forall i :: 0 <= i < |r| ==> r[i] == (if hit(xs[i]) then x else xs[i])
  {
    seq(|xs|, i requires 0 <= i < |xs| => if hit(xs[i]) then x else xs[i])
  }

  /** Adding a line and removing it again gives the lines back. */
  lemma RemoveAddedLine<T>(s: seq<T>, x: T)
    ensures RemoveAt(s + [x], |s|) == s
  {
    assert (s + [x])[..|s|] == s;
  }
}

=== FILE: transaction_form.dfy ===
/**
 * The sale/purchase form: the type, product, quantity and price fields, the
 * total recomputed whenever one of them changes, the price filled in from the
 * chosen product (its sale price for a sale, its cost otherwise), and a submit
 * that requires type, product, quantity and price.
 */
module TransactionForm {
  import opened Text
  import opened Inventory
  import opened Posting

  /** The form as it holds its fields; the type is the select's string value. */
  datatype Form = Form(
    kind: string,
    productId: string,
    productName: string,
    quantity: NumText,
    unitPrice: NumText,
    total: NumText,
    contactId: string,
    date: int)

  /** The empty form: a sale with every other field blank. */
  function Fresh(today: int): Form {
    Form("sale", "", "", Blank, Blank, Blank, "", today)
  }

  /** The form loaded with a transaction to edit. */
  function Prefill(tx: Transaction, typeName: string): (f: Form)
    requires ParseType(typeName) == tx.kind
    ensures ParseType(f.kind) == tx.kind
    ensures f.productId == tx.productId && f.contactId == tx.contactId && f.date == tx.date
    ensures Filled(f.quantity) && Filled(f.unitPrice) && Filled(f.total)
    ensures Trunc(f.quantity.v) == tx.quantity
    ensures f.unitPrice.v == tx.unitPrice && ParseFloatOrZero(f.total) == tx.total
  {
    TruncOfWhole(tx.quantity);
    Form(typeName, tx.productId, tx.productName, Num(tx.quantity as real), Num(tx.unitPrice), Num(tx.total), tx.contactId, tx.date)
  }

  /** The fields `handleChange` is called with. */
  datatype Change =
    | SetType(kind: string)
    | SetProduct(productId: string)
    | SetQuantity(quantity: NumText)
    | SetPrice(unitPrice: NumText)
    | SetContact(contactId: string)
    | SetDate(date: int)

  /** The total: quantity times unit price, each blank field read as 0. */
  function Amount(quantity: NumText, unitPrice: NumText): real {
    ParseFloatOrZero(quantity) * ParseFloatOrZero(unitPrice)
  }

  /** The price the form offers for a product: its sale price for a sale, its cost for anything else. */
  function OfferedPrice(kind: string, p: Product): real {
    if kind == "sale" then p.price else p.cost
  }

  /**
   * `handleChange`. A change of type, product, quantity or price recomputes
   * the total from the updated quantity and price; a change of type or
   * product also takes the price and name of the product (looked up by the
   * new id for a product change, by the current id for a type change) when
   * it exists.
   */
  function HandleChange(products: seq<Product>, f: Form, c: Change): (r: Form)
    ensures c.SetContact? ==> r == f.(contactId := c.contactId)
    ensures c.SetDate? ==> r == f.(date := c.date)
    ensures c.SetQuantity? ==> r == f.(quantity := c.quantity, total := r.total)
    ensures c.SetPrice? ==> r == f.(unitPrice := c.unitPrice, total := r.total)
    ensures (c.SetType? || c.SetProduct?) && FindProduct(products, r.productId).Some? ==>
              r.unitPrice == Num(OfferedPrice(r.kind, FindProduct(products, r.productId).value))
              && r.productName == FindProduct(products, r.productId).value.name
    ensures c.SetType? ==> r.kind == c.kind && r.productId == f.productId && r.quantity == f.quantity
    ensures c.SetProduct? ==> r.productId == c.productId && r.kind == f.kind && r.quantity == f.quantity
    ensures !c.SetContact? && !c.SetDate? ==>
              r.total == Num(Amount(r.quantity, r.unitPrice))
  {
    match c
    case SetContact(x) => f.(contactId := x)
    case SetDate(d) => f.(date := d)
    case SetType(k) => Recompute(products, f.(kind := k), true)
    case SetProduct(id) => Recompute(products, f.(productId := id), true)
    case SetQuantity(q) => Recompute(products, f.(quantity := q), false)
    case SetPrice(u) => Recompute(products, f.(unitPrice := u), false)
  }

  /** The second half of `handleChange`: optionally take the product's price and name, then recompute the total. */
  function Recompute(products: seq<Product>, updated: Form, takeProduct: bool): (r: Form)
    ensures r.kind == updated.kind && r.productId == updated.productId && r.quantity == updated.quantity
    ensures r.contactId == updated.contactId && r.date == updated.date
    ensures r.total == Num(Amount(r.quantity, r.unitPrice))
    ensures !takeProduct || FindProduct(products, r.productId).None? ==> r == updated.(total := r.total)
    ensures takeProduct && FindProduct(products, r.productId).Some? ==>
              r.unitPrice == Num(OfferedPrice(r.kind, FindProduct(products, r.productId).value))
              && r.productName == FindProduct(products, r.productId).value.name
  {
    var priced :=
      match FindProduct(products, updated.productId)
      case Some(p) =>
        if takeProduct then updated.(unitPrice := Num(OfferedPrice(updated.kind, p)), productName := p.name) else updated
      case None => updated;
    priced.(total := Num(Amount(priced.quantity, priced.unitPrice)))
  }

  /** `handleProductSelect`: only a product that exists is taken, with the price for the current type. */
  function SelectProduct(products: seq<Product>, f: Form, productId: string): (r: Form)
    ensures FindProduct(products, productId).None? ==> r == f
    ensures FindProduct(products, productId).Some? ==>
              var p := FindProduct(products, productId).value;
              r == f.(productId := productId, productName := p.name, unitPrice := Num(OfferedPrice(f.kind, p)),
                      total := Num(Amount(f.quantity, Num(OfferedPrice(f.kind, p)))))
  {
    match FindProduct(products, productId)
    case None => f
    case Some(p) =>
      var price := OfferedPrice(f.kind, p);
      f.(productId := productId, productName := p.name, unitPrice := Num(price),
         total := Num(Amount(f.quantity, Num(price))))
  }

  /**
   * The total shown agrees with the quantity and price, and is filled in as
   * soon as a quantity is.
   */
  predicate TotalCurrent(f: Form) {
    && ParseFloatOrZero(f.total) == Amount(f.quantity, f.unitPrice)
    && (Filled(f.quantity) ==> Filled(f.total))
  }

  /** The empty form and every edit keep the total current. */
  lemma TotalStaysCurrent(products: seq<Product>, f: Form, c: Change, productId: string, today: int)
    ensures TotalCurrent(Fresh(today))
    ensures TotalCurrent(f) ==> TotalCurrent(HandleChange(products, f, c))
    ensures TotalCurrent(f) ==> TotalCurrent(SelectProduct(products, f, productId))
  {
  }

  /**
   * `handleSubmit`: the transaction handed to the engine, or the refusal.
   * An edit keeps the edited transaction's id; a new one takes the id the
   * engine generates.
   */
  function Submit(f: Form, editing: Option<Transaction>, generatedId: string): (r: Submission<Transaction>)
    ensures r.Accepted? <==> f.kind != "" && f.productId != "" && Filled(f.quantity) && Filled(f.unitPrice)
    ensures r.Rejected? ==> r.reason == MissingFields
    ensures r.Accepted? ==>
              && r.value.id == (if editing.Some? then editing.value.id else generatedId)
              && r.value.kind == ParseType(f.kind)
              && r.value.productId == f.productId && r.value.productName == f.productName
              && r.value.contactId == f.contactId && r.value.date == f.date
              && r.value.unitPrice == f.unitPrice.v
              && r.value.total == ParseFloatOrZero(f.total)
              && (f.quantity.v >= 0.0 ==> r.value.quantity as real <= f.quantity.v < r.value.quantity as real + 1.0)
  {
    if f.kind == "" || f.productId == "" || !Filled(f.quantity) || !Filled(f.unitPrice) then Rejected(MissingFields)
    else
      var id := match editing case Some(prev) => prev.id case None => generatedId;
      Accepted(Transaction(id, ParseType(f.kind), f.productId, f.productName, Trunc(f.quantity.v),
                           f.unitPrice.v, ParseFloatOrZero(f.total), f.contactId, f.date))
  }

  /** Loading a transaction into the form and saving it unchanged gives the transaction back. */
  lemma PrefillRoundTrip(tx: Transaction, typeName: string)
    requires ParseType(typeName) == tx.kind
    requires typeName != "" && tx.productId != ""
    ensures Submit(Prefill(tx, typeName), Some(tx), "") == Accepted(tx)
  {
    TruncOfWhole(tx.quantity);
  }

  /**
   * A submitted transaction whose quantity and price were entered through the
   * form carries the total of that quantity (as typed, not as truncated) at
   * that price.
   */
  lemma SubmittedTotal(f: Form, editing: Option<Transaction>, generatedId: string)
    requires TotalCurrent(f)
    requires Submit(f, editing, generatedId).Accepted?
    ensures Submit(f, editing, generatedId).value.total == f.quantity.v * Submit(f, editing, generatedId).value.unitPrice
  {
  }
}
